=== FILE: README.md ===
# EcoSwap rules, modelled in Dafny

EcoSwap is an Android marketplace where neighbours swap, donate and bid on
second-hand items, chat about them and post to a community feed.  Every screen
builds a REST request for its backend and then applies small, deterministic
rules to the rows, form input and flags it has.  This project models those
rules as pure Dafny functions over immutable datatypes, and proves what each
screen promises about them.

The modules follow the app's screens and helpers:

- `Trades`: the trade record predicates (completed, can confirm, can upload
  proof), the swap, donation and completed-post rows turned into records, and
  the view decisions of the trade history list and the trade detail screen.
- `Impact`: the counters, the score 2·swaps + 3·donations + purchases, the
  five-level eco ladder and its agreement with the profile's progress bands,
  and who is credited when a listing completes.
- `ConversationMetadata`: the on-device store of conversation context, with its
  "null"/"undefined"/blank normaliser, the `"direct"` fallback key, and the
  archived and blocked sets.
- `Inbox` and `InboxList`: chat rows grouped into one conversation per
  (counterpart, listing), unread counts, the listing title and image
  resolution, and the tab and search filters.
- `Marketplace`, `MyListings`, `CreateListing`, `ListingPreview`,
  `SelectedImages`, `Uploads`, `Community`: the listing feeds, the listing
  form and its photo uploads, the bucket fallbacks, the sample-size loop, and
  the community feed with its optimistic like.
- `Auth`, `Profile`, `Bids`, `Chat`, `Notifications`, `Initials`, `Dates`,
  `FeatureCompat`: form checks, error classifiers, the session state each
  sign-in saves, the resend gate, the bio sync, avatar initials, relative
  times and the optional-column switches.
- `JavaText`, `JavaMath`, `Sequences`, `Sorting`, `Wrappers`: the Java library
  behaviour the rules depend on.  This covers `trim`, `split`, `join`, ASCII
  case mapping, truncating division, filtering loops, `LinkedHashMap`
  first-appearance order and the stable `Collections.sort`.  `Wrappers` holds
  the null-able value and the JSON values of the request payloads.

Backend responses, error texts, the clock, parsed timestamps, distances,
connectivity and fresh ids come in as parameters.

## Model

| member | source | states |
|---|---|---|
| Trades.NewRecord | app/src/main/java/com/example/ecoswap/dashboard/trades/TradeRecord.java:61-65 | a new record keeps the id, type and creation time it is built with, and every other field starts out null |
| Trades.SetStatus | app/src/main/java/com/example/ecoswap/dashboard/trades/TradeRecord.java:83-85 | the setter changes the status only; id, type and creation time are untouched |
| Trades.SetCompletedAt | app/src/main/java/com/example/ecoswap/dashboard/trades/TradeRecord.java:92-94 | the setter changes the completion time only; id, type and creation time are untouched |
| Trades.SetPrimaryItem | app/src/main/java/com/example/ecoswap/dashboard/trades/TradeRecord.java:100-102 | the setter changes the primary item only |
| Trades.SetSecondaryItem | app/src/main/java/com/example/ecoswap/dashboard/trades/TradeRecord.java:109-111 | the setter changes the secondary item only |
| Trades.SetCounterpartyId | app/src/main/java/com/example/ecoswap/dashboard/trades/TradeRecord.java:118-120 | the setter changes the counterparty id only |
| Trades.SetCounterpartyName | app/src/main/java/com/example/ecoswap/dashboard/trades/TradeRecord.java:127-129 | the setter changes the counterparty name only |
| Trades.SetReceiverName | app/src/main/java/com/example/ecoswap/dashboard/trades/TradeRecord.java:136-138 | the setter changes the receiver name only |
| Trades.SetPickupLocation | app/src/main/java/com/example/ecoswap/dashboard/trades/TradeRecord.java:145-147 | the setter changes the pickup location only |
| Trades.SetProofPhotoUrl | app/src/main/java/com/example/ecoswap/dashboard/trades/TradeRecord.java:154-156 | the setter changes the proof photo URL only |
| Trades.PredicatesExclusive | app/src/main/java/com/example/ecoswap/dashboard/trades/TradeRecord.java:158-168 | a record is never both completed and confirmable; with a null status none of the three predicates holds; proof upload is allowed exactly when the record is completed; a record with a status is one of completed or confirmable exactly when the status is not "cancelled" in any case |
| Trades.PredicatesIgnoreCase | app/src/main/java/com/example/ecoswap/dashboard/trades/TradeRecord.java:170-179 | completed and confirmable depend on the status only up to letter case |
| Trades.StatusCases | app/src/main/java/com/example/ecoswap/dashboard/trades/TradeRecord.java:170-179 | for every status: completed exactly when it is "completed", "swapped" or "donated" ignoring case; confirmable exactly when neither completed nor "cancelled" ignoring case, the empty status included; a cancelled record is neither |
| Trades.ParseSwap | app/src/main/java/com/example/ecoswap/dashboard/listings/MyListingsFragment.java:497-526 | a swap row gives a SWAP record with the row's id, time, proof URL and status (default "pending"); when the current user is user1, post1 is primary, post2 secondary and user2 the counterparty, and otherwise the mirror |
| Trades.SwapOrientation | app/src/main/java/com/example/ecoswap/dashboard/listings/MyListingsFragment.java:512-526 | for a participant of a swap between two different users, the record holds both posts and the counterparty is the other participant |
| Trades.SwapMirror | app/src/main/java/com/example/ecoswap/dashboard/listings/MyListingsFragment.java:512-526 | the two participants see the same swap with primary and secondary items exchanged and each other as counterparty |
| Trades.ParseDonation | app/src/main/java/com/example/ecoswap/dashboard/listings/MyListingsFragment.java:538-559 | a donation row gives a DONATION record with the row's receiver name, pickup and post; the counterparty is the receiver when the current user is the donor, else the donor; completion time and proof URL are copied and the counterparty name is left unset |
| Trades.DonationMirror | app/src/main/java/com/example/ecoswap/dashboard/listings/MyListingsFragment.java:554-558 | donor and receiver see the same donation record, each with the other as counterparty |
| Trades.ParseCompletedPost | app/src/main/java/com/example/ecoswap/dashboard/listings/MyListingsFragment.java:571-583 | a completed post becomes a DONATION exactly when its status (default "swapped") is "donated" ignoring case, with the post as primary item and no counterparty or proof |
| Trades.CompletedPostKinds | app/src/main/java/com/example/ecoswap/dashboard/listings/MyListingsFragment.java:577-581 | a post without status becomes a completed SWAP, and a post with a completed status a completed record |
| Trades.PendingLookups | app/src/main/java/com/example/ecoswap/dashboard/listings/MyListingsFragment.java:528-530 | an id is looked up exactly when it is a non-empty counterparty id of some record and is not in the name cache |
| Trades.OnPortionLoaded | app/src/main/java/com/example/ecoswap/dashboard/listings/MyListingsFragment.java:605-615 | each report decrements the counter; the screen waits while it stays positive, then fetches names when lookups are pending and publishes otherwise |
| Trades.PublishOnlyAfterAllPortions | app/src/main/java/com/example/ecoswap/dashboard/listings/MyListingsFragment.java:408 | starting from 3, the first two reports wait and the third goes on |
| Trades.NewestFirstIsPreorder | app/src/main/java/com/example/ecoswap/dashboard/listings/MyListingsFragment.java:661 | the newest-first comparison is a total preorder |
| Trades.NameAll | app/src/main/java/com/example/ecoswap/dashboard/listings/MyListingsFragment.java:656-660 | every record keeps its position; a record with a counterparty gets the cached name of that user, or null exactly when the name is not cached, and no other field of any record changes |
| Trades.PublishTradeRecords | app/src/main/java/com/example/ecoswap/dashboard/listings/MyListingsFragment.java:655-661 | the published list is a permutation of the named records |
| Trades.PublishOrder | app/src/main/java/com/example/ecoswap/dashboard/listings/MyListingsFragment.java:661 | the published list is newest first, and records with equal creation times keep their fetch order (the sort is stable) |
| Trades.ProofStatusFor | app/src/main/java/com/example/ecoswap/dashboard/trades/TradeHistoryAdapter.java:187-195 | "uploaded" exactly when a proof exists, "locked" exactly when there is none and upload is not allowed, else "missing" |
| Trades.BindHistoryRow | app/src/main/java/com/example/ecoswap/dashboard/trades/TradeHistoryAdapter.java:97-209 | the row says confirmed iff the record is completed, shows the confirm button iff it can be confirmed, shows the secondary image only for a swap with a secondary item, enables upload iff proof upload is allowed, reads "replace" iff a proof exists, appends the pickup only for a donation with one, and names the partner or receiver or the placeholder |
| Trades.HistoryRowConsistent | app/src/main/java/com/example/ecoswap/dashboard/trades/TradeHistoryAdapter.java:165-209 | a row never shows the confirm button with an enabled upload button, a locked proof always has upload disabled, and confirmed rows are exactly the ones with upload enabled |
| Trades.BindDetail | app/src/main/java/com/example/ecoswap/dashboard/trades/TradeDetailActivity.java:125-213 | rating is available iff trade, counterparty and current user ids are non-empty; the trade counts as completed iff completedAt > 0 or the type is non-empty; proof upload is allowed iff it was passed in or the trade is completed; the pickup line shows the location exactly when it is non-empty and not "null" in any case |
| Trades.PickupHidesPlaceholder | app/src/main/java/com/example/ecoswap/dashboard/trades/TradeDetailActivity.java:207-213 | a pickup stored as "NULL" is hidden and a real place is shown as given |
| Trades.BindNeverRevokesUpload | app/src/main/java/com/example/ecoswap/dashboard/trades/TradeDetailActivity.java:151-155 | binding never turns proof upload off, and a completed trade can always take a proof |
| Trades.RenderProofSection | app/src/main/java/com/example/ecoswap/dashboard/trades/TradeDetailActivity.java:225-258 | the proof label follows the shared uploaded/missing/locked rule, the view button shows iff a proof exists, and the add button shows iff upload is allowed and reads "replace" iff a proof exists too |
| Trades.OnProofUploaded | app/src/main/java/com/example/ecoswap/dashboard/trades/TradeDetailActivity.java:317-320 | a successful upload records the URL and allows proof upload, and leaves the rating and completion flags as they were |
| Trades.UploadedProofShows | app/src/main/java/com/example/ecoswap/dashboard/trades/TradeDetailActivity.java:317-320 | after uploading a non-empty URL the section shows the proof as uploaded with view and replace buttons |
| Trades.RoundHalfUp | app/src/main/java/com/example/ecoswap/dashboard/trades/TradeDetailActivity.java:377 | the rounded rating is within one half of the star value, with halves rounding up |
| Trades.SubmitRatingOutcome | app/src/main/java/com/example/ecoswap/dashboard/trades/TradeDetailActivity.java:372-381 | rating is refused iff there is no client or rating is unavailable; otherwise the stars are rounded half up, a rounded value of at least 1 is the rating sent, and a smaller one asks the user to pick a rating |
| Trades.WholeStarsSent | app/src/main/java/com/example/ecoswap/dashboard/trades/TradeDetailActivity.java:377 | a whole number of stars from one up is sent unchanged, and an extra half star rounds up to the next number |
| ConversationMetadata.Normalize | app/src/main/java/com/example/ecoswap/utils/ConversationMetadataStore.java:157-170 | the result is present exactly when the value is present and its trimmed text is not empty, "null" or "undefined" in any case, and then it is that trimmed, non-empty text; the chat screen (`sanitizeMetadataValue`, ChatFragment.java:1230-1243) and the inbox (`sanitizeMetadata`, MessagesFragment.java:522-535) repeat this rule |
| ConversationMetadata.NormalizeIdempotent | app/src/main/java/com/example/ecoswap/utils/ConversationMetadataStore.java:157-170 | normalizing a normalized value changes nothing |
| ConversationMetadata.MeaningfulIffNotPlaceholder | app/src/main/java/com/example/ecoswap/chat/ChatFragment.java:1245-1247 | a value is meaningful exactly when it sanitizes to a non-empty value, that is, when its trimmed text is not a placeholder |
| ConversationMetadata.ListingPart | app/src/main/java/com/example/ecoswap/utils/ConversationMetadataStore.java:152-155 | the listing part of a key is "direct" for a null or empty listing id and the id itself otherwise |
| ConversationMetadata.BuildKeyInjective | app/src/main/java/com/example/ecoswap/utils/ConversationMetadataStore.java:152-155 | for user ids without a bar, two keys are equal exactly when the user ids and the listing parts are equal |
| ConversationMetadata.NullAndEmptyListingAgree | app/src/main/java/com/example/ecoswap/utils/ConversationMetadataStore.java:153 | a null and an empty listing id give the same key |
| ConversationMetadata.SaveListingContext | app/src/main/java/com/example/ecoswap/utils/ConversationMetadataStore.java:33-66 | saving never touches the archived or blocked sets; it changes nothing for an empty user id or when all three values normalize to null; entries under keys other than the listing key and the direct key are kept, and no key other than those two is added |
| ConversationMetadata.SavedEntry | app/src/main/java/com/example/ecoswap/utils/ConversationMetadataStore.java:45-61 | after a save the listing key holds exactly the normalized listing id, title and image |
| ConversationMetadata.GetListingContext | app/src/main/java/com/example/ecoswap/utils/ConversationMetadataStore.java:127-150 | a context is returned exactly when the user id is non-empty and there is an entry under the listing key, or, for a non-empty listing id, under the direct key; the listing key's entry wins; the title and image are the entry's normalized; the listing id is the stored one normalized, else the queried one |
| ConversationMetadata.SaveThenGet | app/src/main/java/com/example/ecoswap/utils/ConversationMetadataStore.java:33-150 | saving a context and reading it back under the normalized listing id returns the normalized listing id, title and image |
| ConversationMetadata.SaveThenGetDirect | app/src/main/java/com/example/ecoswap/utils/ConversationMetadataStore.java:62-65 | after saving a context with a listing id, a lookup with no listing id, or with a listing that has no entry of its own, finds the saved context through the direct key |
| ConversationMetadata.SetFlag | app/src/main/java/com/example/ecoswap/utils/ConversationMetadataStore.java:68-80 | with an empty user id the set is unchanged; otherwise the conversation's key is in the set exactly when the flag is on, and every other key keeps its membership |
| ConversationMetadata.SetArchived | app/src/main/java/com/example/ecoswap/utils/ConversationMetadataStore.java:68-80 | archiving updates the archived set by that rule and leaves the contexts and the blocked set alone |
| ConversationMetadata.SetBlocked | app/src/main/java/com/example/ecoswap/utils/ConversationMetadataStore.java:89-101 | blocking updates the blocked set by that rule and leaves the contexts and the archived set alone |
| ConversationMetadata.ArchivedRoundTrip | app/src/main/java/com/example/ecoswap/utils/ConversationMetadataStore.java:68-87 | `isArchived` answers the last value set for the conversation, other conversations keep their answer, and an empty user id is never archived |
| ConversationMetadata.BlockedRoundTrip | app/src/main/java/com/example/ecoswap/utils/ConversationMetadataStore.java:89-108 | `isBlocked` answers the last value set for the conversation, other conversations keep their answer, and an empty user id is never blocked |
| Impact.ApplyCompletion | app/src/main/java/com/example/ecoswap/chat/ChatFragment.java:925-929 | "swapped" adds one swap, "donated" one donation (both compared case-sensitively), any other status nothing, and purchases never change |
| Impact.CompletionScore | app/src/main/java/com/example/ecoswap/chat/ChatFragment.java:921-931 | a completed swap raises the score by 2, a donation by 3, any other status by 0 |
| Impact.ImpactPayload | app/src/main/java/com/example/ecoswap/chat/ChatFragment.java:948-953 | the update carries exactly the swap and donation counters after the completion, the new score, the level the ladder gives that score and that level's icon; My Listings (MyListingsFragment.java:907-949) and the listing preview (ListingPreviewBottomSheet.java:402-447) send the same update |
| Impact.IconFor | app/src/main/java/com/example/ecoswap/chat/ChatFragment.java:932-946 | a seedling for the first level and for any name off the ladder; the other four levels each get their own emoji |
| Impact.IconsDistinct | app/src/main/java/com/example/ecoswap/chat/ChatFragment.java:932-946 | two ladder levels share an icon only when they are the same level |
| Impact.LevelFor | app/src/main/java/com/example/ecoswap/chat/ChatFragment.java:932-946 | scores under 10 are "Beginner EcoSaver" and scores from 100 "Planet Pioneer" (the bands between are stated by Impact.LadderMatchesBands) |
| Impact.BandsContiguous | app/src/main/java/com/example/ecoswap/dashboard/ProfileFragment.java:127-133 | the band table has five bands, starts at 0, each band ends where the next one starts and names it as the next level, and only the last band is open-ended |
| Impact.MatchByName | app/src/main/java/com/example/ecoswap/dashboard/ProfileFragment.java:1027-1038 | the first loop picks the first band, from the loop position on, whose name equals the stored level ignoring case; with no stored level or no such band it picks the first band |
| Impact.MatchByScore | app/src/main/java/com/example/ecoswap/dashboard/ProfileFragment.java:1040-1049 | the second loop, when it moves away from the first loop's choice, picks a band the score falls in |
| Impact.MatchedBandIsScoreBand | app/src/main/java/com/example/ecoswap/dashboard/ProfileFragment.java:1027-1049 | a non-negative score lands in its own band whatever level name is stored; a negative score keeps the band of the stored name |
| Impact.BandUnique | app/src/main/java/com/example/ecoswap/dashboard/ProfileFragment.java:127-133 | a score falls in at most one band |
| Impact.RoundDiv | app/src/main/java/com/example/ecoswap/dashboard/ProfileFragment.java:1069 | the rounded quotient is within one half of a over b, with halves rounding up |
| Impact.CalculateEcoProgress | app/src/main/java/com/example/ecoswap/dashboard/ProfileFragment.java:1027-1075 | the progress names the matched band's level; the percentage is within 0..100 and the remaining points are never negative; the level is complete exactly in the last band |
| Impact.ProgressInBand | app/src/main/java/com/example/ecoswap/dashboard/ProfileFragment.java:1051-1075 | inside one band, "Level complete" exactly when the band has no next level, otherwise a percentage within 0..100 and non-negative remaining points |
| Impact.LadderMatchesBands | app/src/main/java/com/example/ecoswap/chat/ChatFragment.java:932-946 | for every non-negative score the level the ladder writes is the band the profile screen shows, and "Planet Pioneer" is exactly the completed level |
| Impact.ProgressArithmetic | app/src/main/java/com/example/ecoswap/dashboard/ProfileFragment.java:1068-1070 | for a score in 0..99 the remaining points reach exactly the next band's start, the percentage is below 100, and it is the share of the band covered rounded to the nearest percent |
| Impact.BandProgressArithmetic | app/src/main/java/com/example/ecoswap/dashboard/ProfileFragment.java:1068-1070 | in any band with a next level and a span under 200, the same rounding and remaining-points facts hold |
| Impact.ShareBelowHundred | app/src/main/java/com/example/ecoswap/dashboard/ProfileFragment.java:1069 | less than a whole band rounds to less than 100 percent |
| Impact.NegativeScoreKeepsNamedBand | app/src/main/java/com/example/ecoswap/dashboard/ProfileFragment.java:1027-1075 | every negative score stays in the band of the stored level name, or the first band, at 0 percent with the points to the next band counted from the score; with no stored level that is Beginner with 10 minus the score to go |
| Impact.NameSelectsBand | app/src/main/java/com/example/ecoswap/dashboard/ProfileFragment.java:1029-1038 | a stored name equal to any band's level ignoring case selects exactly that band |
| Impact.ChatOwner | app/src/main/java/com/example/ecoswap/chat/ChatFragment.java:894-897 | the credited owner is the loaded listing owner, or the owner id the chat was opened with when that is empty |
| Impact.CreditTargets | app/src/main/java/com/example/ecoswap/chat/ChatFragment.java:893-909 | the credited users are at most two distinct non-empty ids, exactly the two given, with the first one first; the chat screen and the listing preview (ListingPreviewBottomSheet.java:388-401) pass the owner then the current user, and My Listings (MyListingsFragment.java:879-894) the current user then the counterparty |
| Impact.ChatCompletionStatus | app/src/main/java/com/example/ecoswap/chat/ChatFragment.java:840-846 | the chat marks a listing "donated" exactly for the selections "donation" and "donated" (case-sensitive), else "swapped" |
| Impact.ListingCompletionStatus | app/src/main/java/com/example/ecoswap/dashboard/listings/MyListingsFragment.java:1085 | My Listings marks a listing "donated" exactly when its type is "donation" ignoring case, else "swapped"; the listing preview (ListingPreviewBottomSheet.java:296-299) uses the same rule |
| Impact.MapImpactStatus | app/src/main/java/com/example/ecoswap/dashboard/listings/MyListingsFragment.java:897-905 | a SWAP record credits "swapped" and a DONATION record "donated" |
| Impact.CompletionStatusesCredit | app/src/main/java/com/example/ecoswap/dashboard/listings/MyListingsFragment.java:897-905 | every status a completion writes is a completed status of a trade record, and crediting it adds 2 or 3 points |
| Inbox.Counterpart | app/src/main/java/com/example/ecoswap/dashboard/MessagesFragment.java:297-298 | the counterpart is the receiver of the user's own rows and the sender of every other row |
| Inbox.RowListingId | app/src/main/java/com/example/ecoswap/dashboard/MessagesFragment.java:291-292 | a row's own sanitized listing id, when non-empty, is the one used (the stored context supplies it only when the row has none) |
| Inbox.FirstFilled | app/src/main/java/com/example/ecoswap/dashboard/MessagesFragment.java:321-357 | the first non-empty candidate: empty exactly when every candidate is empty, and otherwise one of the candidates |
| Inbox.ResolveListing | app/src/main/java/com/example/ecoswap/dashboard/MessagesFragment.java:321-357 | the stored context consulted is the one for the counterpart and the row's sanitized listing id, and the cache only gains or updates the row's own listing id |
| Inbox.FillChain | app/src/main/java/com/example/ecoswap/dashboard/MessagesFragment.java:325-357 | filling only what is still empty, source after source, yields the first non-empty of the four candidates |
| Inbox.ResolvePriority | app/src/main/java/com/example/ecoswap/dashboard/MessagesFragment.java:321-357 | the title shown is the first non-empty of joined listing, message snapshot, stored context and cache, and the image likewise |
| Inbox.NewSummary | app/src/main/java/com/example/ecoswap/dashboard/MessagesFragment.java:365-381 | a new summary previews the row's text and time, counts 1 unread exactly for an unread row from the counterpart, and carries the counterpart and listing id |
| Inbox.Refresh | app/src/main/java/com/example/ecoswap/dashboard/MessagesFragment.java:385-394 | the later updates change only listing metadata and avatar, never the preview, time, unread count, name or counterpart |
| Inbox.Step | app/src/main/java/com/example/ecoswap/dashboard/MessagesFragment.java:287-400 | one row keeps the key order and the key set in step (the LinkedHashMap); a skipped row changes neither, and a kept row appends its key the first time it is seen |
| Inbox.StepAt | app/src/main/java/com/example/ecoswap/dashboard/MessagesFragment.java:362-384 | a kept row with key k creates k's summary from the row or adds its unread bump to the existing one, and every other row leaves k's summary alone |
| Inbox.Upsert | app/src/main/java/com/example/ecoswap/dashboard/MessagesFragment.java:364-381 | setting a summary keeps the keys in the order and in the map the same, with no duplicates |
| Inbox.GroupingOrder | app/src/main/java/com/example/ecoswap/dashboard/MessagesFragment.java:285-403 | the conversations come out in the order their keys first appear among the kept rows, each once |
| Inbox.GroupingSummaries | app/src/main/java/com/example/ecoswap/dashboard/MessagesFragment.java:362-384 | there is a summary for exactly the keys of kept rows; each counts the unread rows of its group and previews the group's first (newest) row |
| Inbox.UnreadInAbsent | app/src/main/java/com/example/ecoswap/dashboard/MessagesFragment.java:362-384 | a key no kept row has has no unread rows and no first row |
| Inbox.NoBlockedConversation | app/src/main/java/com/example/ecoswap/dashboard/MessagesFragment.java:359-361 | every conversation key comes from a kept row, so no shown conversation is blocked |
| Inbox.ParsedList | app/src/main/java/com/example/ecoswap/dashboard/MessagesFragment.java:282-404 | the list shown has one summary per distinct key, in first-appearance order, none blocked, each with its group's unread count and newest row's text and time |
| Inbox.PersistContexts | app/src/main/java/com/example/ecoswap/dashboard/MessagesFragment.java:405-420 | persisting touches no archived or blocked flag, and saves nothing when no summary has a counterpart and some listing id, title or image |
| Inbox.PersistLastReadable | app/src/main/java/com/example/ecoswap/dashboard/MessagesFragment.java:405-420 | the last summary persisted reads back from the store with its normalized listing id, title and image |
| InboxList.NewMessage | app/src/main/java/com/example/ecoswap/dashboard/MessagesAdapter.java:280-293 | the constructor takes every field as given, except that a null item name falls back to the listing title |
| InboxList.SetListingMetadata | app/src/main/java/com/example/ecoswap/dashboard/MessagesAdapter.java:308-320 | a non-empty title becomes both listing title and item name, a non-empty image URL the image, empty values change nothing, and no other field changes |
| InboxList.SetAvatarUrl | app/src/main/java/com/example/ecoswap/dashboard/MessagesAdapter.java:322-324 | only the avatar changes |
| InboxList.SetListingId | app/src/main/java/com/example/ecoswap/dashboard/MessagesAdapter.java:326-330 | an empty id is ignored, a non-empty one replaces the listing id, and no other field changes |
| InboxList.IncrementUnreadCount | app/src/main/java/com/example/ecoswap/dashboard/MessagesAdapter.java:332-334 | the unread count grows by exactly one and nothing else changes |
| InboxList.MatchesQueryIgnoresCase | app/src/main/java/com/example/ecoswap/dashboard/MessagesAdapter.java:336-344 | search gives the same answer for a query and its lower-cased form, and a summary is found by its own user name in any case |
| InboxList.TabBase | app/src/main/java/com/example/ecoswap/dashboard/MessagesAdapter.java:128-144 | the archive tab lists nothing, and every tab other than unread and archive lists all rows |
| InboxList.RebuildFiltered | app/src/main/java/com/example/ecoswap/dashboard/MessagesAdapter.java:146-155 | with an empty query the tab's rows are shown unchanged, and never more rows than the full list |
| InboxList.RebuildFilteredSpec | app/src/main/java/com/example/ecoswap/dashboard/MessagesAdapter.java:128-156 | the rows shown are an order-preserving subsequence of the full list, and a row is shown exactly when it is in the list, the tab is not the archive, it has unread messages when the tab is unread, and it matches the query |
| InboxList.SetQuery | app/src/main/java/com/example/ecoswap/dashboard/MessagesAdapter.java:110-113 | a new search stores the lower-cased query (empty for null), keeps the rows and the tab, and refreshes what is shown |
| InboxList.SetTab | app/src/main/java/com/example/ecoswap/dashboard/MessagesAdapter.java:115-118 | a new tab keeps the rows and the query and refreshes what is shown |
| InboxList.SetInboxMessages | app/src/main/java/com/example/ecoswap/dashboard/MessagesAdapter.java:120-126 | new rows replace the old ones, keep tab and query, and refresh what is shown |
| InboxList.SearchIgnoresCase | app/src/main/java/com/example/ecoswap/dashboard/MessagesAdapter.java:110-113 | searching for a text and for its upper-cased form shows the same rows |
| Marketplace.NormalizeCategory | app/src/main/java/com/example/ecoswap/dashboard/MarketplaceFragment.java:430-446 | no category filter exactly for an empty label or "All" in any case; otherwise the filter is the lower-cased, non-empty label |
| Marketplace.CategoryChipIgnoresCase | app/src/main/java/com/example/ecoswap/dashboard/MarketplaceFragment.java:345 | a listing passes the chip exactly when the chip is empty or "All", or names the listing's raw category ignoring case |
| Marketplace.SearchQuery | app/src/main/java/com/example/ecoswap/dashboard/MarketplaceFragment.java:339 | the search text as used is lower-case, and empty when there is no text |
| Marketplace.SearchIgnoresCase | app/src/main/java/com/example/ecoswap/dashboard/MarketplaceFragment.java:339 | typing the search in upper case gives the same query |
| Marketplace.LowerTrimCommute | app/src/main/java/com/example/ecoswap/dashboard/MarketplaceFragment.java:339 | trimming then lower-casing equals lower-casing then trimming |
| Marketplace.Annotate | app/src/main/java/com/example/ecoswap/dashboard/MarketplaceFragment.java:349-368 | a distance is set exactly when viewer and listing both have coordinates; then the listing is near iff the distance is at most 10 km, and otherwise near iff the viewer typed a location that the listing's location contains ignoring case; nothing else changes |
| Marketplace.ComparatorsArePreorders | app/src/main/java/com/example/ecoswap/dashboard/MarketplaceFragment.java:373-395 | both comparators (by distance with unknown last, near first) are total preorders |
| Marketplace.ApplyFilters | app/src/main/java/com/example/ecoswap/dashboard/MarketplaceFragment.java:334-399 | the feed is never longer than the fetched list |
| Marketplace.ShownIsPermutation | app/src/main/java/com/example/ecoswap/dashboard/MarketplaceFragment.java:334-399 | the feed is a permutation of the annotated listings that pass the filters |
| Marketplace.ShownPass | app/src/main/java/com/example/ecoswap/dashboard/MarketplaceFragment.java:344-348 | every listing shown passes the category and search filters |
| Marketplace.PassingAreShown | app/src/main/java/com/example/ecoswap/dashboard/MarketplaceFragment.java:344-369 | every fetched listing that passes the filters is shown, annotated |
| Marketplace.OrderedByDistance | app/src/main/java/com/example/ecoswap/dashboard/MarketplaceFragment.java:373-387 | with viewer coordinates the feed is ascending by distance with unknown distances last, and listings the comparator ties keep their fetch order |
| Marketplace.NearListingsFirst | app/src/main/java/com/example/ecoswap/dashboard/MarketplaceFragment.java:388-395 | without coordinates but with a typed location, near listings come first and each group keeps its fetch order |
| Marketplace.FetchOrderOtherwise | app/src/main/java/com/example/ecoswap/dashboard/MarketplaceFragment.java:344-371 | without coordinates or a typed location the feed is the passing listings in fetch order |
| Marketplace.Capitalize | app/src/main/java/com/example/ecoswap/dashboard/MarketplaceFragment.java:491-497 | same length, first character upper-cased and the rest lower-cased |
| Marketplace.CapitalizeThenLower | app/src/main/java/com/example/ecoswap/dashboard/MarketplaceFragment.java:491-497 | lower-casing a capitalized value gives the lower-cased value |
| Marketplace.CapitalizeIgnoresCase | app/src/main/java/com/example/ecoswap/dashboard/MarketplaceFragment.java:491-497 | capitalizing ignores the input's case and is idempotent |
| Uploads.SampleSize | app/src/main/java/com/example/ecoswap/utils/ListingImageUploader.java:143-146 | the decode factor is a power of two that makes both sides fit under the limit after truncating division, and it is the smallest such power |
| Uploads.ResolveBucket | app/src/main/java/com/example/ecoswap/utils/ListingImageUploader.java:105-112 | the configured bucket trimmed, or the default when it is null or blank |
| Uploads.DefaultBuckets | app/src/main/java/com/example/ecoswap/dashboard/CommunityFragment.java:546-549 | with nothing configured, the community, listings and storage buckets are their default names |
| Uploads.ResolvedBucketIsName | app/src/main/java/com/example/ecoswap/dashboard/CommunityFragment.java:559-562 | a resolved bucket is always non-empty and trimmed |
| Uploads.AddUniqueBucket | app/src/main/java/com/example/ecoswap/dashboard/CommunityFragment.java:587-598 | the list grows by the trimmed name exactly when the name is non-null, not blank and not listed yet; earlier entries are kept; distinctness is preserved |
| Uploads.AddAllIsDedup | app/src/main/java/com/example/ecoswap/dashboard/CommunityFragment.java:578-598 | adding clean names one by one gives their first appearances in order |
| Uploads.AddNameIsDedupStep | app/src/main/java/com/example/ecoswap/dashboard/CommunityFragment.java:587-598 | adding one clean name to the de-duplicated prefix de-duplicates the longer prefix |
| Uploads.PriorityNamesAreNames | app/src/main/java/com/example/ecoswap/dashboard/CommunityFragment.java:578-585 | the four candidate names are all usable bucket names |
| Uploads.AddAllShape | app/src/main/java/com/example/ecoswap/dashboard/CommunityFragment.java:578-598 | the de-duplicated list is non-empty, distinct, clean and starts with the first name |
| Uploads.BucketPriorityList | app/src/main/java/com/example/ecoswap/dashboard/CommunityFragment.java:578-585 | one to four distinct buckets, the community bucket first, the candidates in priority order without repeats |
| Uploads.BucketPriorityListCovers | app/src/main/java/com/example/ecoswap/dashboard/CommunityFragment.java:578-585 | the listings, storage and legacy buckets are all tried |
| Uploads.AttemptUploadToBuckets | app/src/main/java/com/example/ecoswap/dashboard/CommunityFragment.java:600-639 | buckets are tried in order from the index; every bucket before the last one tried failed; an upload ends at the bucket that returned the URL; failure means every remaining bucket was tried |
| Uploads.AttemptFindsFirst | app/src/main/java/com/example/ecoswap/dashboard/CommunityFragment.java:600-639 | the photo is uploaded exactly when some bucket accepts it, to the first bucket that does, and no bucket is tried twice |
| Uploads.ListingUpload | app/src/main/java/com/example/ecoswap/utils/ListingImageUploader.java:51-99 | the owner id, listing id and picked image are checked in that order with their messages; an undecodable image reports the decoder's message; the upload is sent exactly when all checks pass and the bytes are non-empty, to the resolved listings bucket |
| Uploads.ListingPathSplits | app/src/main/java/com/example/ecoswap/utils/ListingImageUploader.java:75 | the object path splits on "/" back into owner, listing and the photo file name |
| Uploads.ProfileUpload | app/src/main/java/com/example/ecoswap/utils/ProfileImageUploader.java:50-87 | the user id then the image are checked with their messages; the upload is sent exactly when the bytes are non-empty, to the storage bucket, under the user's own folder |
| Uploads.StorageErrorMessage | app/src/main/java/com/example/ecoswap/utils/ListingImageUploader.java:93 | storage's own error, or "Upload failed" when it gives none |
| Community.CommunityPhotoPath | app/src/main/java/com/example/ecoswap/dashboard/CommunityFragment.java:477 | a community photo is stored under the "community/" folder |
| Community.CommunityPathSplits | app/src/main/java/com/example/ecoswap/dashboard/CommunityFragment.java:477 | the photo path splits on "/" back into the folder, the user and the file name |
| Community.PostPayload | app/src/main/java/com/example/ecoswap/dashboard/CommunityFragment.java:489-498 | the post row carries the author, the chosen sub-category as title, the content, category "community" and status "available", with the image URL exactly when it is non-empty |
| Community.PublishPost | app/src/main/java/com/example/ecoswap/dashboard/CommunityFragment.java:430-498 | empty trimmed content and a missing user are rejected in that order; a post without a photo is inserted with the trimmed content and no image; an unreadable photo is reported |
| Community.PublishWithPhoto | app/src/main/java/com/example/ecoswap/dashboard/CommunityFragment.java:463-498 | with a photo the post is inserted exactly when some bucket accepts it, carrying the first accepting bucket's URL; otherwise the error names the last bucket |
| Community.IncInt32 | app/src/main/java/com/example/ecoswap/dashboard/CommunityPostAdapter.java:143 | Java int increment: one more, wrapping from the maximum to the minimum |
| Community.LikeTapped | app/src/main/java/com/example/ecoswap/dashboard/CommunityPostAdapter.java:142-145 | the count shown on tap is the old count, negative read as zero, plus one |
| Community.LikeAnswered | app/src/main/java/com/example/ecoswap/dashboard/CommunityPostAdapter.java:146-160 | on success the tapped count stays; on failure the count goes back to the old count, negative read as zero |
| Community.FailedLikeReverts | app/src/main/java/com/example/ecoswap/dashboard/CommunityPostAdapter.java:155-160 | a failed like ends exactly one below what the tap showed |
| Community.NotificationPayload | app/src/main/java/com/example/ecoswap/dashboard/CommunityPostAdapter.java:243-260 | nothing is sent without a client, actor or recipient, or to oneself; otherwise an unread row for the recipient from the actor, with the post and comment ids only when non-empty |
| Community.NoSelfNotification | app/src/main/java/com/example/ecoswap/dashboard/CommunityPostAdapter.java:245 | an actor is never notified about their own activity |
| Community.CategoryColor | app/src/main/java/com/example/ecoswap/dashboard/CommunityPostAdapter.java:96-113 | each of "Donations", "Eco Tips" and "Questions" gets its own colour, matched exactly |
| Community.CategoryColorDefaults | app/src/main/java/com/example/ecoswap/dashboard/CommunityPostAdapter.java:97-113 | swap stories, a missing category and any other text, including a different case, share the default colour |
| Chat.OwnerNeedsBothIds | app/src/main/java/com/example/ecoswap/chat/ChatFragment.java:1223-1228 | ownership needs both ids non-empty and equal, and is symmetric |
| Chat.ShouldAllowCompletionAction | app/src/main/java/com/example/ecoswap/chat/ChatFragment.java:1112-1118 | returns true exactly when the status is "pending" ignoring case; the card binding computes it and passes it to the control update, which ignores it |
| Chat.UpdateCompletionControls | app/src/main/java/com/example/ecoswap/chat/ChatFragment.java:704-712 | the mark-complete button and its floating twin are both shown to the owner and both hidden from anyone else, whatever status test is handed in |
| Chat.ListingControls | app/src/main/java/com/example/ecoswap/chat/ChatFragment.java:515-605 | with a listing bound the controls are shown exactly to its owner; while loading, without a listing and on the fallback card both are hidden |
| Chat.ControlsIgnoreStatus | app/src/main/java/com/example/ecoswap/chat/ChatFragment.java:581-583 | two bindings that differ only in the status show the same controls |
| Chat.ShowPeerPrompt | app/src/main/java/com/example/ecoswap/chat/ChatFragment.java:714-725 | the confirm card shows exactly to a non-owner when the status is swapped, donated or completed ignoring case |
| Chat.ActionAndPromptExclusive | app/src/main/java/com/example/ecoswap/chat/ChatFragment.java:581-584 | the "pending" test and the confirm card never both pass, and the visible controls and the confirm card are never on screen together, because one needs ownership and the other its absence |
| Chat.MarkListingComplete | app/src/main/java/com/example/ecoswap/chat/ChatFragment.java:840-848 | nothing is written without a listing id; otherwise the status chosen for the selection |
| Chat.CompletionPromptsPeer | app/src/main/java/com/example/ecoswap/chat/ChatFragment.java:840-848 | after the owner marks the listing complete, the written status fails the "pending" test, every other participant is asked to confirm and sees no controls, and the status counts toward impact |
| Chat.OwnerKeepsControls | app/src/main/java/com/example/ecoswap/chat/ChatFragment.java:840-866 | after marking, the owner still sees both controls, even when the card is bound again with the completed status, and is not asked to confirm |
| Chat.ViewTypeFor | app/src/main/java/com/example/ecoswap/chat/ChatMessagesAdapter.java:39-45 | a message is drawn outgoing exactly when the signed-in user sent it |
| Chat.SetMessages | app/src/main/java/com/example/ecoswap/chat/ChatMessagesAdapter.java:67-71 | the list is replaced wholesale; the profiles stay |
| Chat.AppendMessage | app/src/main/java/com/example/ecoswap/chat/ChatMessagesAdapter.java:73-76 | the message is added at the bottom and earlier messages are unchanged |
| Chat.SetParticipantProfile | app/src/main/java/com/example/ecoswap/chat/ChatMessagesAdapter.java:78-81 | only that sender's name and avatar are overwritten |
| Chat.RowAt | app/src/main/java/com/example/ecoswap/chat/ChatMessagesAdapter.java:55-60 | a row draws its side and its sender's profile exactly when the sender has one |
| Chat.ListUpdatesAreLocal | app/src/main/java/com/example/ecoswap/chat/ChatMessagesAdapter.java:67-81 | appending leaves every earlier row as drawn before; a profile update changes only that sender's rows |
| CreateListing.GetSelectedValue | app/src/main/java/com/example/ecoswap/dashboard/CreateListingFragment.java:528-533 | the value at the spinner position, or "other" for any position outside the values |
| CreateListing.ListingType | app/src/main/java/com/example/ecoswap/dashboard/CreateListingFragment.java:287 | "swap" exactly when the swap button is checked, otherwise "donation" |
| CreateListing.AttemptPost | app/src/main/java/com/example/ecoswap/dashboard/CreateListingFragment.java:270-324 | the client, the login, then the trimmed title, description and location are checked in that order, each with its own error; a new listing gets the fresh id, the owner and status "available"; an edit keeps its id and sends neither owner nor status |
| CreateListing.PrepareLocation | app/src/main/java/com/example/ecoswap/dashboard/CreateListingFragment.java:326-369 | only the coordinates may change, and only while the columns are supported: the auto-filled ones when the location still matches them, otherwise the geocoder's answer |
| CreateListing.AutoFillOnlyWhenUnchanged | app/src/main/java/com/example/ecoswap/dashboard/CreateListingFragment.java:336-348 | a location typed over the auto-filled one never receives the device's coordinates; unsupported columns get no coordinates |
| CreateListing.UploadPhotos | app/src/main/java/com/example/ecoswap/dashboard/CreateListingFragment.java:387-427 | photos upload in order and the URLs are collected in that order; a failure stops at the first photo that failed |
| CreateListing.UploadFailFast | app/src/main/java/com/example/ecoswap/dashboard/CreateListingFragment.java:387-427 | all photos upload exactly when each one does, with the URLs in photo order; otherwise every photo before the failed one uploaded |
| CreateListing.DispatchListing | app/src/main/java/com/example/ecoswap/dashboard/CreateListingFragment.java:371-401 | without photos the row is updated (edit) or inserted (new) as is; with photos, nothing is sent when any upload fails, and otherwise the row carries the comma-joined URLs |
| CreateListing.AsWrittenRetriesForever | app/src/main/java/com/example/ecoswap/dashboard/CreateListingFragment.java:448-483 | a server that answers every insert with the undefined-column code keeps the insert as written retrying without end |
| CreateListing.CreateListingAsWritten | app/src/main/java/com/example/ecoswap/dashboard/CreateListingFragment.java:448-483 | the insert as written: a success keeps the row or the row without coordinates; a failure is reported only for an error that is not a missing-column error; a missing-column error on every try runs out any step budget |
| CreateListing.ContainsSelfCode | app/src/main/java/com/example/ecoswap/dashboard/CreateListingFragment.java:485-491 | the undefined-column code is recognised in an error that is just that code |
| CreateListing.CreateListingOnce | app/src/main/java/com/example/ecoswap/dashboard/CreateListingFragment.java:448-483 | the corrected insert always ends; it retries only a row that carried coordinates, once and without them; the switch is turned off exactly when the first error is a coordinate error |
| CreateListing.OnceAgreesWhenRetryEnds | app/src/main/java/com/example/ecoswap/dashboard/CreateListingFragment.java:448-483 | whenever the insert as written ends because no second coordinate error came, the corrected insert ends the same way |
| FeatureCompat.ApplyOp | app/src/main/java/com/example/ecoswap/utils/LocationFeatureCompat.java:19-29 | turning off gives off, setting gives the value set, reset gives on |
| FeatureCompat.LastOpDecides | app/src/main/java/com/example/ecoswap/utils/ChatFeatureCompat.java:11-27 | each switch starts on and its last operation alone decides it |
| FeatureCompat.ClassifiersAgree | app/src/main/java/com/example/ecoswap/utils/TradeFeatureCompat.java:29-36 | the listing-metadata, proof-photo and coordinate error tests ignore case, reject a missing or empty error, and all accept the undefined-column code |
| FeatureCompat.CoordinateColumnMessage | app/src/main/java/com/example/ecoswap/dashboard/CreateListingFragment.java:485-491 | any error text containing `column "latitude"` or `column "longitude"`, whatever surrounds it and in any case, is recognised as a missing coordinate column |
| Initials.TwoInitials | app/src/main/java/com/example/ecoswap/dashboard/ProfileFragment.java:425-426 | two chars: the upper-cased first char of each of the two words |
| Initials.ProfileInitials | app/src/main/java/com/example/ecoswap/dashboard/ProfileFragment.java:419-432 | "?" for a null or blank name; otherwise one or two upper-case chars starting with the trimmed name's first char, upper-cased |
| Initials.TrimmedInitials | app/src/main/java/com/example/ecoswap/dashboard/ProfileFragment.java:424-431 | on a trimmed name: "?" when empty, otherwise one or two upper-case chars starting with its first char |
| Initials.ProfileInitialsIgnoreSurroundingSpace | app/src/main/java/com/example/ecoswap/dashboard/ProfileFragment.java:424 | only the trimmed name matters |
| Initials.ProfileInitialsTwoWords | app/src/main/java/com/example/ecoswap/dashboard/ProfileFragment.java:424-426 | two words, however padded, give their first letters upper-cased |
| Initials.TwoWordsSplit | app/src/main/java/com/example/ecoswap/dashboard/ProfileFragment.java:424 | splitting two words joined by a space on white-space runs gives the two words |
| Initials.ProfileInitialsOfWords | app/src/main/java/com/example/ecoswap/dashboard/ProfileFragment.java:424-426 | with two words or more only the first two words matter |
| Initials.TwoWordsTrim | app/src/main/java/com/example/ecoswap/dashboard/ProfileFragment.java:420-424 | two words after a leading space trim to the two words and are not blank |
| Initials.ProfileInitialsOneWord | app/src/main/java/com/example/ecoswap/dashboard/ProfileFragment.java:424-430 | a single word with any white space around it gives its first two chars upper-cased, or its only char |
| Initials.ExtractInitials | app/src/main/java/com/example/ecoswap/chat/ChatMessagesAdapter.java:133-143 | "?" when both the name and the sender id are empty; otherwise, for the name or else the sender id: the upper-cased first letters of the first two words of the trimmed text when it has two words, and else the first two chars of the untrimmed text upper-cased |
| Initials.TextInitials | app/src/main/java/com/example/ecoswap/chat/ChatMessagesAdapter.java:136-143 | the chat rule on a non-empty text gives one or two chars, none of them a lower-case letter |
| Initials.TextInitialsValue | app/src/main/java/com/example/ecoswap/chat/ChatMessagesAdapter.java:136-143 | for every non-empty text: two or more words of the trimmed text give the upper-cased first letters of the first two; fewer give the first two chars of the text as given, upper-cased |
| Initials.ExtractKeepsLeadingSpace | app/src/main/java/com/example/ecoswap/chat/ChatMessagesAdapter.java:138-142 | a single padded word keeps the leading space in the chat bubble but not on the profile screens |
| Initials.OneWordPadded | app/src/main/java/com/example/ecoswap/chat/ChatMessagesAdapter.java:138 | a word after one space trims and splits to itself |
| Initials.NameOverridesFallback | app/src/main/java/com/example/ecoswap/chat/ChatMessagesAdapter.java:134 | a non-empty display name decides alone and the sender id is not consulted |
| Initials.BidInitials | app/src/main/java/com/example/ecoswap/market/BidDetailActivity.java:336-345 | "?" for an empty name; the upper-cased first letters of the first two words of the trimmed name when it has two words; otherwise the first two chars of the untrimmed name upper-cased |
| Initials.ExtractAgreesWithProfile | app/src/main/java/com/example/ecoswap/chat/ChatMessagesAdapter.java:133-143 | on a trimmed non-blank name the chat rule and the profile rule agree |
| Initials.SingleWordIsWhole | app/src/main/java/com/example/ecoswap/chat/ChatMessagesAdapter.java:138-142 | a trimmed name that starts with a word is either that single word or at least two words |
| Initials.LastCharStartsWord | app/src/main/java/com/example/ecoswap/chat/ChatMessagesAdapter.java:138 | a string not ending in white space has at least one word |
| Initials.SpaceSplitInitialsAsWritten | app/src/main/java/com/example/ecoswap/dashboard/ListingPreviewBottomSheet.java:633-641 | the rule as written gives "?" for a null or empty name and otherwise throws when either of the first two space-separated parts is empty |
| Initials.SpaceSplitCrashes | app/src/main/java/com/example/ecoswap/dashboard/MessagesAdapter.java:190-198 | a doubled space ("A  B") or a leading space (" Bob") makes the rule as written throw |
| Initials.DoubleSpaceParts | app/src/main/java/com/example/ecoswap/dashboard/MessagesAdapter.java:192 | "A  B" splits on single spaces into "A", "" and "B" |
| Initials.LeadingSpaceParts | app/src/main/java/com/example/ecoswap/dashboard/MessagesAdapter.java:192 | " Bob" splits on single spaces into "" and "Bob" |
| Initials.NonEmptyParts | app/src/main/java/com/example/ecoswap/dashboard/ListingPreviewBottomSheet.java:635 | exactly the non-empty parts, each kept, in their order |
| Initials.SpaceSplitInitials | app/src/main/java/com/example/ecoswap/dashboard/ListingPreviewBottomSheet.java:633-641 | the corrected rule never throws: "?" for an empty name, otherwise one or two upper-case chars, and with two non-empty words the initials of the first two |
| Initials.SpaceSplitIntendedDoubleSpace | app/src/main/java/com/example/ecoswap/dashboard/ListingPreviewBottomSheet.java:635-637 | "A  B", which crashes the rule as written, gets "AB" |
| Initials.SpaceSplitIntendedLeadingSpace | app/src/main/java/com/example/ecoswap/dashboard/ListingPreviewBottomSheet.java:635-640 | " Bob", which crashes the rule as written, gets "BO" from its one word |
| Initials.SpaceSplitCorrected | app/src/main/java/com/example/ecoswap/dashboard/ListingPreviewBottomSheet.java:633-641 | wherever the rule as written does not throw, the corrected rule gives the same initials |
| ListingPreview.KeepTrimmed | app/src/main/java/com/example/ecoswap/dashboard/ListingPreviewBottomSheet.java:240-245 | the kept parts are trimmed and non-empty, and no more than the parts given |
| ListingPreview.KeepTrimmedCommaFree | app/src/main/java/com/example/ecoswap/dashboard/ListingPreviewBottomSheet.java:240-245 | trimming the parts of a comma split adds no comma |
| ListingPreview.PreviewImages | app/src/main/java/com/example/ecoswap/dashboard/ListingPreviewBottomSheet.java:237-249 | no images for an empty value; the value itself when it holds no comma; otherwise the trimmed non-blank comma-separated parts; no image is empty or holds a comma |
| ListingPreview.KeepTrimmedKeepsClean | app/src/main/java/com/example/ecoswap/dashboard/ListingPreviewBottomSheet.java:242-244 | parts already trimmed and non-empty are all kept unchanged |
| ListingPreview.JoinHasSeparator | app/src/main/java/com/example/ecoswap/dashboard/ListingPreviewBottomSheet.java:239 | a join of two or more parts holds the separator |
| ListingPreview.JavaSplitJoin | app/src/main/java/com/example/ecoswap/dashboard/ListingPreviewBottomSheet.java:240 | Java's split undoes a join whose parts hold no separator and whose last part is non-empty |
| ListingPreview.ImagesRoundTrip | app/src/main/java/com/example/ecoswap/dashboard/ListingPreviewBottomSheet.java:237-270 | the comma-joined URLs the listing form stores come back as the same URLs in order, and the page dots show exactly for more than one |
| ListingPreview.ActionsFor | app/src/main/java/com/example/ecoswap/dashboard/ListingPreviewBottomSheet.java:170-188 | the owner's actions show exactly to the listing owner, otherwise the chat button |
| ListingPreview.MarkAsComplete | app/src/main/java/com/example/ecoswap/dashboard/ListingPreviewBottomSheet.java:295-302 | nothing is written without a client or listing id; otherwise the status for the listing type |
| ListingPreview.DonationRecord | app/src/main/java/com/example/ecoswap/dashboard/ListingPreviewBottomSheet.java:360-373 | no row without both an owner and a viewer; the owner is the donor, and the viewer is the receiver exactly when they are not the owner |
| ListingPreview.DonationMatchesImpact | app/src/main/java/com/example/ecoswap/dashboard/ListingPreviewBottomSheet.java:360-401 | a recorded receiver is credited after the owner, and without one only the owner is credited |
| MyListings.ActiveNotCompleted | app/src/main/java/com/example/ecoswap/dashboard/listings/MyListingsFragment.java:321-327 | an active status is never a completed one and the reverse; the test ignores case |
| MyListings.NormalizeImageUrl | app/src/main/java/com/example/ecoswap/dashboard/listings/MyListingsFragment.java:364-376 | nothing for an empty value; a cover exists exactly when some comma-separated part is non-blank and not "null" in any case, and it is the first such part, trimmed; a cover is non-empty, comma-free and not the text "null" |
| MyListings.CoverIsFirstJoined | app/src/main/java/com/example/ecoswap/dashboard/listings/MyListingsFragment.java:364-376 | the cover of a comma-joined list of clean URLs is its first URL, the first image the preview sheet shows |
| MyListings.ParseActiveListings | app/src/main/java/com/example/ecoswap/dashboard/listings/MyListingsFragment.java:245-288 | never more listings than rows; the next two lemmas state exactly which rows are listed |
| MyListings.ParseActiveComplete | app/src/main/java/com/example/ecoswap/dashboard/listings/MyListingsFragment.java:250-288 | every active row that is not a community post is listed |
| MyListings.ParseActiveSound | app/src/main/java/com/example/ecoswap/dashboard/listings/MyListingsFragment.java:250-288 | every listing comes from an active row that is not a community post |
| MyListings.ParseActiveShape | app/src/main/java/com/example/ecoswap/dashboard/listings/MyListingsFragment.java:262-271 | every listing has an active status and a non-empty type other than "community", an empty type reading as "swap" |
| Profile.CleanPhone | app/src/main/java/com/example/ecoswap/dashboard/ProfileFragment.java:773 | the phone number with exactly the white space and dashes removed: no such char remains and every other char is kept, as often as it occurs and in its order |
| Profile.ValidateProfile | app/src/main/java/com/example/ecoswap/dashboard/ProfileFragment.java:730-796 | on the trimmed fields, the edit is accepted exactly when the name has 2 to 50 chars, a given phone has at least 10 chars besides spaces and dashes, the location at most 100 and the bio at most 150; a rejection names a rule the fields break |
| Profile.ValidateProfileFirst | app/src/main/java/com/example/ecoswap/dashboard/ProfileFragment.java:753-791 | the rule reported is the first one broken: every earlier rule holds |
| Profile.OnProfileSaved | app/src/main/java/com/example/ecoswap/dashboard/ProfileFragment.java:851-854 | a successful save remembers the bio and waits for the server to echo it |
| Profile.ResolveBio | app/src/main/java/com/example/ecoswap/dashboard/ProfileFragment.java:1106-1140 | once settled the server's bio is shown when not blank; while a non-blank saved bio waits it stays shown until the server returns it ignoring case, which ends the wait; a wait for a cleared bio ends on the next load, showing the server's bio or nothing when it is blank; the wait is never entered here |
| Profile.ResolveBioIdempotent | app/src/main/java/com/example/ecoswap/dashboard/ProfileFragment.java:1106-1140 | loading the same server bio again shows the same bio and changes nothing further |
| Profile.SavedBioShownUntilEchoed | app/src/main/java/com/example/ecoswap/dashboard/ProfileFragment.java:845-854 | after a save the edited bio stays on screen until the server returns a bio matching it ignoring case, and then the sync ends |
| Profile.ValidateSetup | app/src/main/java/com/example/ecoswap/ProfileSetupHelper.java:122-154 | the setup form is accepted exactly when the trimmed name has 2 to 50 chars and the trimmed bio at most 150; an empty name is reported as required, before the length rule |
| Profile.SetupAgreesWithEdit | app/src/main/java/com/example/ecoswap/ProfileSetupHelper.java:133-151 | the setup form and the edit dialog accept the same name and bio when no phone or location is given |
| Profile.StartPhotoUpload | app/src/main/java/com/example/ecoswap/ProfileSetupHelper.java:164-226 | a picked image with a user id starts an upload under a fresh token and keeps any earlier photo; no image or no user id changes nothing |
| Profile.OnPhotoUploaded | app/src/main/java/com/example/ecoswap/ProfileSetupHelper.java:230-242 | only the latest upload's success is applied: it stores the URL and ends the upload |
| Profile.OnPhotoUploadFailed | app/src/main/java/com/example/ecoswap/ProfileSetupHelper.java:245-258 | only the latest upload's failure is applied: it drops the photo and ends the upload |
| Profile.OnlyLatestUploadApplies | app/src/main/java/com/example/ecoswap/ProfileSetupHelper.java:221-258 | after a second image is picked the first upload's answer changes nothing, and a repeated answer is ignored |
| Profile.SetupPayload | app/src/main/java/com/example/ecoswap/ProfileSetupHelper.java:263-282 | the update carries the name, the location and bio or JSON null when they are empty, and the photo URL only when it is not blank |
| Profile.AvatarFallback | app/src/main/java/com/example/ecoswap/ProfileSetupHelper.java:198-212 | the initials of the typed name, else the email's first letter upper-cased, else the camera emoji |
| SelectedImages.AddImage | app/src/main/java/com/example/ecoswap/dashboard/SelectedImagesAdapter.java:32-35 | the image is appended at the end and earlier images are unchanged |
| SelectedImages.RemoveImage | app/src/main/java/com/example/ecoswap/dashboard/SelectedImagesAdapter.java:37-42 | an in-range position removes that image and shifts the later ones down; any other position changes nothing |
| SelectedImages.ItemCount | app/src/main/java/com/example/ecoswap/dashboard/SelectedImagesAdapter.java:71-73 | the number of rows is the number of images returned |
| SelectedImages.RemoveTakesOne | app/src/main/java/com/example/ecoswap/dashboard/SelectedImagesAdapter.java:32-42 | removing takes exactly that one image out, and removing what was just added restores the list |
| Bids.InitialCurrentBid | app/src/main/java/com/example/ecoswap/market/BidDetailActivity.java:121-122 | the current bid is the stored current bid, else the starting bid, else zero |
| Bids.PlaceBidRequest | app/src/main/java/com/example/ecoswap/market/BidDetailActivity.java:188-224 | the typed amount, the client, the login, the number format and the amount exceeding the current bid are checked in that order, each with its own rejection; a sent bid is an active row for the item and user with an amount above the current bid |
| Bids.OnInsertResult | app/src/main/java/com/example/ecoswap/market/BidDetailActivity.java:226-242 | the button is re-enabled either way; success makes the amount the current bid and clears the field; failure keeps both |
| Bids.TryOnlyRaises | app/src/main/java/com/example/ecoswap/market/BidDetailActivity.java:188-242 | one attempt never lowers the current bid, and changes it exactly when a bid is sent and accepted |
| Bids.CurrentBidOnlyRises | app/src/main/java/com/example/ecoswap/market/BidDetailActivity.java:188-242 | over any run of attempts the current bid never falls, and stays put when no insert succeeds |
| Notifications.LoadNotifications | app/src/main/java/com/example/ecoswap/dashboard/NotificationsBottomSheet.java:68-77 | the login prompt exactly without a client or user; otherwise a query for that user's notifications, newest first |
| Notifications.MarkUnreadAsRead | app/src/main/java/com/example/ecoswap/dashboard/NotificationsBottomSheet.java:122-136 | nothing without a client; only unread notifications with an id are marked |
| Notifications.MarkedExactly | app/src/main/java/com/example/ecoswap/dashboard/NotificationsBottomSheet.java:122-136 | exactly the unread notifications with an id are marked, in list order, and none when all are read |
| Notifications.MarkAllRead | app/src/main/java/com/example/ecoswap/dashboard/NotificationsBottomSheet.java:138-143 | nothing without a client or user; otherwise every notification of that user |
| Notifications.MarkAllMatchesLoad | app/src/main/java/com/example/ecoswap/dashboard/NotificationsBottomSheet.java:68-77 | marking all read is possible exactly when the sheet can load, and targets the user the load queries |
| Notifications.OnLoaded | app/src/main/java/com/example/ecoswap/dashboard/NotificationsBottomSheet.java:93-101 | the list is shown as fetched; the empty text shows exactly for no notifications and the mark-all button otherwise; the unread ones are marked |
| Notifications.DisplayMessage | app/src/main/java/com/example/ecoswap/dashboard/NotificationsBottomSheet.java:206 | the message, or "Notification" when it is empty |
| Notifications.BindRow | app/src/main/java/com/example/ecoswap/dashboard/NotificationsBottomSheet.java:204-210 | the message as displayed, the type upper-cased with no lower-case letter left, "just now" for a missing time, and dimmed exactly when read |
| Dates.GetTimeAgo | app/src/main/java/com/example/ecoswap/utils/DateUtils.java:48-77 | the unparsed input exactly when parsing fails; otherwise "just now" under a minute, then minutes, hours and days by the age's range, each count the whole number of its unit in the age, and the formatted date from a week on |
| Dates.DivBetween | app/src/main/java/com/example/ecoswap/utils/DateUtils.java:61-68 | a millisecond age between lo and hi units counts between lo and hi units after truncating division |
| Dates.DivBelow | app/src/main/java/com/example/ecoswap/utils/DateUtils.java:61-68 | an age below hi units counts below hi units |
| Dates.UnitWord | app/src/main/java/com/example/ecoswap/utils/DateUtils.java:62-68 | the unit word takes an "s" exactly for counts above one |
| Dates.CountedText | app/src/main/java/com/example/ecoswap/utils/DateUtils.java:61-68 | a text label exactly for the minute, hour and day buckets |
| Dates.PluralOnlyAboveOne | app/src/main/java/com/example/ecoswap/utils/DateUtils.java:58-67 | for every age, a counted label reads "minute", "hour" or "day" while less than two units have passed and the plural from two units on |
| Dates.PastFutureExclusive | app/src/main/java/com/example/ecoswap/utils/DateUtils.java:91-102 | an unparseable date is neither past nor future, no date is both, and a parsed date other than now is one of the two |
| Dates.ElapsedMinutes | app/src/main/java/com/example/ecoswap/dashboard/CommunityFragment.java:289-290 | at least one minute, the truncated minutes of the age from one minute on (the whole number of minutes in it), and one below two minutes |
| Dates.QuotientBounds | app/src/main/java/com/example/ecoswap/dashboard/CommunityFragment.java:290-294 | a dividend of at least one unit counts at least one, and one below two units counts below two |
| Dates.FormatRelative | app/src/main/java/com/example/ecoswap/dashboard/CommunityFragment.java:280-299 | "just now" exactly for a missing or empty timestamp; the raw text exactly when it cannot be parsed; otherwise minutes under an hour, hours under a day, then days, each count the whole number of its unit in the age, except that an age under a minute, or in the future, reads one minute |
| Dates.RelativeMonotone | app/src/main/java/com/example/ecoswap/dashboard/CommunityFragment.java:289-295 | an older instant never gets a smaller label, and an instant at or after now reads one minute |
| Dates.LabelsOrdered | app/src/main/java/com/example/ecoswap/dashboard/CommunityFragment.java:289-299 | two labels that each count their age in whole units are ordered like the ages |
| Dates.JavaDivMonotone | app/src/main/java/com/example/ecoswap/dashboard/CommunityFragment.java:290-294 | truncating division is monotone in the dividend |
| Dates.JavaDivShift | app/src/main/java/com/example/ecoswap/dashboard/CommunityFragment.java:290-294 | adding k whole units to a non-negative dividend adds k to the quotient |
| Dates.HoursFromMinutes | app/src/main/java/com/example/ecoswap/dashboard/CommunityFragment.java:292 | whole hours of whole minutes equal whole hours of the milliseconds |
| Dates.FormatsAgree | app/src/main/java/com/example/ecoswap/utils/DateUtils.java:61-66 | between a minute and a day old, the two formats count the same minutes and the same hours |
| Auth.PerformRegister | app/src/main/java/com/example/ecoswap/auth/RegisterActivity.java:60-94 | on the trimmed fields: any empty field, then an invalid e-mail, then a password under 6 chars, then a mismatch, each rejected; sign-up is requested exactly when all pass, with the trimmed values |
| Auth.OnSignUpSuccess | app/src/main/java/com/example/ecoswap/auth/RegisterActivity.java:96-133 | a response starting with the confirmation marker leads to verification with the typed e-mail, password and name; any other response is saved as the user id with the e-mail and name and signs in, leaving the tokens alone |
| Auth.ConfirmationNeverSignsIn | app/src/main/java/com/example/ecoswap/auth/RegisterActivity.java:104-113 | a response asking for confirmation never signs the user in |
| Auth.RegisterErrorMessage | app/src/main/java/com/example/ecoswap/auth/RegisterActivity.java:144-155 | the first matching case-sensitive test decides: already registered, invalid e-mail, a password problem, then the rate limit, each exactly when no earlier test matches; the generic failure exactly when none matches |
| Auth.AlreadyRegisteredCovers | app/src/main/java/com/example/ecoswap/auth/RegisterActivity.java:146 | the second "already registered" test is implied by the first |
| Auth.PerformLogin | app/src/main/java/com/example/ecoswap/auth/LoginActivity.java:68-92 | on the trimmed fields: an empty field, then an invalid e-mail, then no connectivity, each rejected; otherwise sign-in with the trimmed values |
| Auth.LoginButton | app/src/main/java/com/example/ecoswap/auth/LoginActivity.java:88-91 | a sign-in request disables the button; a rejected attempt leaves it as it was |
| Auth.OnLoginSuccess | app/src/main/java/com/example/ecoswap/auth/LoginActivity.java:98-108 | sign-in saves the id, the e-mail, the client's tokens and expiry, and marks the session logged in; the name is kept |
| Auth.LoginErrorMessage | app/src/main/java/com/example/ecoswap/auth/LoginActivity.java:119-138 | on the lower-cased text: network phrases first, then "invalid", then an unconfirmed e-mail; any other error shown as it came, exactly when none of those matches, and "Login failed" exactly when there is no error text |
| Auth.LoginMessageIgnoresCase | app/src/main/java/com/example/ecoswap/auth/LoginActivity.java:129-136 | the classification ignores the error's case |
| Auth.InvalidCredentialsCovered | app/src/main/java/com/example/ecoswap/auth/LoginActivity.java:132 | the "invalid login credentials" test is implied by the plain "invalid" test |
| Auth.VerifyCode | app/src/main/java/com/example/ecoswap/auth/VerifyEmailActivity.java:156-167 | the joined code is sent exactly when it has six chars, and it is the boxes read in order |
| Auth.OneCharPerBox | app/src/main/java/com/example/ecoswap/auth/VerifyEmailActivity.java:157-162 | one char per box makes a code as long as the boxes, in box order |
| Auth.VerifyErrorMessage | app/src/main/java/com/example/ecoswap/auth/VerifyEmailActivity.java:206-212 | "invalid" or "expired" first, then "attempts", both case-sensitive |
| Auth.OnVerifyError | app/src/main/java/com/example/ecoswap/auth/VerifyEmailActivity.java:215-222 | every box is cleared after a failed verification |
| Auth.ClearedCodeIsEmpty | app/src/main/java/com/example/ecoswap/auth/VerifyEmailActivity.java:156-167 | after a failed verification the next tap sends nothing until digits are typed again |
| Auth.EmptyBoxesEmptyCode | app/src/main/java/com/example/ecoswap/auth/VerifyEmailActivity.java:157-162 | empty boxes join to an empty code |
| Auth.OnVerifySuccess | app/src/main/java/com/example/ecoswap/auth/VerifyEmailActivity.java:178-186 | verification saves the id, the e-mail and the name typed at registration, and signs in |
| Auth.ResendStep | app/src/main/java/com/example/ecoswap/auth/VerifyEmailActivity.java:123-153 | a tap sends a request exactly when resend is enabled; nothing else sends one |
| Auth.ResendOnlyAfterTimer | app/src/main/java/com/example/ecoswap/auth/VerifyEmailActivity.java:123-153 | resend is enabled exactly when the timer has finished since it last started, so a tap sends a request only then |
| JavaText.Trim | app/src/main/java/com/example/ecoswap/auth/RegisterActivity.java:61-64 | `String.trim()`: the result is no longer than the input and neither starts nor ends with a char at or below U+0020 |
| JavaText.TrimIdempotent | app/src/main/java/com/example/ecoswap/auth/RegisterActivity.java:61-64 | trimming a trimmed field changes nothing |
| JavaText.TrimKeepsChars | app/src/main/java/com/example/ecoswap/auth/RegisterActivity.java:61-64 | trimming never introduces a char the field did not hold |
| JavaText.BlankIffAllTrimmable | app/src/main/java/com/example/ecoswap/auth/RegisterActivity.java:61-70 | a field is empty after trimming exactly when every char in it is at or below U+0020 |
| JavaText.TrimOfTrimmed | app/src/main/java/com/example/ecoswap/auth/LoginActivity.java:69-70 | a value with no blank char at either end passes through the trim unchanged |
| JavaText.Lower | app/src/main/java/com/example/ecoswap/chat/ChatFragment.java:1116 | `toLowerCase(Locale.US)` on ASCII letters: same length, each char mapped on its own, no upper-case letter left |
| JavaText.LowerIdempotent | app/src/main/java/com/example/ecoswap/chat/ChatFragment.java:1116 | lower-casing twice is lower-casing once |
| JavaText.LowerOfUpper | app/src/main/java/com/example/ecoswap/dashboard/NotificationsBottomSheet.java:207 | the upper-cased notification type lower-cases to the type lower-cased, so no letter is lost |
| JavaText.ContainsIffOccurrence | app/src/main/java/com/example/ecoswap/auth/LoginActivity.java:129-136 | `contains` holds exactly when the needle occurs at some index |
| JavaText.ContainsTransitive | app/src/main/java/com/example/ecoswap/auth/LoginActivity.java:129-136 | what a found phrase contains, the message contains too |
| JavaText.JavaSplit | app/src/main/java/com/example/ecoswap/dashboard/ListingPreviewBottomSheet.java:240 | `split` on a plain char: no part holds the separator |
| JavaText.DropTrailingEmpty | app/src/main/java/com/example/ecoswap/dashboard/ListingPreviewBottomSheet.java:240 | `split` drops exactly the trailing empty parts and keeps the rest in order |
| JavaText.SplitAllJoin | app/src/main/java/com/example/ecoswap/dashboard/CreateListingFragment.java:393 | splitting a comma-joined list gives back its parts when none holds a comma |
| JavaText.SplitThree | app/src/main/java/com/example/ecoswap/auth/RegisterActivity.java:105 | a response of three colon-free parts splits back into those three |
| JavaText.Words | app/src/main/java/com/example/ecoswap/dashboard/ProfileFragment.java:424 | the runs of non-space chars: none is empty, and the first starts with the first char when that is not a space |
| JavaText.WordsAfterWord | app/src/main/java/com/example/ecoswap/dashboard/ProfileFragment.java:424 | a word followed by a space and more text splits into that word and the words of the rest |
| JavaText.SplitTrimmedOnWhitespace | app/src/main/java/com/example/ecoswap/chat/ChatMessagesAdapter.java:138 | `trim().split("\\s+")` always yields at least one part |
| Sequences.FilterIsSubsequence | app/src/main/java/com/example/ecoswap/dashboard/MarketplaceFragment.java:338-370 | the kept items stay in the order of the full list |
| Sequences.FilterMembership | app/src/main/java/com/example/ecoswap/dashboard/MarketplaceFragment.java:338-370 | an item is kept exactly when it is in the list and passes the test |
| Sequences.FilterMultiset | app/src/main/java/com/example/ecoswap/dashboard/MarketplaceFragment.java:338-370 | no item is kept more often than it occurs |
| Sequences.FilterFilter | app/src/main/java/com/example/ecoswap/dashboard/MarketplaceFragment.java:338-370 | two filters in a row keep what both tests accept |
| Sequences.DedupShape | app/src/main/java/com/example/ecoswap/dashboard/MessagesFragment.java:285 | the distinct keys are never more than the rows and start with the first row's key |
| Inbox.DedupMembership | app/src/main/java/com/example/ecoswap/dashboard/MessagesFragment.java:285 | a key is among the distinct keys exactly when some row has it |
| Inbox.DedupAppend | app/src/main/java/com/example/ecoswap/dashboard/MessagesFragment.java:285 | a new row adds its key at the end unless the key was already seen |
| Sorting.Sort | app/src/main/java/com/example/ecoswap/dashboard/MarketplaceFragment.java:374-399 | `Collections.sort` yields a permutation of the list |
| Sorting.SortSorted | app/src/main/java/com/example/ecoswap/dashboard/MarketplaceFragment.java:374-399 | the sorted list is in comparator order and is a permutation of the input |
| Sorting.SortStable | app/src/main/java/com/example/ecoswap/dashboard/listings/MyListingsFragment.java:661 | items the comparator calls equal keep their relative order, as `Collections.sort` promises |
| JavaMath.JavaDiv | app/src/main/java/com/example/ecoswap/dashboard/CommunityFragment.java:290 | Java's `/` truncates toward zero: zero below the divisor, never more than the dividend allows, never positive for a negative dividend |
| JavaMath.JavaDivNegate | app/src/main/java/com/example/ecoswap/dashboard/CommunityFragment.java:290 | negating the dividend negates the quotient, as truncation does and flooring does not |
| JavaMath.JavaDivUpper | app/src/main/java/com/example/ecoswap/utils/DateUtils.java:61-68 | a non-negative dividend is below the next multiple of the divisor after the quotient's, which with the lower bound pins the truncated quotient |
| JavaMath.JavaDivSmall | app/src/main/java/com/example/ecoswap/dashboard/CommunityFragment.java:290 | a future timestamp gives a quotient of at most zero, which the caller raises to one |

## Left out

- Backend I/O: every REST, storage and auth call goes through a client whose methods are empty stubs (`app/src/main/java/com/example/ecoswap/utils/SupabaseClient.java`). Requests are modelled as the values they would send, and responses and errors as inputs.
- Android UI: views, image loading, dialogs, toasts, animations, navigation and permission flows carry no rule of their own.
- Concurrency: background threads and main-thread handlers are not modelled.  Every modelled operation is sequential.
- Floating point: great-circle distances, distance labels, eco-savings doubles and rating averages are not computed.  Marketplace distances are opaque ordered inputs, bid amounts are reals, and a NaN amount is not modelled.
- Timestamp parsing and the clock: ISO 8601 parsing and `System.currentTimeMillis` are not modelled.  The operations receive the parsed instant, or none when parsing failed, and the current time.  `formatTimestamp` and `formatDateForDisplay` are left out, so a week-old date is returned as its raw text.
- The e-mail pattern match and the connectivity check are platform calls.  Their answers are boolean inputs.
- Random UUIDs and millisecond timestamps in upload paths and tokens are parameters.
- Case mapping is ASCII-only.  Locale-specific mappings of non-ASCII letters are not modelled.
- Java `int`/`long` overflow of the impact score and counters is not modelled.  The counters are small non-negative numbers in practice.
- The org.json `optString` quirk that turns a JSON null into the text "null" is not modelled.  Absent values are `None`, and the metadata normaliser already maps the text "null" to absent.
- Text lengths and substring bounds are counted in Unicode code points, where Java counts UTF-16 units.  A char outside the Basic Multilingual Plane (an emoji such as the camera in a photo-only preview) is one Dafny char but two Java chars.  So every length rule (the name's 2 to 50 chars in `Profile.ValidateProfile` and `Profile.ValidateSetup`, the cleaned phone's ten chars, the 100 and 150 limits, the six-char password of `Auth.PerformRegister`, the six-digit code of `Auth.VerifyCode`) measures such text shorter than Java does, and the first-two-chars fallback of the initials rules takes two code points where Java takes two UTF-16 units.  For text inside the Basic Multilingual Plane the two measures agree.
- Geocoding, bitmap decoding and compression and the content resolver are foreign library calls and are left out.  Only the integer sample-size loop is kept, on non-negative dimensions.
- A community photo that cannot be read or throws while reading is modelled as a photo of size 0, which gives the same "Could not read photo" outcome.
- The verification screen's countdown text and the cancellation of its timer on destroy are UI concerns.  The resend gate models only whether the timer has finished since it last started.
- `mapCategoryLabel` and `mapStatusLabel` on the chat screen only choose display strings and are left out.
- The inbox passes an `archived` argument that the conversation summary's constructors do not declare.  The model keeps only the declared fields and drops that argument.
- My Listings calls `setProofUploadSupported` on a trade record, but the record class does not declare it.  The model leaves the call out, and the record has no such flag.
- Impact.ImpactPayload: the listing preview's copy of the impact update writes its icons as mis-encoded text, not as the emoji the other two copies write.  The model writes the emoji for all three.
- Chat.MarkListingComplete: does not model the early return when the backend client is missing.  It always needs a listing id and returns the status that would be written.
- Impact.LevelFor: its own contract fixes only the lowest and the highest level.  The bands between are stated by Impact.LadderMatchesBands against the profile's band table.
- CreateListing.CreateListingAsWritten: the retry without coordinates is unbounded in the source.  The model gives it a step budget (`fuel`) and answers `StillRetrying` when the budget runs out.
- JavaText.JavaSplit: its contract states only that no part holds the separator.  The parts themselves are related to the input by JavaText.SplitAllJoin and JavaText.SplitThree.

## Findings

| source | as written | input that shows it | evidently intended | confidence | as-written member | corrected member |
|---|---|---|---|---|---|---|
| app/src/main/java/com/example/ecoswap/dashboard/ListingPreviewBottomSheet.java:633-641 | the initials take the first char of the first two parts of `name.split(" ")`; the same code is in MessagesAdapter.java:190-198 | "A  B" splits into "A", "", "B", and " Bob" into "", "Bob"; the empty part has no first char, so `charAt(0)` throws | skip the empty parts: the first letters of the first two non-empty words, or the first two chars of a lone word; "A  B" gives "AB" and " Bob" gives "BO" | not executed | Initials.SpaceSplitInitialsAsWritten, shown by Initials.SpaceSplitCrashes | Initials.SpaceSplitInitials, proved by Initials.SpaceSplitCorrected, Initials.SpaceSplitIntendedDoubleSpace and Initials.SpaceSplitIntendedLeadingSpace |
| app/src/main/java/com/example/ecoswap/dashboard/CreateListingFragment.java:448-483 | after an error whose text holds the undefined-column code 42703, the insert is retried without coordinates, and retried again after every further such error | a server that answers every insert with a 42703 error, for example for another missing column, makes the insert retry for ever | retry once without coordinates, then report the error | not executed | CreateListing.AsWrittenRetriesForever | CreateListing.CreateListingOnce, agreeing with the as-written insert by CreateListing.OnceAgreesWhenRetryEnds |

=== FILE: auth.dfy ===
/** Registration, login and e-mail verification: the checks before a request,
    how a response is routed, the session that is saved, and how error texts
    become messages.  The e-mail pattern match and the connectivity check are
    platform calls; their answers are inputs. */
module Auth {
  import opened Wrappers
  import opened JavaText

  /** The saved session's fields (a missing one was never saved). */
  datatype Session = Session(userId: Option<string>, email: Option<string>, name: Option<string>,
                             accessToken: Option<string>, refreshToken: Option<string>, expiry: Option<int>,
                             loggedIn: bool)

  /** A submit button's state. */
  datatype Button = Button(enabled: bool, text: string)

  // ---------------------------------------------------------------------------
  // Registration
  // ---------------------------------------------------------------------------

  datatype RegisterForm = RegisterForm(name: string, email: string, password: string, confirmPassword: string)

  /** Why registration stops before the request, in the order it checks. */
  datatype RegisterError = FieldsRequired | InvalidEmail | PasswordTooShort | PasswordMismatch

  datatype RegisterRequest = RegisterRejected(error: RegisterError) | SignUp(name: string, email: string, password: string)

  const MinPasswordLength := 6

  /** `performRegister`'s checks on the trimmed fields; `emailValid` is the
      platform's e-mail pattern applied to the trimmed e-mail. */
  function PerformRegister(f: RegisterForm, emailValid: bool): (r: RegisterRequest)
    ensures r == RegisterRejected(FieldsRequired) <==>
              |Trim(f.name)| == 0 || |Trim(f.email)| == 0 || |Trim(f.password)| == 0 || |Trim(f.confirmPassword)| == 0
    ensures r == RegisterRejected(InvalidEmail) <==>
              |Trim(f.name)| > 0 && |Trim(f.email)| > 0 && |Trim(f.password)| > 0 && |Trim(f.confirmPassword)| > 0 && !emailValid
    ensures r == RegisterRejected(PasswordTooShort) <==>
              |Trim(f.name)| > 0 && |Trim(f.email)| > 0 && |Trim(f.confirmPassword)| > 0 && emailValid
              && 0 < |Trim(f.password)| < MinPasswordLength
    ensures r.SignUp? <==> |Trim(f.name)| > 0 && |Trim(f.email)| > 0 && emailValid
                           && |Trim(f.password)| >= MinPasswordLength && Trim(f.password) == Trim(f.confirmPassword)
    ensures r.SignUp? ==> r == SignUp(Trim(f.name), Trim(f.email), Trim(f.password))
    ensures r == RegisterRejected(PasswordMismatch) ==> |Trim(f.password)| >= MinPasswordLength
  {
    var name := Trim(f.name);
    var email := Trim(f.email);
    var password := Trim(f.password);
    var confirm := Trim(f.confirmPassword);
    if |name| == 0 || |email| == 0 || |password| == 0 || |confirm| == 0 then RegisterRejected(FieldsRequired)
    else if !emailValid then RegisterRejected(InvalidEmail)
    else if |password| < MinPasswordLength then RegisterRejected(PasswordTooShort)
    else if password != confirm then RegisterRejected(PasswordMismatch)
    else SignUp(name, email, password)
  }

  const ConfirmationPrefix := "CONFIRMATION_REQUIRED:"

  /** Where a successful sign-up leads: the verification screen (carrying the
      typed e-mail, password and name), or straight in with a saved session. */
  datatype SignUpRoute = ToVerification(email: string, password: string, name: string) | ToDashboard(session: Session)

  function OnSignUpSuccess(s: Session, response: string, name: string, email: string, password: string): (r: SignUpRoute)
    ensures r.ToVerification? <==> StartsWith(response, ConfirmationPrefix)
    ensures r.ToVerification? ==> r == ToVerification(email, password, name)
    ensures r.ToDashboard? ==> r.session.userId == Some(response) && r.session.email == Some(email)
                               && r.session.name == Some(name) && r.session.loggedIn
    ensures r.ToDashboard? ==> r.session.accessToken == s.accessToken && r.session.refreshToken == s.refreshToken
                               && r.session.expiry == s.expiry
  {
    if StartsWith(response, ConfirmationPrefix) then ToVerification(email, password, name)
    else ToDashboard(s.(userId := Some(response), email := Some(email), name := Some(name), loggedIn := true))
  }

  /** A response that asks for confirmation never signs the user in, and its
      text is never taken for a user id. */
  lemma ConfirmationNeverSignsIn(s: Session, rest: string, name: string, email: string, password: string)
    ensures OnSignUpSuccess(s, ConfirmationPrefix + rest, name, email, password).ToVerification?
  {
    assert (ConfirmationPrefix + rest)[..|ConfirmationPrefix|] == ConfirmationPrefix;
  }

  datatype RegisterMessage = AlreadyRegistered | InvalidEmailFormat | WeakPassword | RateLimited | RegistrationFailed

  /** The message for a sign-up error; the tests are case-sensitive and the
      first that matches decides. */
  function RegisterErrorMessage(error: string): (m: RegisterMessage)
    ensures m == AlreadyRegistered <==> Contains(error, "already registered")
    ensures m == InvalidEmailFormat <==> !Contains(error, "already registered") && Contains(error, "Invalid email")
    ensures m == WeakPassword <==> !Contains(error, "already registered") && !Contains(error, "Invalid email")
                                   && (Contains(error, "Password") || Contains(error, "password"))
    ensures m == RateLimited <==> !Contains(error, "already registered") && !Contains(error, "Invalid email")
                                   && !Contains(error, "Password") && !Contains(error, "password")
                                   && Contains(error, "over_email_send_rate_limit")
    ensures m == RegistrationFailed <==> !Contains(error, "already registered") && !Contains(error, "Invalid email")
                                         && !Contains(error, "Password") && !Contains(error, "password")
                                         && !Contains(error, "over_email_send_rate_limit")
  {
    AlreadyRegisteredCovers(error);
    if Contains(error, "already registered") || Contains(error, "User already registered") then AlreadyRegistered
    else if Contains(error, "Invalid email") then InvalidEmailFormat
    else if Contains(error, "Password") || Contains(error, "password") then WeakPassword
    else if Contains(error, "over_email_send_rate_limit") then RateLimited
    else RegistrationFailed
  }

  /** "User already registered" is caught by the first test. */
  lemma AlreadyRegisteredCovers(error: string)
    ensures Contains(error, "User already registered") ==> Contains(error, "already registered")
  {
    if Contains(error, "User already registered") {
      var t := "User already registered";
      assert OccursAt(t, "already registered", 5);
      ContainsIffOccurrence(t, "already registered");
      ContainsTransitive(error, t, "already registered");
    }
  }

  // ---------------------------------------------------------------------------
  // Login
  // ---------------------------------------------------------------------------

  datatype LoginError = LoginFieldsRequired | LoginInvalidEmail | Offline

  datatype LoginRequest = LoginRejected(error: LoginError) | SignIn(email: string, password: string)

  /** `performLogin`'s checks, in order: both fields, the e-mail pattern,
      connectivity. */
  function PerformLogin(emailText: string, passwordText: string, emailValid: bool, online: bool): (r: LoginRequest)
    ensures r == LoginRejected(LoginFieldsRequired) <==> |Trim(emailText)| == 0 || |Trim(passwordText)| == 0
    ensures r == LoginRejected(LoginInvalidEmail) <==> |Trim(emailText)| > 0 && |Trim(passwordText)| > 0 && !emailValid
    ensures r == LoginRejected(Offline) <==> |Trim(emailText)| > 0 && |Trim(passwordText)| > 0 && emailValid && !online
    ensures r.SignIn? ==> r == SignIn(Trim(emailText), Trim(passwordText))
  {
    var email := Trim(emailText);
    var password := Trim(passwordText);
    if |email| == 0 || |password| == 0 then LoginRejected(LoginFieldsRequired)
    else if !emailValid then LoginRejected(LoginInvalidEmail)
    else if !online then LoginRejected(Offline)
    else SignIn(email, password)
  }

  /** The login button when a request is made: disabled while the sign-in is
      in flight, untouched when a check stops it first (an error sets it back
      to `LoginButtonIdle`). */
  function LoginButton(r: LoginRequest, before: Button): (b: Button)
    ensures r.SignIn? ==> !b.enabled
    ensures r.LoginRejected? ==> b == before
  {
    if r.SignIn? then Button(false, "Logging in...") else before
  }

  const LoginButtonIdle := Button(true, "Login")

  /** A successful sign-in saves the id, the e-mail, the client's tokens and
      expiry, and marks the session logged in; the name is left alone. */
  function OnLoginSuccess(s: Session, userId: string, email: string, accessToken: Option<string>,
                          refreshToken: Option<string>, expiry: int): (s': Session)
    ensures s'.userId == Some(userId) && s'.email == Some(email) && s'.loggedIn
    ensures s'.accessToken == accessToken && s'.refreshToken == refreshToken && s'.expiry == Some(expiry)
    ensures s'.name == s.name
  {
    Session(Some(userId), Some(email), s.name, accessToken, refreshToken, Some(expiry), true)
  }

  datatype LoginMessage = NetworkProblem | InvalidCredentials | EmailNotConfirmed | RawError(text: string) | LoginFailed

  /** Network phrases are checked first, then "invalid", then an unconfirmed
      e-mail, all on the lower-cased text; anything else is shown as it
      came, or "Login failed" when there is no text. */
  predicate IsNetworkError(lower: string) {
    Contains(lower, "unable to resolve host") || Contains(lower, "failed to connect") || Contains(lower, "network error")
  }

  function LoginErrorMessage(error: Option<string>): (m: LoginMessage)
    ensures error.None? ==> m == LoginFailed
    ensures error.Some? ==>
              var lower := Lower(error.value);
              && (m == NetworkProblem <==> IsNetworkError(lower))
              && (m == InvalidCredentials <==> !IsNetworkError(lower) && Contains(lower, "invalid"))
              && (m == EmailNotConfirmed <==> !IsNetworkError(lower) && !Contains(lower, "invalid") && Contains(lower, "email not confirmed"))
              && (m == RawError(error.value) <==> !IsNetworkError(lower) && !Contains(lower, "invalid")
                                                    && !Contains(lower, "email not confirmed"))
              && m != LoginFailed
  {
    var lower := if error.Some? then Lower(error.value) else "";
    InvalidCredentialsCovered(lower);
    if IsNetworkError(lower) then NetworkProblem
    else if Contains(lower, "invalid login credentials") || Contains(lower, "invalid") then InvalidCredentials
    else if Contains(lower, "email not confirmed") then EmailNotConfirmed
    else if error.Some? then RawError(error.value)
    else LoginFailed
  }

  /** The classification ignores case, so a shouted error is classified like
      the same error in lower case. */
  lemma LoginMessageIgnoresCase(error: string)
    ensures LoginErrorMessage(Some(Upper(error))).RawError? == LoginErrorMessage(Some(error)).RawError?
    ensures !LoginErrorMessage(Some(error)).RawError? ==> LoginErrorMessage(Some(Upper(error))) == LoginErrorMessage(Some(error))
  {
    LowerOfUpper(error);
  }

  /** "invalid login credentials" is caught by the plain "invalid" test. */
  lemma InvalidCredentialsCovered(lower: string)
    ensures Contains(lower, "invalid login credentials") ==> Contains(lower, "invalid")
  {
    if Contains(lower, "invalid login credentials") {
      var t := "invalid login credentials";
      assert StartsWith(t, "invalid");
      ContainsTransitive(lower, t, "invalid");
    }
  }

  // ---------------------------------------------------------------------------
  // E-mail verification
  // ---------------------------------------------------------------------------

  const CodeLength := 6

  /** The six code boxes read left to right. */
  function CodeOf(boxes: seq<string>): (code: string)
    decreases |boxes|
  {
    if |boxes| == 0 then "" else CodeOf(boxes[..|boxes| - 1]) + boxes[|boxes| - 1]
  }

  datatype VerifyRequest = NeedSixDigits | VerifyOtp(code: string)

  /** `verifyCode`: the joined code is sent only when it has exactly six
      characters. */
  function VerifyCode(boxes: seq<string>): (r: VerifyRequest)
    requires |boxes| == CodeLength
    ensures r.VerifyOtp? <==> |CodeOf(boxes)| == CodeLength
    ensures r.VerifyOtp? ==> r.code == CodeOf(boxes)
  {
    var code := CodeOf(boxes);
    if |code| != CodeLength then NeedSixDigits else VerifyOtp(code)
  }

  /** One character per box makes a six-character code, in box order. */
  lemma {:induction false} OneCharPerBox(boxes: seq<string>)
    requires forall i :: 0 <= i < |boxes| ==> |boxes[i]| == 1
    ensures |CodeOf(boxes)| == |boxes|
    ensures forall i :: 0 <= i < |boxes| ==> CodeOf(boxes)[i] == boxes[i][0]
    decreases |boxes|
  {
    if |boxes| > 0 {
      OneCharPerBox(boxes[..|boxes| - 1]);
    }
  }

  datatype VerifyMessage = InvalidOrExpired | TooManyAttempts | VerificationFailed

  /** The message for a failed verification (case-sensitive tests). */
  function VerifyErrorMessage(error: string): (m: VerifyMessage)
    ensures m == InvalidOrExpired <==> Contains(error, "invalid") || Contains(error, "expired")
    ensures m == TooManyAttempts <==> !Contains(error, "invalid") && !Contains(error, "expired") && Contains(error, "attempts")
  {
    if Contains(error, "invalid") || Contains(error, "expired") then InvalidOrExpired
    else if Contains(error, "attempts") then TooManyAttempts
    else VerificationFailed
  }

  /** After a failed verification every box is empty, whatever was typed, so
      the next attempt starts from no code. */
  function OnVerifyError(boxes: seq<string>): (cleared: seq<string>)
    ensures |cleared| == |boxes|
    ensures forall i :: 0 <= i < |cleared| ==> cleared[i] == ""
  {
    seq(|boxes|, i => "")
  }

  lemma {:induction false} ClearedCodeIsEmpty(boxes: seq<string>)
    requires |boxes| == CodeLength
    ensures CodeOf(OnVerifyError(boxes)) == ""
    ensures VerifyCode(OnVerifyError(boxes)) == NeedSixDigits
  {
    EmptyBoxesEmptyCode(OnVerifyError(boxes));
  }

  lemma {:induction false} EmptyBoxesEmptyCode(boxes: seq<string>)
    requires forall i :: 0 <= i < |boxes| ==> boxes[i] == ""
    ensures CodeOf(boxes) == ""
    decreases |boxes|
  {
    if |boxes| > 0 {
      EmptyBoxesEmptyCode(boxes[..|boxes| - 1]);
    }
  }

  /** A successful verification signs the user in with the name typed at
      registration. */
  function OnVerifySuccess(s: Session, userId: string, email: string, name: string): (s': Session)
    ensures s'.userId == Some(userId) && s'.email == Some(email) && s'.name == Some(name) && s'.loggedIn
    ensures s'.accessToken == s.accessToken && s'.refreshToken == s.refreshToken && s'.expiry == s.expiry
  {
    s.(userId := Some(userId), email := Some(email), name := Some(name), loggedIn := true)
  }

  // ---------------------------------------------------------------------------
  // Resend gate
  // ---------------------------------------------------------------------------

  /** What happens on the verification screen: the 60-second timer starts or
      finishes, "resend" is tapped, or a resend is answered (a successful one
      restarts the timer). */
  datatype ResendEvent = TimerStarted | TimerFinished | ResendTapped | ResendSucceeded | ResendFailed

  datatype ResendGate = ResendGate(canResend: bool, requestsSent: nat)

  function ResendStep(g: ResendGate, e: ResendEvent): (g': ResendGate)
    ensures e.ResendTapped? ==> g'.canResend == g.canResend && g'.requestsSent == g.requestsSent + (if g.canResend then 1 else 0)
    ensures !e.ResendTapped? ==> g'.requestsSent == g.requestsSent
  {
    match e
    case TimerStarted => g.(canResend := false)
    case TimerFinished => g.(canResend := true)
    case ResendTapped => if g.canResend then g.(requestsSent := g.requestsSent + 1) else g
    case ResendSucceeded => g.(canResend := false)
    case ResendFailed => g
  }

  /** The screen starts its timer as it opens, so resend starts disabled. */
  const ResendOpened := ResendGate(false, 0)

  function RunResend(events: seq<ResendEvent>): ResendGate
    decreases |events|
  {
    if |events| == 0 then ResendOpened else ResendStep(RunResend(events[..|events| - 1]), events[|events| - 1])
  }

  /** The independent account of the gate: the most recent timer event is a
      finish (a start or a successful resend closes it again). */
  predicate TimerLastFinished(events: seq<ResendEvent>)
    decreases |events|
  {
    if |events| == 0 then false
    else
      var e := events[|events| - 1];
      if e.TimerFinished? then true
      else if e.TimerStarted? || e.ResendSucceeded? then false
      else TimerLastFinished(events[..|events| - 1])
  }

  /** Resend is possible exactly when the timer has finished since it was
      last started, so a tap sends a request only then. */
  lemma {:induction false} ResendOnlyAfterTimer(events: seq<ResendEvent>)
    ensures RunResend(events).canResend <==> TimerLastFinished(events)
    ensures RunResend(events + [ResendTapped]).requestsSent == RunResend(events).requestsSent + (if TimerLastFinished(events) then 1 else 0)
    decreases |events|
  {
    if |events| > 0 {
      ResendOnlyAfterTimer(events[..|events| - 1]);
    }
    assert (events + [ResendTapped])[..|events|] == events;
  }
}

=== FILE: bids.dfy ===
/** Placing a bid on an auction item: the checks before a bid is sent and the
    current bid the screen keeps.  Amounts are reals; parsing the typed text
    happens outside the model and arrives as an optional number. */
module Bids {
  import opened Wrappers
  import opened JavaText

  /** The current bid when the item loads: `current_bid`, else
      `starting_bid`, else zero. */
  function InitialCurrentBid(startingBid: Option<real>, currentBid: Option<real>): (bid: real)
    ensures currentBid.Some? ==> bid == currentBid.value
    ensures currentBid.None? && startingBid.Some? ==> bid == startingBid.value
    ensures currentBid.None? && startingBid.None? ==> bid == 0.0
  {
    var start := if startingBid.Some? then startingBid.value else 0.0;
    if currentBid.Some? then currentBid.value else start
  }

  /** Why `placeBid` stops, in the order it checks. */
  datatype BidRejection = AmountRequired | ClientNotReady | LoginRequired | InvalidAmount | BidTooLow

  /** The row inserted into `bids`. */
  datatype BidPayload = BidPayload(postId: string, bidderId: string, amount: real, status: string)

  datatype PlaceBid = Rejected(reason: BidRejection) | Insert(payload: BidPayload)

  /** The screen's state: the current bid, whether the button is enabled and
      the typed amount. */
  datatype BidScreen = BidScreen(currentBid: real, buttonEnabled: bool, amountText: string)

  /** `placeBid`: `parsed` is the trimmed text read as a number, absent when
      it is not one. */
  function PlaceBidRequest(s: BidScreen, hasClient: bool, userId: Option<string>, itemId: string, parsed: Option<real>): (p: PlaceBid)
    ensures p == Rejected(AmountRequired) <==> |Trim(s.amountText)| == 0
    ensures p == Rejected(ClientNotReady) <==> |Trim(s.amountText)| > 0 && !hasClient
    ensures p == Rejected(LoginRequired) <==> |Trim(s.amountText)| > 0 && hasClient && IsEmptyOpt(userId)
    ensures p == Rejected(InvalidAmount) <==>
              |Trim(s.amountText)| > 0 && hasClient && !IsEmptyOpt(userId) && parsed.None?
    ensures p == Rejected(BidTooLow) <==>
              |Trim(s.amountText)| > 0 && hasClient && !IsEmptyOpt(userId) && parsed.Some? && parsed.value <= s.currentBid
    ensures p.Insert? ==> p.payload == BidPayload(itemId, userId.value, parsed.value, "active")
                          && p.payload.amount > s.currentBid
  {
    if |Trim(s.amountText)| == 0 then Rejected(AmountRequired)
    else if !hasClient then Rejected(ClientNotReady)
    else if IsEmptyOpt(userId) then Rejected(LoginRequired)
    else if parsed.None? then Rejected(InvalidAmount)
    else if parsed.value <= s.currentBid then Rejected(BidTooLow)
    else Insert(BidPayload(itemId, userId.value, parsed.value, "active"))
  }

  /** The button is disabled while the insert is in flight. */
  function Submitting(s: BidScreen): BidScreen {
    s.(buttonEnabled := false)
  }

  /** The insert's answer: success makes the amount the current bid and
      clears the field; failure only re-enables the button. */
  function OnInsertResult(s: BidScreen, amount: real, succeeded: bool): (s': BidScreen)
    ensures s'.buttonEnabled
    ensures succeeded ==> s'.currentBid == amount && s'.amountText == ""
    ensures !succeeded ==> s'.currentBid == s.currentBid && s'.amountText == s.amountText
  {
    if succeeded then BidScreen(amount, true, "") else s.(buttonEnabled := true)
  }

  /** One attempt: the typed text, its parse and the insert's outcome. */
  datatype Attempt = Attempt(text: string, parsed: Option<real>, succeeded: bool)

  /** One attempt run through `placeBid` and, when a row is sent, its answer. */
  function Try(s: BidScreen, hasClient: bool, userId: Option<string>, itemId: string, a: Attempt): BidScreen {
    var typed := s.(amountText := a.text);
    match PlaceBidRequest(typed, hasClient, userId, itemId, a.parsed)
    case Rejected(_) => typed
    case Insert(payload) => OnInsertResult(Submitting(typed), payload.amount, a.succeeded)
  }

  function RunAttempts(s: BidScreen, hasClient: bool, userId: Option<string>, itemId: string, attempts: seq<Attempt>): BidScreen
    decreases |attempts|
  {
    if |attempts| == 0 then s
    else Try(RunAttempts(s, hasClient, userId, itemId, attempts[..|attempts| - 1]), hasClient, userId, itemId, attempts[|attempts| - 1])
  }

  /** One attempt never lowers the current bid, and raises it exactly when a
      bid is inserted successfully. */
  lemma TryOnlyRaises(s: BidScreen, hasClient: bool, userId: Option<string>, itemId: string, a: Attempt)
    ensures Try(s, hasClient, userId, itemId, a).currentBid >= s.currentBid
    ensures Try(s, hasClient, userId, itemId, a).currentBid != s.currentBid <==>
              PlaceBidRequest(s.(amountText := a.text), hasClient, userId, itemId, a.parsed).Insert? && a.succeeded
  {
  }

  /** Over any run of attempts the current bid never falls, and a run in which
      no insert succeeds leaves it where it was. */
  lemma {:induction false} CurrentBidOnlyRises(s: BidScreen, hasClient: bool, userId: Option<string>, itemId: string, attempts: seq<Attempt>)
    ensures RunAttempts(s, hasClient, userId, itemId, attempts).currentBid >= s.currentBid
    ensures (forall i :: 0 <= i < |attempts| ==> !attempts[i].succeeded) ==>
              RunAttempts(s, hasClient, userId, itemId, attempts).currentBid == s.currentBid
    decreases |attempts|
  {
    if |attempts| > 0 {
      var before := RunAttempts(s, hasClient, userId, itemId, attempts[..|attempts| - 1]);
      CurrentBidOnlyRises(s, hasClient, userId, itemId, attempts[..|attempts| - 1]);
      TryOnlyRaises(before, hasClient, userId, itemId, attempts[|attempts| - 1]);
    }
  }
}

=== FILE: chat.dfy ===
/** The chat screen: who may mark the listing complete, when the other party
    is asked to confirm a completed trade, and the message list with its
    outgoing/incoming bubbles and per-sender profiles. */
module Chat {
  import opened Wrappers
  import opened JavaText
  import Trades
  import Impact

  // ---------------------------------------------------------------------------
  // Completion controls
  // ---------------------------------------------------------------------------

  /** The signed-in user owns the listing being discussed. */
  predicate IsListingOwner(currentUserId: Option<string>, ownerId: Option<string>) {
    !IsEmptyOpt(currentUserId) && !IsEmptyOpt(ownerId) && currentUserId.value == ownerId.value
  }

  /** Ownership needs both ids and is the same relation seen from either side. */
  lemma OwnerNeedsBothIds(a: Option<string>, b: Option<string>)
    ensures IsListingOwner(a, b) <==> IsListingOwner(b, a)
    ensures IsListingOwner(a, b) ==> a == b && a.Some? && |a.value| > 0
    ensures IsListingOwner(a, None) == false
  {
  }

  /** The listing can still be marked complete: its status is "pending" in any
      case.  The card binding computes this and hands it to the control update,
      which does not use it (see `ListingControls`). */
  function ShouldAllowCompletionAction(rawStatus: Option<string>): (allow: bool)
    ensures allow <==> rawStatus.Some? && EqualsIgnoreCase(rawStatus.value, "pending")
  {
    if IsEmptyOpt(rawStatus) then false
    else Lower(rawStatus.value) == "pending"
  }

  /** The card asking the other party to confirm: shown to anyone but the owner
      once the listing's status is a completed one. */
  function ShowPeerPrompt(rawStatus: Option<string>, currentUserId: Option<string>, ownerId: Option<string>): (show: bool)
    ensures show <==> rawStatus.Some? && !IsListingOwner(currentUserId, ownerId)
                      && Trades.IsCompletedStatus(rawStatus.value)
  {
    if IsEmptyOpt(rawStatus) || IsListingOwner(currentUserId, ownerId) then false
    else
      var normalized := Lower(rawStatus.value);
      normalized == "swapped" || normalized == "donated" || normalized == "completed"
  }

  /** The mark-complete button on the listing card and its floating twin. */
  datatype CompletionControls = CompletionControls(markButton: bool, markFab: bool)

  /** The control update: both controls are shown to the owner and hidden from
      everyone else; the status test handed in plays no part. */
  function UpdateCompletionControls(allowMark: bool, isOwner: bool): (c: CompletionControls)
    ensures c.markButton == c.markFab
    ensures c.markButton <==> isOwner
  {
    CompletionControls(isOwner, isOwner)
  }

  /** The controls as the listing card leaves them.  When a listing is bound
      they follow ownership; while it loads, when it is missing and when only
      the fallback card shows (`bound` false) both are hidden. */
  function ListingControls(bound: bool, rawStatus: Option<string>, currentUserId: Option<string>, ownerId: Option<string>): (c: CompletionControls)
    ensures c.markButton == c.markFab
    ensures c.markButton <==> bound && IsListingOwner(currentUserId, ownerId)
  {
    if bound then UpdateCompletionControls(ShouldAllowCompletionAction(rawStatus), IsListingOwner(currentUserId, ownerId))
    else UpdateCompletionControls(false, false)
  }

  /** The status never changes what the controls show: a completed listing's
      owner sees them as a pending listing's owner does. */
  lemma ControlsIgnoreStatus(s1: Option<string>, s2: Option<string>, currentUserId: Option<string>, ownerId: Option<string>)
    ensures ListingControls(true, s1, currentUserId, ownerId) == ListingControls(true, s2, currentUserId, ownerId)
  {
  }

  /** The two status tests never both pass, and the controls and the confirm
      card are never on screen together: the controls need ownership and the
      card needs its absence. */
  lemma ActionAndPromptExclusive(rawStatus: Option<string>, currentUserId: Option<string>, ownerId: Option<string>, bound: bool)
    ensures !(ShouldAllowCompletionAction(rawStatus) && ShowPeerPrompt(rawStatus, currentUserId, ownerId))
    ensures !(ListingControls(bound, rawStatus, currentUserId, ownerId).markButton && ShowPeerPrompt(rawStatus, currentUserId, ownerId))
    ensures !(ListingControls(bound, rawStatus, currentUserId, ownerId).markFab && ShowPeerPrompt(rawStatus, currentUserId, ownerId))
  {
  }

  /** The status written when the owner marks the listing complete, or `None`
      when there is no listing to update. */
  function MarkListingComplete(listingId: Option<string>, selection: Option<string>): (status: Option<string>)
    ensures IsEmptyOpt(listingId) <==> status.None?
    ensures status.Some? ==> status.value == Impact.ChatCompletionStatus(selection)
  {
    if IsEmptyOpt(listingId) then None
    else Some(Impact.ChatCompletionStatus(selection))
  }

  /** Once the owner has marked the listing complete, the written status no
      longer passes the "pending" test, every other participant is asked to
      confirm and sees no controls, and the status counts toward impact. */
  lemma CompletionPromptsPeer(listingId: string, selection: Option<string>,
                              viewer: Option<string>, ownerId: Option<string>)
    requires |listingId| > 0
    requires !IsListingOwner(viewer, ownerId)
    ensures var status := MarkListingComplete(Some(listingId), selection);
            && !ShouldAllowCompletionAction(status)
            && ShowPeerPrompt(status, viewer, ownerId)
            && !ListingControls(true, status, viewer, ownerId).markButton
            && Impact.ApplyCompletion(Impact.Counters(0, 0, 0), status.value) != Impact.Counters(0, 0, 0)
  {
    var s := Impact.ChatCompletionStatus(selection);
    assert Lower(s) == s;
  }

  /** The owner keeps the controls after marking: marking does not touch them,
      and binding the card again with the completed status shows them still. */
  lemma OwnerKeepsControls(listingId: string, selection: Option<string>, owner: string)
    requires |listingId| > 0 && |owner| > 0
    ensures var status := MarkListingComplete(Some(listingId), selection);
            && !ShouldAllowCompletionAction(status)
            && ListingControls(true, status, Some(owner), Some(owner)) == CompletionControls(true, true)
            && !ShowPeerPrompt(status, Some(owner), Some(owner))
  {
    var s := Impact.ChatCompletionStatus(selection);
    assert Lower(s) == s;
  }

  // ---------------------------------------------------------------------------
  // Message list
  // ---------------------------------------------------------------------------

  datatype ChatMessage = ChatMessage(senderId: Option<string>, content: string, createdAt: string)

  datatype ViewType = Outgoing | Incoming

  /** A bubble is drawn on the right exactly for the signed-in user's own
      messages. */
  function ViewTypeFor(m: ChatMessage, currentUserId: string): (v: ViewType)
    ensures v == Outgoing <==> m.senderId == Some(currentUserId)
  {
    if m.senderId.Some? && m.senderId.value == currentUserId then Outgoing else Incoming
  }

  datatype Participant = Participant(displayName: Option<string>, avatarUrl: Option<string>)

  datatype ChatList = ChatList(currentUserId: string, messages: seq<ChatMessage>, profiles: map<string, Participant>)

  /** Replaces the whole list, keeping the profiles. */
  function SetMessages(l: ChatList, newMessages: seq<ChatMessage>): (l': ChatList)
    ensures l'.messages == newMessages
    ensures l'.profiles == l.profiles && l'.currentUserId == l.currentUserId
  {
    l.(messages := newMessages)
  }

  /** Adds one message at the bottom. */
  function AppendMessage(l: ChatList, m: ChatMessage): (l': ChatList)
    ensures |l'.messages| == |l.messages| + 1 && l'.messages[|l.messages|] == m
    ensures l'.messages[..|l.messages|] == l.messages
    ensures l'.profiles == l.profiles && l'.currentUserId == l.currentUserId
  {
    l.(messages := l.messages + [m])
  }

  /** Stores one sender's name and avatar, overwriting only that sender. */
  function SetParticipantProfile(l: ChatList, userId: string, displayName: Option<string>, avatarUrl: Option<string>): (l': ChatList)
    ensures userId in l'.profiles && l'.profiles[userId] == Participant(displayName, avatarUrl)
    ensures forall u :: u != userId ==> (u in l'.profiles <==> u in l.profiles)
    ensures forall u :: u != userId && u in l.profiles ==> l'.profiles[u] == l.profiles[u]
    ensures l'.messages == l.messages && l'.currentUserId == l.currentUserId
  {
    l.(profiles := l.profiles[userId := Participant(displayName, avatarUrl)])
  }

  /** What row `i` draws: its side and the profile of its sender, if known. */
  function RowAt(l: ChatList, i: nat): (row: (ViewType, Option<Participant>))
    requires i < |l.messages|
    ensures row.0 == ViewTypeFor(l.messages[i], l.currentUserId)
    ensures row.1.Some? <==> l.messages[i].senderId.Some? && l.messages[i].senderId.value in l.profiles
  {
    var m := l.messages[i];
    (ViewTypeFor(m, l.currentUserId),
     if m.senderId.Some? && m.senderId.value in l.profiles then Some(l.profiles[m.senderId.value]) else None)
  }

  /** Appending a message leaves every earlier row drawn as before, and a
      profile update changes only the rows of that sender. */
  lemma ListUpdatesAreLocal(l: ChatList, m: ChatMessage, userId: string, name: Option<string>, avatar: Option<string>, i: nat)
    requires i < |l.messages|
    ensures RowAt(AppendMessage(l, m), i) == RowAt(l, i)
    ensures l.messages[i].senderId != Some(userId) ==>
              RowAt(SetParticipantProfile(l, userId, name, avatar), i) == RowAt(l, i)
    ensures l.messages[i].senderId == Some(userId) ==>
              RowAt(SetParticipantProfile(l, userId, name, avatar), i).1 == Some(Participant(name, avatar))
  {
  }
}

=== FILE: community.dfy ===
/** The community feed: publishing a post (with an optional photo uploaded to
    the first bucket that accepts it), the optimistic like counter, the
    notification a like sends, and the category chip colours. */
module Community {
  import opened Wrappers
  import opened JavaText
  import opened Uploads

  // ---------------------------------------------------------------------------
  // Publishing a post
  // ---------------------------------------------------------------------------

  /** The object path of a community photo: `community/<user>/<millis>.jpg`. */
  function CommunityPhotoPath(userId: string, millis: string): (path: string)
    ensures |path| > |"community/"| + |userId| && path[..10] == "community/"
  {
    "community/" + userId + "/" + millis + ".jpg"
  }

  /** The path splits back into the folder, the user and the file name. */
  lemma CommunityPathSplits(userId: string, millis: string)
    requires '/' !in userId && '/' !in millis
    ensures SplitAll(CommunityPhotoPath(userId, millis), '/') == ["community", userId, millis + ".jpg"]
  {
    var file := millis + ".jpg";
    assert '/' !in file by {
      forall i | 0 <= i < |file| ensures file[i] != '/' {
        if i < |millis| {
          assert file[i] == millis[i];
        }
      }
    }
    assert CommunityPhotoPath(userId, millis) == "community" + ['/'] + userId + ['/'] + file;
    SplitThree("community", userId, file, '/');
  }

  /** The row `publishPost` inserts into `posts`; `imageUrl` is the
      `image_url` column, sent only when present. */
  datatype PostRow = PostRow(userId: string, title: string, description: string, category: string, status: string,
                             imageUrl: Option<string>)

  /** The sub-category is the title, and the URL is attached only when it is
      non-empty. */
  function PostPayload(userId: string, category: string, content: string, imageUrl: Option<string>): (p: PostRow)
    ensures p.userId == userId && p.title == category && p.description == content
    ensures p.category == "community" && p.status == "available"
    ensures p.imageUrl.Some? <==> !IsEmptyOpt(imageUrl)
    ensures p.imageUrl.Some? ==> p.imageUrl == imageUrl
  {
    PostRow(userId, category, content, "community", "available", if IsEmptyOpt(imageUrl) then None else imageUrl)
  }

  /** How pressing "publish" ends. */
  datatype Publish = ContentRequired | LoginRequired | PhotoUnreadable
                   | UploadFailed(lastBucket: string) | NoBuckets | Insert(row: PostRow)

  /** The publish button: the typed content is trimmed and must be non-empty,
      then a user must be signed in.  `photo` is absent when no photo was
      picked and otherwise holds the compressed size; `upload` answers each
      bucket with a URL or a failure. */
  function PublishPost(contentText: string, category: string, userId: Option<string>, photo: Option<nat>,
                       buckets: seq<string>, upload: string -> Option<string>): (r: Publish)
    ensures r == ContentRequired <==> |Trim(contentText)| == 0
    ensures r == LoginRequired <==> |Trim(contentText)| > 0 && IsEmptyOpt(userId)
    ensures r.Insert? ==> r.row.description == Trim(contentText) && |r.row.description| > 0
    ensures r.Insert? ==> r.row.userId == userId.value && |r.row.userId| > 0
    ensures r.Insert? && photo.None? ==> r.row.imageUrl.None?
    ensures r.PhotoUnreadable? <==> |Trim(contentText)| > 0 && !IsEmptyOpt(userId) && photo == Some(0)
  {
    var content := Trim(contentText);
    if |content| == 0 then ContentRequired
    else if IsEmptyOpt(userId) then LoginRequired
    else if photo.None? then Insert(PostPayload(userId.value, category, content, None))
    else if photo.value == 0 then PhotoUnreadable
    else if |buckets| == 0 then NoBuckets
    else
      match AttemptUploadToBuckets(buckets, 0, upload)
      case Uploaded(_, url, _) => Insert(PostPayload(userId.value, category, content, Some(url)))
      case AllFailed(_) => UploadFailed(buckets[|buckets| - 1])
  }

  /** With a photo, the post is inserted exactly when some bucket accepts the
      upload, carrying the URL of the first bucket that does; otherwise the
      error names the last bucket. */
  lemma PublishWithPhoto(contentText: string, category: string, userId: string, size: nat,
                         buckets: seq<string>, upload: string -> Option<string>)
    requires |Trim(contentText)| > 0 && |userId| > 0 && size > 0 && |buckets| > 0
    ensures var r := PublishPost(contentText, category, Some(userId), Some(size), buckets, upload);
            && (r.Insert? <==> exists i :: 0 <= i < |buckets| && upload(buckets[i]).Some?)
            && (r.UploadFailed? <==> forall i :: 0 <= i < |buckets| ==> upload(buckets[i]).None?)
            && (r.UploadFailed? ==> r.lastBucket == buckets[|buckets| - 1])
            && (r.Insert? ==> exists i :: 0 <= i < |buckets| && upload(buckets[i]).Some?
                                && (forall j :: 0 <= j < i ==> upload(buckets[j]).None?)
                                && PublishedUrl(r.row, upload(buckets[i]).value))
  {
    var a := AttemptUploadToBuckets(buckets, 0, upload);
    if a.Uploaded? {
      var i := |a.tried| - 1;
      assert buckets[i] == a.bucket;
      assert forall j :: 0 <= j < i ==> buckets[j] == a.tried[j];
    } else {
      assert forall i :: 0 <= i < |buckets| ==> buckets[i] == a.tried[i];
    }
  }

  /** The payload carries the URL, when that is non-empty. */
  predicate PublishedUrl(p: PostRow, url: string) {
    if |url| == 0 then p.imageUrl.None? else p.imageUrl == Some(url)
  }

  // ---------------------------------------------------------------------------
  // Likes
  // ---------------------------------------------------------------------------

  const IntMax := 0x7FFF_FFFF
  const IntMin := -0x8000_0000

  /** Java's `int` addition of one, which wraps at the top. */
  function IncInt32(n: int): (r: int)
    requires IntMin <= n <= IntMax
    ensures IntMin <= r <= IntMax
    ensures n < IntMax ==> r == n + 1
    ensures n == IntMax ==> r == IntMin
  {
    if n == IntMax then IntMin else n + 1
  }

  /** The count shown as soon as the like is tapped: the previous count
      (negative read as zero) plus one. */
  function LikeTapped(likes: int): (shown: int)
    requires IntMin <= likes <= IntMax
    ensures likes < IntMax ==> shown == (if likes < 0 then 0 else likes) + 1 && shown >= 1
  {
    IncInt32(if likes < 0 then 0 else likes)
  }

  /** The count after the update is answered: kept on success, and back to the
      previous count (negative read as zero) on failure. */
  function LikeAnswered(likes: int, succeeded: bool): (shown: int)
    requires IntMin <= likes <= IntMax
    ensures succeeded ==> shown == LikeTapped(likes)
    ensures !succeeded ==> shown >= 0 && (likes >= 0 ==> shown == likes)
  {
    if succeeded then LikeTapped(likes) else if likes < 0 then 0 else likes
  }

  /** A failed like is undone: the count ends one below what the tap showed,
      for any count short of the `int` maximum. */
  lemma FailedLikeReverts(likes: int)
    requires IntMin <= likes < IntMax
    ensures LikeAnswered(likes, false) + 1 == LikeTapped(likes)
    ensures LikeAnswered(likes, true) == LikeAnswered(likes, false) + 1
  {
  }

  // ---------------------------------------------------------------------------
  // Notifications about activity on a post
  // ---------------------------------------------------------------------------

  /** The row `sendNotification` inserts into `notifications`; `postId` and
      `commentId` are sent only when present.  `createdAt` is the current
      instant, passed in. */
  datatype NotificationRow = NotificationRow(kind: string, message: string, userId: string, actorId: string, isRead: bool,
                                             createdAt: string, postId: Option<string>, commentId: Option<string>)

  /** Nothing is sent without a client, without an actor or recipient, or
      when the actor would notify themselves. */
  function NotificationPayload(hasClient: bool, actorId: Option<string>, recipientId: Option<string>, kind: string,
                               message: string, postId: Option<string>, commentId: Option<string>, createdAt: string): (p: Option<NotificationRow>)
    ensures p.None? <==> !hasClient || IsEmptyOpt(actorId) || IsEmptyOpt(recipientId) || actorId.value == recipientId.value
    ensures p.Some? ==> p.value.userId == recipientId.value && p.value.actorId == actorId.value
                        && !p.value.isRead && p.value.kind == kind && p.value.message == message
    ensures p.Some? ==> (p.value.postId.Some? <==> !IsEmptyOpt(postId)) && (p.value.postId.Some? ==> p.value.postId == postId)
    ensures p.Some? ==> (p.value.commentId.Some? <==> !IsEmptyOpt(commentId)) && (p.value.commentId.Some? ==> p.value.commentId == commentId)
  {
    if !hasClient || IsEmptyOpt(actorId) || IsEmptyOpt(recipientId) || actorId.value == recipientId.value then None
    else
      Some(NotificationRow(kind, message, recipientId.value, actorId.value, false, createdAt,
                           if IsEmptyOpt(postId) then None else postId,
                           if IsEmptyOpt(commentId) then None else commentId))
  }

  /** Nobody is notified about their own activity, and a notification always
      goes to someone other than its actor. */
  lemma NoSelfNotification(hasClient: bool, userId: string, kind: string, message: string, postId: Option<string>, commentId: Option<string>, at: string)
    ensures NotificationPayload(hasClient, Some(userId), Some(userId), kind, message, postId, commentId, at).None?
    ensures forall actor: string, recipient: string ::
              NotificationPayload(hasClient, Some(actor), Some(recipient), kind, message, postId, commentId, at).Some? ==> actor != recipient
  {
  }

  // ---------------------------------------------------------------------------
  // Category chip colours
  // ---------------------------------------------------------------------------

  /** The colour resources a chip can take. */
  datatype ChipColor = ChipElectronics | ChipClothing | ChipFurniture | ChipBooks

  /** The chip colour for a post category (exact match; anything else,
      including a missing category, gets the first colour). */
  function CategoryColor(category: Option<string>): (c: ChipColor)
    ensures c == ChipClothing <==> category == Some("Donations")
    ensures c == ChipFurniture <==> category == Some("Eco Tips")
    ensures c == ChipBooks <==> category == Some("Questions")
  {
    var name := if category.Some? then category.value else "";
    if name == "Swap Story" then ChipElectronics
    else if name == "Donations" then ChipClothing
    else if name == "Eco Tips" then ChipFurniture
    else if name == "Questions" then ChipBooks
    else ChipElectronics
  }

  /** Stories share the default colour, and the match is case-sensitive. */
  lemma CategoryColorDefaults(category: Option<string>)
    ensures CategoryColor(Some("Swap Story")) == CategoryColor(None) == ChipElectronics
    ensures CategoryColor(Some("donations")) == ChipElectronics
    ensures category.None? || category.value !in {"Donations", "Eco Tips", "Questions"} ==> CategoryColor(category) == ChipElectronics
  {
  }
}

=== FILE: create_listing.dfy ===
/** The create/edit listing form: validation, the row it builds, the
    coordinates it attaches, the photo uploads that precede the insert, and
    the insert's retry without coordinates. */
module CreateListing {
  import opened Wrappers
  import opened JavaText
  import FeatureCompat

  // ---------------------------------------------------------------------------
  // The form
  // ---------------------------------------------------------------------------

  /** `getSelectedValue`: the value behind a spinner position, or "other" for
      a position outside the values (an empty array included). */
  function GetSelectedValue(values: seq<string>, position: int): (v: string)
    ensures 0 <= position < |values| ==> v == values[position]
    ensures !(0 <= position < |values|) ==> v == "other"
  {
    if |values| == 0 || position < 0 || position >= |values| then "other" else values[position]
  }

  /** The listing type the radio buttons select. */
  function ListingType(swapChecked: bool): (t: string)
    ensures t == "swap" <==> swapChecked
    ensures t == "swap" || t == "donation"
  {
    if swapChecked then "swap" else "donation"
  }

  datatype Coordinates = Coordinates(latitude: real, longitude: real)

  /** The row sent to `posts`.  `id`, `userId` and `status` are sent only for
      a new listing; `coordinates` and `imageUrl` only once attached. */
  datatype ListingRow = ListingRow(id: Option<string>, userId: Option<string>, status: Option<string>,
                                   title: string, description: string, location: string, category: string,
                                   listingType: string, condition: string,
                                   coordinates: Option<Coordinates>, imageUrl: Option<string>)

  datatype Form = Form(titleText: string, descriptionText: string, locationText: string,
                       categoryValues: seq<string>, categoryPosition: int,
                       conditionValues: seq<string>, conditionPosition: int, swapChecked: bool)

  /** Why `attemptPost` stops, in the order it checks. */
  datatype PostError = ClientNotReady | LoginRequired | TitleRequired | DescriptionRequired | LocationRequired

  datatype Draft = Rejected(error: PostError) | Submit(listingId: string, row: ListingRow)

  /** `attemptPost`: a new listing gets the fresh `uuid` as its id; an edit
      keeps `editListingId`. */
  function AttemptPost(ready: bool, userId: Option<string>, f: Form, editMode: bool, editListingId: string, uuid: string): (d: Draft)
    ensures d == Rejected(ClientNotReady) <==> !ready
    ensures d == Rejected(LoginRequired) <==> ready && IsEmptyOpt(userId)
    ensures d == Rejected(TitleRequired) <==> ready && !IsEmptyOpt(userId) && |Trim(f.titleText)| == 0
    ensures d == Rejected(DescriptionRequired) <==>
              ready && !IsEmptyOpt(userId) && |Trim(f.titleText)| > 0 && |Trim(f.descriptionText)| == 0
    ensures d == Rejected(LocationRequired) <==>
              ready && !IsEmptyOpt(userId) && |Trim(f.titleText)| > 0 && |Trim(f.descriptionText)| > 0 && |Trim(f.locationText)| == 0
    ensures d.Submit? ==> d.row.title == Trim(f.titleText) && d.row.description == Trim(f.descriptionText)
                          && d.row.location == Trim(f.locationText) && |d.row.location| > 0
    ensures d.Submit? ==> d.row.category == GetSelectedValue(f.categoryValues, f.categoryPosition)
                          && d.row.condition == GetSelectedValue(f.conditionValues, f.conditionPosition)
                          && d.row.listingType == ListingType(f.swapChecked)
    ensures d.Submit? && !editMode ==> d.listingId == uuid && d.row.id == Some(uuid)
                                       && d.row.userId == userId && d.row.status == Some("available")
    ensures d.Submit? && editMode ==> d.listingId == editListingId && d.row.id.None? && d.row.userId.None? && d.row.status.None?
    ensures d.Submit? ==> d.row.coordinates.None? && d.row.imageUrl.None?
  {
    if !ready then Rejected(ClientNotReady)
    else if IsEmptyOpt(userId) then Rejected(LoginRequired)
    else
      var title := Trim(f.titleText);
      var description := Trim(f.descriptionText);
      var location := Trim(f.locationText);
      if |title| == 0 then Rejected(TitleRequired)
      else if |description| == 0 then Rejected(DescriptionRequired)
      else if |location| == 0 then Rejected(LocationRequired)
      else
        var listingId := if editMode then editListingId else uuid;
        Submit(listingId, ListingRow(if editMode then None else Some(listingId),
                                     if editMode then None else userId,
                                     if editMode then None else Some("available"),
                                     title, description, location,
                                     GetSelectedValue(f.categoryValues, f.categoryPosition),
                                     ListingType(f.swapChecked),
                                     GetSelectedValue(f.conditionValues, f.conditionPosition),
                                     None, None))
  }

  // ---------------------------------------------------------------------------
  // Coordinates
  // ---------------------------------------------------------------------------

  /** The location label and coordinates filled in from the device's
      position, if any. */
  datatype AutoFill = AutoFill(placeName: Option<string>, latitude: Option<real>, longitude: Option<real>)

  /** The typed location is still the auto-filled one and both coordinates
      are known. */
  predicate MatchesAutoFill(location: string, a: AutoFill) {
    |location| > 0 && !IsEmptyOpt(a.placeName) && location == a.placeName.value && a.latitude.Some? && a.longitude.Some?
  }

  /** `prepareLocationAndSubmit`: the auto-filled coordinates when the
      location still matches them, otherwise the geocoder's answer
      (`geocoded`); coordinates are attached only while the columns are
      supported. */
  function PrepareLocation(row: ListingRow, a: AutoFill, supported: bool, geocoded: Option<Coordinates>): (r: ListingRow)
    ensures r == row.(coordinates := r.coordinates)
    ensures !supported ==> r.coordinates == row.coordinates
    ensures supported && MatchesAutoFill(row.location, a) ==>
              r.coordinates == Some(Coordinates(a.latitude.value, a.longitude.value))
    ensures supported && !MatchesAutoFill(row.location, a) && |row.location| > 0 && geocoded.Some? ==>
              r.coordinates == geocoded
    ensures r.coordinates != row.coordinates ==> supported
  {
    if MatchesAutoFill(row.location, a) then
      if supported then row.(coordinates := Some(Coordinates(a.latitude.value, a.longitude.value))) else row
    else if !supported || |row.location| == 0 then row
    else if geocoded.Some? then row.(coordinates := geocoded)
    else row
  }

  /** A location typed over the auto-filled one never receives the device's
      coordinates, and with the columns unsupported no coordinates are
      attached at all. */
  lemma AutoFillOnlyWhenUnchanged(row: ListingRow, a: AutoFill, supported: bool, geocoded: Option<Coordinates>)
    requires row.coordinates.None?
    requires a.placeName.Some? && row.location != a.placeName.value
    ensures PrepareLocation(row, a, supported, geocoded).coordinates.Some? ==>
              supported && PrepareLocation(row, a, supported, geocoded).coordinates == geocoded
    ensures PrepareLocation(row, a, false, geocoded).coordinates.None?
  {
  }

  // ---------------------------------------------------------------------------
  // Photos
  // ---------------------------------------------------------------------------

  /** The sequential upload: every URL in order, or the index of the first
      photo that failed. */
  datatype Photos = AllUploaded(urls: seq<string>) | FailedAt(index: nat)

  /** `uploadPhotosAndCreateListing` from photo `index` on, having already
      collected `uploaded`; `upload` answers a photo with its public URL or a
      failure. */
  function UploadPhotos(images: seq<string>, index: nat, uploaded: seq<string>, upload: string -> Option<string>): (p: Photos)
    requires index <= |images| && |uploaded| == index
    ensures p.AllUploaded? ==> |p.urls| == |images| && p.urls[..index] == uploaded
    ensures p.AllUploaded? ==> forall i :: index <= i < |images| ==> upload(images[i]) == Some(p.urls[i])
    ensures p.FailedAt? ==> index <= p.index < |images| && upload(images[p.index]).None?
    ensures p.FailedAt? ==> forall i :: index <= i < p.index ==> upload(images[i]).Some?
    decreases |images| - index
  {
    if index >= |images| then AllUploaded(uploaded)
    else
      match upload(images[index])
      case None => FailedAt(index)
      case Some(url) =>
        var p := UploadPhotos(images, index + 1, uploaded + [url], upload);
        if p.AllUploaded? then
          assert p.urls[..index] == (uploaded + [url])[..index] == uploaded;
          p
        else p
  }

  /** Fail-fast: the upload completes exactly when every photo uploads, with
      the URLs in photo order, and otherwise stops at the first failure. */
  lemma UploadFailFast(images: seq<string>, upload: string -> Option<string>)
    ensures var p := UploadPhotos(images, 0, [], upload);
            && (p.AllUploaded? <==> forall i :: 0 <= i < |images| ==> upload(images[i]).Some?)
            && (p.AllUploaded? ==> forall i :: 0 <= i < |images| ==> p.urls[i] == upload(images[i]).value)
            && (p.FailedAt? ==> (forall i :: 0 <= i < p.index ==> upload(images[i]).Some?) && upload(images[p.index]).None?)
  {
  }

  /** What `dispatchListingSubmission` sends: nothing when a photo failed,
      otherwise an update (edit) or insert (new) of the row, carrying the
      comma-joined URLs when photos were picked. */
  datatype Dispatch = UploadStopped(failedPhoto: nat) | UpdateRow(row: ListingRow) | InsertRow(row: ListingRow)

  function DispatchListing(row: ListingRow, editMode: bool, images: seq<string>, upload: string -> Option<string>): (d: Dispatch)
    ensures |images| == 0 ==> d == (if editMode then UpdateRow(row) else InsertRow(row))
    ensures d.UploadStopped? <==> exists i :: 0 <= i < |images| && upload(images[i]).None?
    ensures d.UpdateRow? ==> editMode
    ensures d.InsertRow? ==> !editMode
    ensures (d.UpdateRow? || d.InsertRow?) && |images| > 0 ==>
              d.row == row.(imageUrl := d.row.imageUrl) && d.row.imageUrl.Some? &&
              exists urls: seq<string> :: |urls| == |images| && (forall i :: 0 <= i < |images| ==> upload(images[i]) == Some(urls[i]))
                                            && d.row.imageUrl.value == Join(urls, ',')
  {
    if |images| == 0 then (if editMode then UpdateRow(row) else InsertRow(row))
    else
      UploadFailFast(images, upload);
      match UploadPhotos(images, 0, [], upload)
      case FailedAt(i) => UploadStopped(i)
      case AllUploaded(urls) =>
        var r := row.(imageUrl := Some(Join(urls, ',')));
        if editMode then UpdateRow(r) else InsertRow(r)
  }

  // ---------------------------------------------------------------------------
  // The insert and its retry without coordinates
  // ---------------------------------------------------------------------------

  /** How an insert ends: created, failed with an error, or (only in the
      as-written model, when its step budget runs out) still retrying. */
  datatype Created = CreatedRow(row: ListingRow) | CreateFailed(error: string) | StillRetrying

  /** `createListing` as written: on an error that looks like a missing
      coordinate column it drops the coordinates and inserts again, with no
      bound; `insert` answers a row with nothing (success) or an error text.
      `fuel` bounds the number of inserts the model follows. */
  function CreateListingAsWritten(row: ListingRow, insert: ListingRow -> Option<string>, fuel: nat): (c: Created)
    ensures fuel == 0 ==> c == StillRetrying
    ensures fuel > 0 && insert(row).None? ==> c == CreatedRow(row)
    ensures fuel > 0 && insert(row).Some? ==>
              (!FeatureCompat.IsMissingCoordinateColumnError(insert(row)) ==> c == CreateFailed(insert(row).value))
    ensures c.CreatedRow? ==> c.row == row || c.row == row.(coordinates := None)
    ensures c.CreateFailed? ==> !FeatureCompat.IsMissingCoordinateColumnError(Some(c.error))
    decreases fuel
  {
    if fuel == 0 then StillRetrying
    else
      match insert(row)
      case None => CreatedRow(row)
      case Some(error) =>
        if FeatureCompat.IsMissingCoordinateColumnError(Some(error)) then
          CreateListingAsWritten(row.(coordinates := None), insert, fuel - 1)
        else CreateFailed(error)
  }

  /** A server that answers every insert with an undefined-column error (the
      code PostgreSQL uses for any missing column, not only the coordinates)
      keeps the as-written insert retrying for ever: no budget suffices. */
  lemma {:induction false} AsWrittenRetriesForever(row: ListingRow, fuel: nat)
    ensures CreateListingAsWritten(row, r => Some(FeatureCompat.UndefinedColumn), fuel) == StillRetrying
    decreases fuel
  {
    if fuel > 0 {
      var e := FeatureCompat.UndefinedColumn;
      assert Lower(e) == e;
      ContainsSelfCode();
      AsWrittenRetriesForever(row.(coordinates := None), fuel - 1);
    }
  }

  lemma ContainsSelfCode()
    ensures Contains(FeatureCompat.UndefinedColumn, FeatureCompat.UndefinedColumn)
  {
    ContainsSelf(FeatureCompat.UndefinedColumn);
  }

  /** The insert's result and whether the coordinates switch was turned
      off. */
  datatype CreateResult = CreateResult(created: Created, coordinatesOff: bool)

  /** `createListing` with the retry made once: only a row that carried
      coordinates is retried, without them; a second failure is reported. */
  function CreateListingOnce(row: ListingRow, insert: ListingRow -> Option<string>): (c: CreateResult)
    ensures c.created != StillRetrying
    ensures c.created.CreatedRow? ==> c.created.row == row || c.created.row == row.(coordinates := None)
    ensures c.created.CreatedRow? && c.created.row != row ==> row.coordinates.Some? && c.coordinatesOff
    ensures c.coordinatesOff <==> insert(row).Some? && FeatureCompat.IsMissingCoordinateColumnError(insert(row))
  {
    match insert(row)
    case None => CreateResult(CreatedRow(row), false)
    case Some(error) =>
      if FeatureCompat.IsMissingCoordinateColumnError(Some(error)) then
        var stripped := row.(coordinates := None);
        if row.coordinates.None? then CreateResult(CreateFailed(error), true)
        else match insert(stripped)
          case None => CreateResult(CreatedRow(stripped), true)
          case Some(again) => CreateResult(CreateFailed(again), true)
      else CreateResult(CreateFailed(error), false)
  }

  /** Whenever the as-written insert ends within its budget because the retry
      was not needed again, the corrected insert ends the same way. */
  lemma OnceAgreesWhenRetryEnds(row: ListingRow, insert: ListingRow -> Option<string>, fuel: nat)
    requires fuel >= 2
    requires !(insert(row).Some? && FeatureCompat.IsMissingCoordinateColumnError(insert(row)))
             || (row.coordinates.Some? && !(insert(row.(coordinates := None)).Some?
                                              && FeatureCompat.IsMissingCoordinateColumnError(insert(row.(coordinates := None)))))
    ensures CreateListingAsWritten(row, insert, fuel) == CreateListingOnce(row, insert).created
  {
  }
}

=== FILE: dates.dfy ===
/** Relative times ("5 minutes ago", "3h ago") computed from a millisecond
    difference.  Parsing a timestamp and reading the clock happen outside the
    model: each operation receives the parsed instant (absent when parsing
    failed) and the current time. */
module Dates {
  import opened Wrappers
  import opened JavaText
  import opened JavaMath

  const MinuteMillis := 60000
  const HourMillis := 3600000
  const DayMillis := 86400000
  const WeekMillis := 7 * 86400000

  // ---------------------------------------------------------------------------
  // DateUtils.getTimeAgo
  // ---------------------------------------------------------------------------

  /** The label `getTimeAgo` returns: "Just now", "N minute(s) ago",
      "N hour(s) ago", "N day(s) ago", the date formatted for display, or the
      input itself when it cannot be parsed. */
  datatype TimeAgo = JustNow | MinutesAgo(minutes: int) | HoursAgo(hours: int) | DaysAgo(days: int)
                   | FormattedDate(date: string) | Unparsed(raw: string)

  function GetTimeAgo(dateString: string, parsed: Option<int>, now: int): (t: TimeAgo)
    ensures parsed.None? <==> t == Unparsed(dateString)
    ensures parsed.Some? ==>
              var diff := now - parsed.value;
              && (t.JustNow? <==> diff < MinuteMillis)
              && (t.MinutesAgo? <==> MinuteMillis <= diff < HourMillis)
              && (t.HoursAgo? <==> HourMillis <= diff < DayMillis)
              && (t.DaysAgo? <==> DayMillis <= diff < WeekMillis)
              && (t.FormattedDate? <==> diff >= WeekMillis)
    ensures t.MinutesAgo? ==> 1 <= t.minutes < 60
    ensures t.HoursAgo? ==> 1 <= t.hours < 24
    ensures t.DaysAgo? ==> 1 <= t.days < 7
    // each count is the whole number of its units in the difference
    ensures parsed.Some? && t.MinutesAgo? ==>
              t.minutes * MinuteMillis <= now - parsed.value < (t.minutes + 1) * MinuteMillis
    ensures parsed.Some? && t.HoursAgo? ==>
              t.hours * HourMillis <= now - parsed.value < (t.hours + 1) * HourMillis
    ensures parsed.Some? && t.DaysAgo? ==>
              t.days * DayMillis <= now - parsed.value < (t.days + 1) * DayMillis
  {
    if parsed.None? then Unparsed(dateString)
    else
      var diff := now - parsed.value;
      if diff < MinuteMillis then JustNow
      else if diff < HourMillis then
        DivBetween(diff, MinuteMillis, 1, 60);
        JavaDivUpper(diff, MinuteMillis);
        MinutesAgo(JavaDiv(diff, MinuteMillis))
      else if diff < DayMillis then
        DivBetween(diff, HourMillis, 1, 24);
        JavaDivUpper(diff, HourMillis);
        HoursAgo(JavaDiv(diff, HourMillis))
      else if diff < WeekMillis then
        DivBetween(diff, DayMillis, 1, 7);
        JavaDivUpper(diff, DayMillis);
        DaysAgo(JavaDiv(diff, DayMillis))
      else FormattedDate(dateString)
  }

  /** A dividend between `lo` and `hi` units has a quotient between `lo` and
      `hi`. */
  lemma {:induction false} DivBetween(a: int, unit: int, lo: nat, hi: nat)
    requires unit > 0 && lo * unit <= a < hi * unit
    ensures lo <= JavaDiv(a, unit) < hi
    decreases lo
  {
    if lo > 0 {
      assert a - unit >= (lo - 1) * unit;
      assert a - unit < (hi - 1) * unit;
      DivBetween(a - unit, unit, lo - 1, hi - 1);
    } else {
      DivBelow(a, unit, hi);
    }
  }

  lemma {:induction false} DivBelow(a: int, unit: int, hi: nat)
    requires unit > 0 && 0 <= a < hi * unit
    ensures JavaDiv(a, unit) < hi
    decreases hi
  {
    if a >= unit {
      assert a - unit < (hi - 1) * unit;
      DivBelow(a - unit, unit, hi - 1);
    }
  }

  /** The unit word, with an "s" exactly for counts above one. */
  function UnitWord(count: int, unit: string): (w: string)
    ensures w == unit || w == unit + "s"
    ensures w == unit + "s" <==> count > 1
  {
    if count > 1 then unit + "s" else unit
  }

  /** The label as text, for the counted buckets. */
  function CountedText(t: TimeAgo, count: string): (text: Option<string>)
    ensures text.Some? <==> t.MinutesAgo? || t.HoursAgo? || t.DaysAgo?
  {
    match t
    case MinutesAgo(n) => Some(count + " " + UnitWord(n, "minute") + " ago")
    case HoursAgo(n) => Some(count + " " + UnitWord(n, "hour") + " ago")
    case DaysAgo(n) => Some(count + " " + UnitWord(n, "day") + " ago")
    case _ => None
  }

  /** A counted label is singular exactly while less than two of its units
      have passed: "1 minute ago" up to two minutes, "2 minutes ago" from
      then on, and the same for hours and days. */
  lemma PluralOnlyAboveOne(dateString: string, at: int, now: int, count: string)
    ensures var t := GetTimeAgo(dateString, Some(at), now);
            var diff := now - at;
            && (t.MinutesAgo? ==>
                  CountedText(t, count) == Some(count + " " + (if diff >= 2 * MinuteMillis then "minutes" else "minute") + " ago"))
            && (t.HoursAgo? ==>
                  CountedText(t, count) == Some(count + " " + (if diff >= 2 * HourMillis then "hours" else "hour") + " ago"))
            && (t.DaysAgo? ==>
                  CountedText(t, count) == Some(count + " " + (if diff >= 2 * DayMillis then "days" else "day") + " ago"))
  {
    var t := GetTimeAgo(dateString, Some(at), now);
    var diff := now - at;
    match t
    case MinutesAgo(n) =>
      PluralBracket(n, MinuteMillis, diff);
      assert "minute" + "s" == "minutes";
    case HoursAgo(n) =>
      PluralBracket(n, HourMillis, diff);
      assert "hour" + "s" == "hours";
    case DaysAgo(n) =>
      PluralBracket(n, DayMillis, diff);
      assert "day" + "s" == "days";
    case _ =>
  }

  /** Within the bracket of a count of `n` units, `n` exceeds one exactly
      from two units on. */
  lemma PluralBracket(n: int, unit: int, diff: int)
    requires unit > 0 && n >= 1 && n * unit <= diff < (n + 1) * unit
    ensures n > 1 <==> diff >= 2 * unit
  {
    if n > 1 {
      assert n * unit >= 2 * unit;
    } else {
      assert (n + 1) * unit == 2 * unit;
    }
  }

  /** `isPastDate`/`isFutureDate`: an unparseable date is neither. */
  predicate IsPastDate(parsed: Option<int>, now: int) {
    parsed.Some? && parsed.value < now
  }

  predicate IsFutureDate(parsed: Option<int>, now: int) {
    parsed.Some? && parsed.value > now
  }

  /** A date is never both past and future, and a parsed date is one of the
      two unless it is exactly now. */
  lemma PastFutureExclusive(parsed: Option<int>, now: int)
    ensures !(IsPastDate(parsed, now) && IsFutureDate(parsed, now))
    ensures parsed.None? ==> !IsPastDate(parsed, now) && !IsFutureDate(parsed, now)
    ensures parsed.Some? && parsed.value != now ==> IsPastDate(parsed, now) || IsFutureDate(parsed, now)
  {
  }

  // ---------------------------------------------------------------------------
  // formatRelative (community feed, forum, post and bid screens,
  // notifications)
  // ---------------------------------------------------------------------------

  /** The short label: "Just now" for a missing timestamp, "Nm ago",
      "Nh ago", "Nd ago", or the input when it cannot be parsed. */
  datatype Relative = RelJustNow | Minutes(m: int) | Hours(h: int) | Days(d: int) | Unchanged(raw: string)

  /** Whole minutes since the instant, at least one. */
  function ElapsedMinutes(delta: int): (m: int)
    ensures m >= 1
    ensures delta >= MinuteMillis ==> m == JavaDiv(delta, MinuteMillis)
    ensures delta < 2 * MinuteMillis ==> m == 1
    ensures delta >= MinuteMillis ==> m * MinuteMillis <= delta < (m + 1) * MinuteMillis
  {
    JavaDivSmall(delta, MinuteMillis);
    JavaDivUpper(delta, MinuteMillis);
    QuotientBounds(delta, MinuteMillis);
    Max(1, JavaDiv(delta, MinuteMillis))
  }

  /** A dividend of at least one unit has a quotient of at least one, and one
      below two units a quotient below two. */
  lemma QuotientBounds(a: int, unit: int)
    requires unit > 0
    ensures a >= unit ==> JavaDiv(a, unit) >= 1
    ensures 0 <= a < 2 * unit ==> JavaDiv(a, unit) < 2
  {
    if a >= unit {
      assert JavaDiv(a, unit) == 1 + JavaDiv(a - unit, unit);
    }
    if 0 <= a < 2 * unit {
      DivBelow(a, unit, 2);
    }
  }

  /** The label counts the age `delta` in its unit: an age under a minute,
      or in the future, reads one minute; otherwise the count is the whole
      number of units in the age, and the unit is the largest one below the
      next (minutes under an hour, hours under a day). */
  predicate CountsAge(r: Relative, delta: int) {
    match r
    case Minutes(m) =>
      1 <= m < 60 && (if delta < MinuteMillis then m == 1 else m * MinuteMillis <= delta < (m + 1) * MinuteMillis)
    case Hours(h) => 1 <= h < 24 && h * HourMillis <= delta < (h + 1) * HourMillis
    case Days(d) => d >= 1 && d * DayMillis <= delta < (d + 1) * DayMillis
    case _ => false
  }

  function FormatRelative(iso: Option<string>, parsed: Option<int>, now: int): (r: Relative)
    ensures IsEmptyOpt(iso) <==> r == RelJustNow
    ensures !IsEmptyOpt(iso) && parsed.None? <==> r.Unchanged?
    ensures r.Unchanged? ==> r.raw == iso.value
    ensures r.Minutes? ==> 1 <= r.m < 60
    ensures r.Hours? ==> 1 <= r.h < 24
    ensures r.Days? ==> r.d >= 1
    ensures !IsEmptyOpt(iso) && parsed.Some? ==> CountsAge(r, now - parsed.value)
  {
    if IsEmptyOpt(iso) then RelJustNow
    else if parsed.None? then Unchanged(iso.value)
    else
      var delta := now - parsed.value;
      var minutes := ElapsedMinutes(delta);
      if minutes < 60 then
        Minutes(minutes)
      else
        QuotientBounds(minutes, 60);
        HoursFromMinutes(delta);
        JavaDivUpper(delta, HourMillis);
        var hours := JavaDiv(minutes, 60);
        if hours < 24 then Hours(hours)
        else
          QuotientBounds(hours, 24);
          JavaDivUpper(hours, 24);
          Days(JavaDiv(hours, 24))
  }

  /** The label's size in minutes, for comparing labels. */
  function InMinutes(r: Relative): int {
    match r
    case Minutes(m) => m
    case Hours(h) => 60 * h
    case Days(d) => 1440 * d
    case _ => 0
  }

  /** An instant further in the past never gets a smaller label, and a
      timestamp in the future reads "1m ago". */
  lemma RelativeMonotone(iso: string, t1: int, t2: int, now: int)
    requires |iso| > 0 && t2 <= t1
    ensures InMinutes(FormatRelative(Some(iso), Some(t1), now)) <= InMinutes(FormatRelative(Some(iso), Some(t2), now))
    ensures t1 >= now ==> FormatRelative(Some(iso), Some(t1), now) == Minutes(1)
  {
    LabelsOrdered(FormatRelative(Some(iso), Some(t1), now), FormatRelative(Some(iso), Some(t2), now), now - t1, now - t2);
  }

  /** Two labels that count ages `d1 <= d2` are ordered the same way: a label
      of the same unit never counts fewer units for the older age, and the
      older age never gets a smaller unit. */
  lemma LabelsOrdered(r1: Relative, r2: Relative, d1: int, d2: int)
    requires CountsAge(r1, d1) && CountsAge(r2, d2) && d1 <= d2
    ensures InMinutes(r1) <= InMinutes(r2)
  {
    match r1
    case Minutes(a) =>
      if r2.Minutes? && d1 >= MinuteMillis {
        assert a * MinuteMillis <= d2 < (r2.m + 1) * MinuteMillis;
      }
    case Hours(a) =>
      if r2.Hours? {
        assert a * HourMillis <= d2 < (r2.h + 1) * HourMillis;
      }
    case Days(a) =>
      assert a * DayMillis <= d2 < (r2.d + 1) * DayMillis;
  }

  /** Truncating division is monotone in the dividend. */
  lemma {:induction false} JavaDivMonotone(a: int, b: int, unit: int)
    requires unit > 0 && a <= b
    ensures JavaDiv(a, unit) <= JavaDiv(b, unit)
    decreases (if b >= 0 then b else 0) + (if a < 0 then -a else 0), if a < 0 then 1 else 0
  {
    if a < 0 && b < 0 {
      JavaDivMonotone(-b, -a, unit);
    } else if a < 0 {
      JavaDivSmall(a, unit);
    } else if b >= unit && a >= unit {
      JavaDivMonotone(a - unit, b - unit, unit);
    } else if a < unit {
    }
  }

  /** Adding `k` whole units to a non-negative dividend adds `k` to the
      quotient. */
  lemma {:induction false} JavaDivShift(a: int, unit: int, k: nat)
    requires unit > 0 && a >= 0
    ensures JavaDiv(a + k * unit, unit) == k + JavaDiv(a, unit)
    decreases k
  {
    if k > 0 {
      JavaDivShift(a, unit, k - 1);
      assert a + k * unit - unit == a + (k - 1) * unit;
    }
  }

  /** Whole hours are whole minutes divided by sixty. */
  lemma {:induction false} HoursFromMinutes(a: int)
    requires a >= 0
    ensures JavaDiv(JavaDiv(a, MinuteMillis), 60) == JavaDiv(a, HourMillis)
    decreases a
  {
    if a < HourMillis {
      DivBelow(a, MinuteMillis, 60);
      JavaDivSmall(JavaDiv(a, MinuteMillis), 60);
    } else {
      var rest := a - HourMillis;
      JavaDivShift(rest, MinuteMillis, 60);
      JavaDivShift(JavaDiv(rest, MinuteMillis), 60, 1);
      HoursFromMinutes(rest);
    }
  }

  /** Up to a day old, both formats count the same minutes and the same
      hours. */
  lemma FormatsAgree(iso: string, at: int, now: int)
    requires |iso| > 0 && MinuteMillis <= now - at < DayMillis
    ensures GetTimeAgo(iso, Some(at), now).MinutesAgo? ==>
              FormatRelative(Some(iso), Some(at), now) == Minutes(GetTimeAgo(iso, Some(at), now).minutes)
    ensures GetTimeAgo(iso, Some(at), now).HoursAgo? ==>
              FormatRelative(Some(iso), Some(at), now) == Hours(GetTimeAgo(iso, Some(at), now).hours)
  {
    HoursFromMinutes(now - at);
  }
}

=== FILE: feature_compat.dfy ===
/** Switches for optional database columns (listing metadata on chats, the
    proof photo on trades, coordinates on listings) and the error-text tests
    that decide when to turn one off.  Each switch is a process-wide boolean
    that starts on; here it is a value threaded through its operations. */
module FeatureCompat {
  import opened Wrappers
  import opened JavaText

  // ---------------------------------------------------------------------------
  // Switches
  // ---------------------------------------------------------------------------

  datatype Switch = ListingMetadata | ProofPhoto | Coordinates

  /** `disableListingMetadata`/`disableProofPhoto`/`markCoordinatesUnsupported`,
      `set…Supported(b)`, and the coordinates switch's `reset`. */
  datatype SwitchOp = TurnOff | SetTo(on: bool) | Reset

  /** Every switch starts on. */
  const InitiallyOn := true

  /** Only the coordinates switch has `reset`. */
  predicate Offers(sw: Switch, op: SwitchOp) {
    op.Reset? ==> sw == Coordinates
  }

  function ApplyOp(sw: Switch, on: bool, op: SwitchOp): (on': bool)
    requires Offers(sw, op)
    ensures op.TurnOff? ==> !on'
    ensures op.SetTo? ==> on' == op.on
    ensures op.Reset? ==> on'
  {
    match op
    case TurnOff => false
    case SetTo(b) => b
    case Reset => true
  }

  /** The switch after a run of operations from start-up. */
  function Run(sw: Switch, ops: seq<SwitchOp>): bool
    requires forall i :: 0 <= i < |ops| ==> Offers(sw, ops[i])
    decreases |ops|
  {
    if |ops| == 0 then InitiallyOn
    else ApplyOp(sw, Run(sw, ops[..|ops| - 1]), ops[|ops| - 1])
  }

  /** Each operation overwrites the switch, so the last one decides it; with
      no operation it is on. */
  lemma {:induction false} LastOpDecides(sw: Switch, ops: seq<SwitchOp>, more: seq<SwitchOp>)
    requires forall i :: 0 <= i < |ops| ==> Offers(sw, ops[i])
    requires forall i :: 0 <= i < |more| ==> Offers(sw, more[i])
    requires |more| > 0
    ensures forall i :: 0 <= i < |ops + more| ==> Offers(sw, (ops + more)[i])
    ensures Run(sw, ops + more) == Run(sw, more)
    decreases |more|
  {
    var all := ops + more;
    assert forall i :: 0 <= i < |all| ==> Offers(sw, all[i]) by {
      forall i | 0 <= i < |all|
        ensures Offers(sw, all[i])
      {
        if i >= |ops| {
          assert all[i] == more[i - |ops|];
        }
      }
    }
    assert all[..|all| - 1] == ops + more[..|more| - 1];
    if |more| > 1 {
      LastOpDecides(sw, ops, more[..|more| - 1]);
    }
  }

  // ---------------------------------------------------------------------------
  // Error classifiers
  // ---------------------------------------------------------------------------

  /** The PostgreSQL code for an undefined column. */
  const UndefinedColumn := "42703"

  /** A chats query failed because the listing columns are missing. */
  predicate IsListingMetadataError(error: Option<string>) {
    !IsEmptyOpt(error) &&
    var lower := Lower(error.value);
    Contains(lower, UndefinedColumn) || Contains(lower, "listing_id") || Contains(lower, "chats_listing_id_fkey")
    || Contains(lower, "listing_title_snapshot") || Contains(lower, "listing_image_url_snapshot")
  }

  /** A trades query failed because the proof-photo column is missing. */
  predicate IsProofPhotoError(error: Option<string>) {
    !IsEmptyOpt(error) &&
    var lower := Lower(error.value);
    Contains(lower, UndefinedColumn) || Contains(lower, "proof_photo_url")
  }

  /** A listings insert failed because the coordinate columns are missing
      (the same test appears in the marketplace and the create-listing
      screen). */
  predicate IsMissingCoordinateColumnError(error: Option<string>) {
    !IsEmptyOpt(error) &&
    var lower := Lower(error.value);
    Contains(lower, UndefinedColumn) || (Contains(lower, "column") && (Contains(lower, "latitude") || Contains(lower, "longitude")))
  }

  /** The three tests ignore the error's case, reject a missing or empty
      error, and all accept an undefined-column error. */
  lemma ClassifiersAgree(error: string)
    ensures IsListingMetadataError(Some(Upper(error))) == IsListingMetadataError(Some(error))
    ensures IsProofPhotoError(Some(Upper(error))) == IsProofPhotoError(Some(error))
    ensures IsMissingCoordinateColumnError(Some(Upper(error))) == IsMissingCoordinateColumnError(Some(error))
    ensures !IsListingMetadataError(None) && !IsProofPhotoError(Some("")) && !IsMissingCoordinateColumnError(None)
    ensures Contains(Lower(error), UndefinedColumn) ==>
              IsListingMetadataError(Some(error)) && IsProofPhotoError(Some(error)) && IsMissingCoordinateColumnError(Some(error))
  {
    assert Lower(Upper(error)) == Lower(error);
  }

  lemma ContainsAt(s: string, t: string, i: int)
    requires OccursAt(s, t, i)
    ensures Contains(s, t)
  {
    ContainsIffOccurrence(s, t);
  }

  /** PostgreSQL's message for a missing coordinate column is recognised
      whatever surrounds it and in any case. */
  lemma CoordinateColumnMessage(pre: string, col: string, post: string)
    requires col == "latitude" || col == "longitude"
    ensures IsMissingCoordinateColumnError(Some(pre + "column \"" + col + "\"" + post))
    ensures IsMissingCoordinateColumnError(Some(Upper(pre + "column \"" + col + "\"" + post)))
  {
    var e := pre + "column \"" + col + "\"" + post;
    var l := Lower(e);
    var n := |pre|;
    assert e[n..n + 6] == "column";
    assert l[n..n + 6] == "column";
    assert e[n + 8..n + 8 + |col|] == col;
    assert l[n + 8..n + 8 + |col|] == col;
    ContainsAt(l, "column", n);
    ContainsAt(l, col, n + 8);
    ClassifiersAgree(e);
  }
}

=== FILE: impact.dfy ===
/** Impact scoring: the counters a completed swap or donation bumps, the score
    formula, the five-level eco ladder used when the score is written back, the
    progress bands the profile screen draws, who gets credited, and which status
    a "mark complete" writes. */
module Impact {
  import opened Wrappers
  import opened JavaText
  import Trades

  // ---------------------------------------------------------------------------
  // Counters, score and level
  // ---------------------------------------------------------------------------

  const Beginner := "Beginner EcoSaver"
  const Rising := "Rising Recycler"
  const Hero := "Sustainable Hero"
  const Guardian := "Eco Guardian"
  const Pioneer := "Planet Pioneer"

  /** `total_swaps`, `total_donations` and `total_purchases` of a profile. */
  datatype Counters = Counters(swaps: int, donations: int, purchases: int)

  /** The status written when a swap completes, and when a donation does. */
  const SwappedStatus := "swapped"
  const DonatedStatus := "donated"

  /** Credits one completed trade; the status is compared case-sensitively. */
  function ApplyCompletion(c: Counters, status: string): (c': Counters)
    ensures c'.purchases == c.purchases
    ensures c'.swaps == c.swaps + (if status == SwappedStatus then 1 else 0)
    ensures c'.donations == c.donations + (if status == DonatedStatus then 1 else 0)
  {
    if status == SwappedStatus then c.(swaps := c.swaps + 1)
    else if status == DonatedStatus then c.(donations := c.donations + 1)
    else c
  }

  /** The impact score: two points per swap, three per donation, one per purchase. */
  function Score(c: Counters): int {
    c.swaps * 2 + c.donations * 3 + c.purchases
  }

  /** A completed swap is worth 2 points and a donation 3; any other status
      leaves the score alone. */
  lemma CompletionScore(c: Counters, status: string)
    ensures Score(ApplyCompletion(c, status)) == Score(c) +
              (if status == SwappedStatus then 2 else if status == DonatedStatus then 3 else 0)
  {
  }

  /** The ladder that picks the level name written with a new score. */
  function LevelFor(score: int): (level: string)
    ensures score < 10 ==> level == Beginner
    ensures score >= 100 ==> level == Pioneer
  {
    if score >= 100 then Pioneer
    else if score >= 50 then Guardian
    else if score >= 25 then Hero
    else if score >= 10 then Rising
    else Beginner
  }

  /** The emoji written next to each level: a seedling, recycling symbol,
      globe, butterfly and sun. */
  function IconFor(level: string): (icon: string)
    ensures level !in {Rising, Hero, Guardian, Pioneer} ==> icon == "\U{1F331}"
  {
    if level == Pioneer then "\U{1F31E}"
    else if level == Guardian then "\U{1F98B}"
    else if level == Hero then "\U{1F30D}"
    else if level == Rising then "\U{267B}\U{FE0F}"
    else "\U{1F331}"
  }

  /** Each of the five levels has an icon of its own. */
  lemma IconsDistinct(a: string, b: string)
    requires a in {Beginner, Rising, Hero, Guardian, Pioneer} && b in {Beginner, Rising, Hero, Guardian, Pioneer}
    ensures IconFor(a) == IconFor(b) <==> a == b
  {
  }

  /** The JSON written back to the profile after a completion. */
  function ImpactPayload(c: Counters, status: string): (p: Payload)
    ensures p.Keys == {"total_swaps", "total_donations", "impact_score", "eco_level", "eco_icon"}
    ensures p["total_swaps"] == JInt(c.swaps + (if status == SwappedStatus then 1 else 0))
    ensures p["total_donations"] == JInt(c.donations + (if status == DonatedStatus then 1 else 0))
    ensures p["impact_score"] ==
              JInt(Score(c) + (if status == SwappedStatus then 2 else if status == DonatedStatus then 3 else 0))
    ensures p["eco_level"] == JString(LevelFor(p["impact_score"].i))
    ensures p["eco_icon"] == JString(IconFor(p["eco_level"].s))
  {
    var c' := ApplyCompletion(c, status);
    map["total_swaps" := JInt(c'.swaps), "total_donations" := JInt(c'.donations),
        "impact_score" := JInt(Score(c')), "eco_level" := JString(LevelFor(Score(c'))),
        "eco_icon" := JString(IconFor(LevelFor(Score(c'))))]
  }

  // ---------------------------------------------------------------------------
  // Progress bands of the profile screen
  // ---------------------------------------------------------------------------

  const IntMax: int := 0x7FFF_FFFF

  /** One row of the band table: the level, the score it starts at, the score
      the next level starts at and the next level's name (none for the last). */
  datatype Band = Band(level: string, minScore: int, nextStart: int, nextLevel: Option<string>)

  const Bands: seq<Band> := [
    Band(Beginner, 0, 10, Some(Rising)),
    Band(Rising, 10, 25, Some(Hero)),
    Band(Hero, 25, 50, Some(Guardian)),
    Band(Guardian, 50, 100, Some(Pioneer)),
    Band(Pioneer, 100, IntMax, None)
  ]

  /** The table is contiguous: it starts at 0, each band ends where the next one
      starts and names it, and only the last band is open-ended. */
  lemma BandsContiguous()
    ensures |Bands| == 5 && Bands[0].minScore == 0
    ensures forall i :: 0 <= i < |Bands| - 1 ==>
              Bands[i].nextStart == Bands[i + 1].minScore && Bands[i].nextLevel == Some(Bands[i + 1].level)
              && Bands[i].minScore < Bands[i].nextStart
    ensures Bands[|Bands| - 1].nextLevel.None? && Bands[|Bands| - 1].nextStart == IntMax
  {
  }

  /** Band `i` is the one a score falls in. */
  predicate InBand(score: int, i: int) {
    0 <= i < |Bands| && Bands[i].minScore <= score &&
    (score < Bands[i].nextStart || Bands[i].nextLevel.None?)
  }

  /** The first loop: the band whose name equals the stored level ignoring
      case, or the first band. */
  function MatchByName(currentLevel: Option<string>, i: nat): (j: nat)
    requires i <= |Bands|
    ensures j < |Bands|
    ensures currentLevel.Some? && j > 0 ==> EqualsIgnoreCase(currentLevel.value, Bands[j].level)
    ensures currentLevel.None? ==> j == 0
    ensures currentLevel.Some? ==>
              ((forall k :: i <= k < |Bands| ==> !EqualsIgnoreCase(currentLevel.value, Bands[k].level)) ==> j == 0)
    ensures currentLevel.Some? ==>
              ((exists k :: i <= k < |Bands| && EqualsIgnoreCase(currentLevel.value, Bands[k].level)) ==>
                 && i <= j && EqualsIgnoreCase(currentLevel.value, Bands[j].level)
                 && forall k :: i <= k < j ==> !EqualsIgnoreCase(currentLevel.value, Bands[k].level))
    decreases |Bands| - i
  {
    if i == |Bands| || currentLevel.None? then 0
    else if EqualsIgnoreCase(currentLevel.value, Bands[i].level) then i
    else MatchByName(currentLevel, i + 1)
  }

  /** The second loop: the first band the score falls in, else `fallback`. */
  function MatchByScore(score: int, i: nat, fallback: nat): (j: nat)
    requires i <= |Bands| && fallback < |Bands|
    ensures j < |Bands|
    ensures j != fallback ==> InBand(score, j)
    decreases |Bands| - i
  {
    if i == |Bands| then fallback
    else
      var b := Bands[i];
      var withinRange := score >= b.minScore && score < b.nextStart;
      var isFinal := b.nextLevel.None? && score >= b.minScore;
      if withinRange || isFinal then i else MatchByScore(score, i + 1, fallback)
  }

  function MatchedBand(score: int, currentLevel: Option<string>): (j: nat)
    ensures j < |Bands|
  {
    MatchByScore(score, 0, MatchByName(currentLevel, 0))
  }

  /** A non-negative score lands in its band whatever level name is stored;
      a negative one keeps the band of the stored name. */
  lemma MatchedBandIsScoreBand(score: int, l1: Option<string>, l2: Option<string>)
    ensures score >= 0 ==> InBand(score, MatchedBand(score, l1))
    ensures score >= 0 ==> MatchedBand(score, l1) == MatchedBand(score, l2)
    ensures score < 0 ==> MatchedBand(score, l1) == MatchByName(l1, 0)
  {
  }

  /** A score falls in exactly one band. */
  lemma BandUnique(score: int, i: int, j: int)
    requires InBand(score, i) && InBand(score, j)
    ensures i == j
  {
  }

  /** What the progress bar and its caption say. */
  datatype EcoProgress =
    | LevelComplete(level: string)
    | Towards(level: string, percent: int, remaining: int, nextLevel: string)

  /** `Math.round(a / (float) b)` for `a >= 0 && b > 0`: halves round up.  The
      fractions met here never lie within float error of a half. */
  function RoundDiv(a: nat, b: nat): (r: nat)
    requires b > 0
    ensures 2 * a - b < 2 * b * r <= 2 * a + b
  {
    (2 * a + b) / (2 * b)
  }

  function Max(a: int, b: int): int { if a >= b then a else b }
  function Min(a: int, b: int): int { if a <= b then a else b }

  function CalculateEcoProgress(score: int, currentLevel: Option<string>): (p: EcoProgress)
    ensures p.level == Bands[MatchedBand(score, currentLevel)].level
    ensures p.Towards? ==> 0 <= p.percent <= 100 && p.remaining >= 0
    ensures p.LevelComplete? <==> Bands[MatchedBand(score, currentLevel)].nextLevel.None?
  {
    ProgressInBand(Bands[MatchedBand(score, currentLevel)], score)
  }

  /** The bar and caption for a score in band `b`. */
  function ProgressInBand(b: Band, score: int): (p: EcoProgress)
    requires b.nextLevel.Some? ==> b.nextStart > b.minScore
    ensures p.level == b.level
    ensures p.Towards? ==> 0 <= p.percent <= 100 && p.remaining >= 0
    ensures p.LevelComplete? <==> b.nextLevel.None?
  {
    if b.nextLevel.None? || b.nextStart <= b.minScore then LevelComplete(b.level)
    else
      var span := b.nextStart - b.minScore;
      var gained := Max(0, score - b.minScore);
      var percent := Min(100, RoundDiv(gained * 100, span));
      var remaining := Max(0, b.nextStart - score);
      Towards(b.level, percent, remaining, b.nextLevel.value)
  }

  /** The profile screen and the ladder agree: for a non-negative score the band
      the progress bar shows is the level the ladder assigns. */
  lemma LadderMatchesBands(score: int, currentLevel: Option<string>)
    requires score >= 0
    ensures CalculateEcoProgress(score, currentLevel).level == LevelFor(score)
    ensures LevelFor(score) == Pioneer <==> CalculateEcoProgress(score, currentLevel) == LevelComplete(Pioneer)
  {
  }

  /** Inside a band, the percentage is the rounded share of the band covered
      and the points remaining reach exactly the next band. */
  lemma ProgressArithmetic(score: int, currentLevel: Option<string>)
    requires 0 <= score < 100
    ensures var p := CalculateEcoProgress(score, currentLevel);
            var b := Bands[MatchedBand(score, currentLevel)];
            p.Towards? && p.remaining == b.nextStart - score && score + p.remaining == b.nextStart &&
            p.percent < 100 &&
            2 * (score - b.minScore) * 100 - (b.nextStart - b.minScore)
              < 2 * (b.nextStart - b.minScore) * p.percent
              <= 2 * (score - b.minScore) * 100 + (b.nextStart - b.minScore)
  {
    MatchedBandIsScoreBand(score, currentLevel, None);
    var i := MatchedBand(score, currentLevel);
    assert i != 4 by {
      assert Bands[4].minScore == 100;
    }
    BandProgressArithmetic(Bands[i], score);
  }

  /** Within a band with a next level, the caption counts the points to it
      and the percentage is the rounded share of the band covered. */
  lemma BandProgressArithmetic(b: Band, score: int)
    requires b.nextLevel.Some? && b.minScore <= score < b.nextStart < b.minScore + 200
    ensures var p := ProgressInBand(b, score);
            p.Towards? && p.remaining == b.nextStart - score &&
            p.percent < 100 &&
            2 * (score - b.minScore) * 100 - (b.nextStart - b.minScore)
              < 2 * (b.nextStart - b.minScore) * p.percent
              <= 2 * (score - b.minScore) * 100 + (b.nextStart - b.minScore)
  {
    ShareBelowHundred(score - b.minScore, b.nextStart - b.minScore);
  }

  /** Less than a whole band rounds to less than 100%. */
  lemma ShareBelowHundred(g: nat, span: nat)
    requires g < span < 200
    ensures RoundDiv(g * 100, span) < 100
  {
    var r := RoundDiv(g * 100, span);
    assert 2 * span * r <= 2 * (g * 100) + span;
    assert 2 * (g * 100) + span < 2 * span * 100;
    CancelPositive(2 * span, r, 100);
  }

  lemma CancelPositive(a: int, x: int, y: int)
    requires a > 0 && a * x < a * y
    ensures x < y
  {
    if x >= y {
      MulMono(a, y, x);
    }
  }

  lemma MulMono(a: int, y: int, x: int)
    requires a > 0 && y <= x
    ensures a * y <= a * x
  {
  }

  /** A negative score keeps the band of the stored level name (the first
      band when none is stored or none matches) at 0%, with the points to go
      counted from the score itself. */
  lemma NegativeScoreKeepsNamedBand(score: int, currentLevel: Option<string>)
    requires score < 0
    ensures var b := Bands[MatchByName(currentLevel, 0)];
            CalculateEcoProgress(score, currentLevel)
              == if b.nextLevel.None? then LevelComplete(b.level)
                 else Towards(b.level, 0, b.nextStart - score, b.nextLevel.value)
    ensures currentLevel.None? ==> CalculateEcoProgress(score, currentLevel) == Towards(Beginner, 0, 10 - score, Rising)
  {
    MatchedBandIsScoreBand(score, currentLevel, None);
    var j := MatchByName(currentLevel, 0);
    assert CalculateEcoProgress(score, currentLevel) == ProgressInBand(Bands[j], score);
    BandsContiguous();
    NegativeInBand(Bands[j], score);
  }

  /** Below a band's start the bar is empty and the points to go are counted
      from the score. */
  lemma NegativeInBand(b: Band, score: int)
    requires 0 <= b.minScore && score < 0
    requires b.nextLevel.Some? ==> b.nextStart > b.minScore
    ensures ProgressInBand(b, score)
              == if b.nextLevel.None? then LevelComplete(b.level)
                 else Towards(b.level, 0, b.nextStart - score, b.nextLevel.value)
  {
    if b.nextLevel.Some? {
      assert RoundDiv(0, b.nextStart - b.minScore) == 0;
    }
  }

  /** A stored name equal to a band's level in any case selects that band:
      the level names differ even ignoring case. */
  lemma NameSelectsBand(name: string, i: nat)
    requires i < |Bands| && EqualsIgnoreCase(name, Bands[i].level)
    ensures MatchByName(Some(name), 0) == i
  {
    var j := MatchByName(Some(name), 0);
    assert EqualsIgnoreCase(name, Bands[j].level);
    LevelNamesDistinct(i, j);
  }

  /** The level names have pairwise different lengths, so no two agree even
      ignoring case. */
  lemma LevelNamesDistinct(i: nat, j: nat)
    requires i < |Bands| && j < |Bands| && Lower(Bands[i].level) == Lower(Bands[j].level)
    ensures i == j
  {
    assert |Lower(Bands[i].level)| == |Bands[i].level|;
    assert |Lower(Bands[j].level)| == |Bands[j].level|;
    assert |Beginner| == 17 && |Rising| == 15 && |Hero| == 16 && |Guardian| == 12 && |Pioneer| == 14;
  }

  // ---------------------------------------------------------------------------
  // Who is credited, and with which status
  // ---------------------------------------------------------------------------

  /** The chat screen's owner: the loaded listing owner, else the id the chat
      was opened with. */
  function ChatOwner(listingOwnerId: Option<string>, ownerIdArg: Option<string>): (o: Option<string>)
    ensures !IsEmptyOpt(listingOwnerId) ==> o == listingOwnerId
    ensures IsEmptyOpt(listingOwnerId) ==> o == ownerIdArg
  {
    if IsEmptyOpt(listingOwnerId) then ownerIdArg else listingOwnerId
  }

  /** The users an impact update credits: the first user, then the second
      unless it is the first.  The chat and listing-preview screens pass the
      owner and the current user; My Listings passes the current user and the
      counterparty. */
  function CreditTargets(first: Option<string>, second: Option<string>): (targets: seq<string>)
    ensures |targets| <= 2
    ensures forall i, j :: 0 <= i < j < |targets| ==> targets[i] != targets[j]
    ensures forall u :: u in targets <==> |u| > 0 && (first == Some(u) || second == Some(u))
    ensures !IsEmptyOpt(first) ==> targets[0] == first.value
  {
    (if !IsEmptyOpt(first) then [first.value] else []) +
    (if !IsEmptyOpt(second) && Some(second.value) != first then [second.value] else [])
  }

  /** The chat screen's completion dialog: exactly "donation" or "donated"
      selects the donated status. */
  function ChatCompletionStatus(selection: Option<string>): (s: string)
    ensures s == DonatedStatus <==> selection == Some("donation") || selection == Some("donated")
    ensures s == SwappedStatus <==> s != DonatedStatus
  {
    if selection == Some("donation") || selection == Some("donated") then DonatedStatus else SwappedStatus
  }

  /** My Listings and the listing preview: a listing whose type is "donation"
      in any case is marked donated, every other listing swapped. */
  function ListingCompletionStatus(listingType: Option<string>): (s: string)
    ensures s == DonatedStatus <==> listingType.Some? && EqualsIgnoreCase(listingType.value, "donation")
    ensures s == SwappedStatus <==> s != DonatedStatus
  {
    if listingType.Some? && EqualsIgnoreCase(listingType.value, "donation") then DonatedStatus else SwappedStatus
  }

  /** The impact status of a trade record by its type. */
  function MapImpactStatus(t: Trades.TradeType): (s: string)
    ensures t == Trades.Swap <==> s == SwappedStatus
    ensures t == Trades.Donation <==> s == DonatedStatus
  {
    match t
    case Swap => SwappedStatus
    case Donation => DonatedStatus
  }

  /** Every status a completion writes is a completed status, and crediting it
      adds exactly one swap or one donation. */
  lemma CompletionStatusesCredit(c: Counters, selection: Option<string>, listingType: Option<string>, t: Trades.TradeType)
    ensures Trades.IsCompletedStatus(ChatCompletionStatus(selection))
    ensures Trades.IsCompletedStatus(ListingCompletionStatus(listingType))
    ensures Trades.IsCompletedStatus(MapImpactStatus(t))
    ensures Score(ApplyCompletion(c, ChatCompletionStatus(selection))) - Score(c) in {2, 3}
    ensures Score(ApplyCompletion(c, ListingCompletionStatus(listingType))) - Score(c) in {2, 3}
    ensures Score(ApplyCompletion(c, MapImpactStatus(t))) - Score(c) in {2, 3}
  {
    assert Lower(SwappedStatus) == SwappedStatus;
    assert Lower(DonatedStatus) == DonatedStatus;
  }
}

=== FILE: inbox.dfy ===
/** Turning the signed-in user's chat rows into inbox conversations: one
    summary per (counterpart, listing), the newest row's text as preview,
    unread rows counted, blocked conversations dropped, and the listing title
    and image filled in from the joined listing, the message snapshot, the
    stored conversation context and the in-memory cache, in that order. */
module Inbox {
  import opened Wrappers
  import opened JavaText
  import opened Sequences
  import opened ConversationMetadata
  import opened InboxList

  /** A listing's title and image as cached by listing id. */
  datatype ListingMeta = ListingMeta(title: Option<string>, imageUrl: Option<string>)

  /** A joined `profiles` object. */
  datatype Profile = Profile(name: Option<string>, avatarUrl: Option<string>)

  /** One row of the `chats` query, newest first.  The sender and receiver ids
      are `optString` values, so a missing one is "". */
  datatype ChatRow = ChatRow(
    senderId: string, receiverId: string, listingId: Option<string>, message: string,
    isRead: bool, createdAt: string, sender: Option<Profile>, receiver: Option<Profile>,
    listing: Option<ListingMeta>, titleSnapshot: Option<string>, imageSnapshot: Option<string>)

  /** What the parse reads besides the rows: the signed-in user, the metadata
      store, whether listing metadata columns exist, and the "unknown user"
      label. */
  datatype Env = Env(me: string, store: Store, metadataSupported: bool, unknownUser: string)

  // ---------------------------------------------------------------------------
  // Per-row facts
  // ---------------------------------------------------------------------------

  predicate FromMe(e: Env, r: ChatRow) {
    e.me == r.senderId
  }

  /** The other participant: the receiver of the user's own rows, else the
      sender. */
  function Counterpart(e: Env, r: ChatRow): (cp: string)
    ensures cp == (if FromMe(e, r) then r.receiverId else r.senderId)
  {
    if FromMe(e, r) then r.receiverId else r.senderId
  }

  /** The row's listing id: its own, sanitized, or the stored context's when
      the row has none. */
  function RowListingId(e: Env, r: ChatRow): (id: Option<string>)
    ensures !IsEmptyOpt(Normalize(r.listingId)) ==> id == Normalize(r.listingId)
  {
    var l := Normalize(r.listingId);
    var stored := GetListingContext(e.store, Counterpart(e, r), l);
    if stored.Some? && IsEmptyOpt(l) && !IsEmptyOpt(stored.value.listingId) then stored.value.listingId else l
  }

  /** The conversation key `counterpart|listing`, as the store builds it. */
  function RowKey(e: Env, r: ChatRow): string {
    BuildKey(Counterpart(e, r), RowListingId(e, r))
  }

  /** Rows without a counterpart and rows of blocked conversations are skipped. */
  predicate Included(e: Env, r: ChatRow) {
    |Counterpart(e, r)| > 0 && !IsBlocked(e.store, Counterpart(e, r), RowListingId(e, r))
  }

  /** A row the counterpart sent that the user has not read. */
  predicate IsUnread(e: Env, r: ChatRow) {
    !FromMe(e, r) && !r.isRead
  }

  // ---------------------------------------------------------------------------
  // Listing title and image
  // ---------------------------------------------------------------------------

  /** `current` unless it is empty and `candidate` is not. */
  function Fill(current: Option<string>, candidate: Option<string>): Option<string> {
    if IsEmptyOpt(current) && !IsEmptyOpt(candidate) then candidate else current
  }

  /** The first non-empty value of a priority list. */
  function FirstFilled(candidates: seq<Option<string>>): (r: Option<string>)
    ensures IsEmptyOpt(r) <==> forall i :: 0 <= i < |candidates| ==> IsEmptyOpt(candidates[i])
    ensures !IsEmptyOpt(r) ==> exists i :: 0 <= i < |candidates| && r == candidates[i]
  {
    if |candidates| == 0 then None
    else if !IsEmptyOpt(candidates[0]) then candidates[0]
    else FirstFilled(candidates[1..])
  }

  /** The title and image after the four sources are consulted, and the cache
      after the row's own metadata was remembered in it. */
  datatype Resolved = Resolved(title: Option<string>, imageUrl: Option<string>,
                               cache: map<string, ListingMeta>, stored: Option<ListingContext>)

  function JoinedTitle(e: Env, r: ChatRow): Option<string> {
    if e.metadataSupported && r.listing.Some? then Normalize(r.listing.value.title) else None
  }

  function JoinedImage(e: Env, r: ChatRow): Option<string> {
    if e.metadataSupported && r.listing.Some? then Normalize(r.listing.value.imageUrl) else None
  }

  function SnapshotTitle(e: Env, r: ChatRow): Option<string> {
    if e.metadataSupported then Normalize(r.titleSnapshot) else None
  }

  function SnapshotImage(e: Env, r: ChatRow): Option<string> {
    if e.metadataSupported then Normalize(r.imageSnapshot) else None
  }

  function StoredTitle(c: Option<ListingContext>): Option<string> {
    if c.Some? then c.value.title else None
  }

  function StoredImage(c: Option<ListingContext>): Option<string> {
    if c.Some? then c.value.imageUrl else None
  }

  /** What the cache holds for `id` once the row's own metadata is in it. */
  function CachedFor(cache: map<string, ListingMeta>, id: Option<string>): Option<ListingMeta> {
    if !IsEmptyOpt(id) && id.value in cache then Some(cache[id.value]) else None
  }

  function CachedTitle(m: Option<ListingMeta>): Option<string> {
    if m.Some? then m.value.title else None
  }

  function CachedImage(m: Option<ListingMeta>): Option<string> {
    if m.Some? then m.value.imageUrl else None
  }

  /** Each source only fills a value that is still empty, so the title shown
      is the first non-empty one of joined listing, snapshot, stored context
      and cache (and likewise the image). */
  function ResolveListing(e: Env, r: ChatRow, cache: map<string, ListingMeta>): (res: Resolved)
    ensures res.stored == GetListingContext(e.store, Counterpart(e, r), Normalize(r.listingId))
    ensures forall k :: k in cache ==> k in res.cache
    ensures forall k :: k in res.cache && k != (if IsEmptyOpt(Normalize(r.listingId)) then k else Normalize(r.listingId).value)
              ==> k in cache && res.cache[k] == cache[k]
  {
    var l := Normalize(r.listingId);
    var t1 := Fill(JoinedTitle(e, r), SnapshotTitle(e, r));
    var i1 := Fill(JoinedImage(e, r), SnapshotImage(e, r));
    var cache1 := RememberRow(cache, l, t1, i1);
    var stored := GetListingContext(e.store, Counterpart(e, r), l);
    var t2 := if stored.Some? then Fill(t1, stored.value.title) else t1;
    var i2 := if stored.Some? then Fill(i1, stored.value.imageUrl) else i1;
    var cached := CachedFor(cache1, RowListingId(e, r));
    var t3 := if cached.Some? && IsEmptyOpt(t2) then cached.value.title else t2;
    var i3 := if cached.Some? && IsEmptyOpt(i2) then cached.value.imageUrl else i2;
    Resolved(t3, i3, cache1, stored)
  }

  /** The row's own title and image are cached under its listing id when
      either is present; no other entry changes. */
  function RememberRow(cache: map<string, ListingMeta>, l: Option<string>, title: Option<string>,
                       image: Option<string>): (cache': map<string, ListingMeta>)
    ensures forall k :: k in cache ==> k in cache'
    ensures forall k :: k in cache' && k != (if IsEmptyOpt(l) then k else l.value) ==> k in cache && cache'[k] == cache[k]
  {
    if !IsEmptyOpt(l) && (!IsEmptyOpt(title) || !IsEmptyOpt(image)) then cache[l.value := ListingMeta(title, image)] else cache
  }

  lemma FirstFilledCons(a: Option<string>, rest: seq<Option<string>>)
    ensures FirstFilled([a] + rest) == if !IsEmptyOpt(a) then a else FirstFilled(rest)
  {
    assert ([a] + rest)[1..] == rest;
  }

  /** The four sources in their priority order. */
  function Candidates(joined: Option<string>, snapshot: Option<string>, stored: Option<string>, cached: Option<string>): seq<Option<string>> {
    [joined, snapshot, stored, cached]
  }

  /** A value chosen by filling only what is still empty is the first
      non-empty candidate, or an empty one when every candidate is empty. */
  lemma FillChain(joined: Option<string>, snapshot: Option<string>, stored: Option<ListingContext>,
                  storedValue: Option<string>, cached: Option<ListingMeta>, cachedValue: Option<string>)
    requires stored.Some? || storedValue == None
    requires cached.Some? || cachedValue == None
    ensures var t2 := if stored.Some? then Fill(Fill(joined, snapshot), storedValue) else Fill(joined, snapshot);
            var t3 := if cached.Some? && IsEmptyOpt(t2) then cachedValue else t2;
            var first := FirstFilled(Candidates(joined, snapshot, storedValue, cachedValue));
            (IsEmptyOpt(t3) <==> IsEmptyOpt(first)) && (!IsEmptyOpt(t3) ==> t3 == first)
  {
    var c := Candidates(joined, snapshot, storedValue, cachedValue);
    assert c == [joined] + ([snapshot] + ([storedValue] + ([cachedValue] + [])));
    FirstFilledCons(joined, [snapshot, storedValue, cachedValue]);
    FirstFilledCons(snapshot, [storedValue, cachedValue]);
    FirstFilledCons(storedValue, [cachedValue]);
    FirstFilledCons(cachedValue, []);
  }

  /** The title shown is the first non-empty one of joined listing, message
      snapshot, stored conversation context and cache, and likewise the
      image; each source only fills a value that is still empty. */
  lemma ResolvePriority(e: Env, r: ChatRow, cache: map<string, ListingMeta>)
    ensures var res := ResolveListing(e, r, cache);
            var cached := CachedFor(res.cache, RowListingId(e, r));
            var title := FirstFilled(Candidates(JoinedTitle(e, r), SnapshotTitle(e, r), StoredTitle(res.stored), CachedTitle(cached)));
            var image := FirstFilled(Candidates(JoinedImage(e, r), SnapshotImage(e, r), StoredImage(res.stored), CachedImage(cached)));
            && (IsEmptyOpt(res.title) <==> IsEmptyOpt(title)) && (!IsEmptyOpt(res.title) ==> res.title == title)
            && (IsEmptyOpt(res.imageUrl) <==> IsEmptyOpt(image)) && (!IsEmptyOpt(res.imageUrl) ==> res.imageUrl == image)
  {
    var res := ResolveListing(e, r, cache);
    var cached := CachedFor(res.cache, RowListingId(e, r));
    FillChain(JoinedTitle(e, r), SnapshotTitle(e, r), res.stored, StoredTitle(res.stored), cached, CachedTitle(cached));
    FillChain(JoinedImage(e, r), SnapshotImage(e, r), res.stored, StoredImage(res.stored), cached, CachedImage(cached));
  }

  // ---------------------------------------------------------------------------
  // Grouping
  // ---------------------------------------------------------------------------

  /** The summaries by key, the keys in first-appearance order (the
      `LinkedHashMap`), the listing cache and the listing ids to look up. */
  datatype ParseState = ParseState(order: seq<string>, conversations: map<string, Message>,
                                   cache: map<string, ListingMeta>, pendingLookups: set<string>)

  ghost predicate WellFormed(s: ParseState) {
    (forall k :: k in s.conversations <==> k in s.order) &&
    (forall i, j :: 0 <= i < j < |s.order| ==> s.order[i] != s.order[j])
  }

  function CounterpartProfile(e: Env, r: ChatRow): Option<Profile> {
    if FromMe(e, r) then r.receiver else r.sender
  }

  /** A new summary for the first (newest) row of a conversation. */
  function NewSummary(e: Env, r: ChatRow, res: Resolved): (m: Message)
    ensures m.lastMessage == Some(r.message) && m.timestamp == r.createdAt
    ensures m.unreadCount == (if IsUnread(e, r) then 1 else 0)
    ensures m.userId == Some(Counterpart(e, r)) && m.listingId == RowListingId(e, r)
  {
    var p := CounterpartProfile(e, r);
    var name := if p.Some? && p.value.name.Some? then p.value.name.value else e.unknownUser;
    var avatar := if p.Some? then p.value.avatarUrl else None;
    NewMessage(Some(name), Some(r.message), r.createdAt, if IsUnread(e, r) then 1 else 0, false,
               res.title, Some(Counterpart(e, r)), RowListingId(e, r), res.title, res.imageUrl, avatar)
  }

  /** The summary after the row's later updates: the stored context's id and
      metadata, the row's avatar, and the resolved metadata when the summary
      still has no item name. */
  function Refresh(e: Env, r: ChatRow, res: Resolved, m: Message): (m': Message)
    ensures m'.lastMessage == m.lastMessage && m'.timestamp == m.timestamp
    ensures m'.unreadCount == m.unreadCount && m'.userName == m.userName && m'.userId == m.userId
  {
    var m1 := if res.stored.Some?
              then SetListingMetadata(SetListingId(m, res.stored.value.listingId), res.stored.value.title, res.stored.value.imageUrl)
              else m;
    var p := CounterpartProfile(e, r);
    var avatar := if p.Some? then p.value.avatarUrl else None;
    var m2 := if !IsEmptyOpt(avatar) then SetAvatarUrl(m1, avatar) else m1;
    if !IsEmptyOpt(RowListingId(e, r)) && IsEmptyOpt(m2.itemName) then SetListingMetadata(m2, res.title, res.imageUrl) else m2
  }

  /** One pass of the loop body. */
  function Step(e: Env, s: ParseState, r: ChatRow): (s': ParseState)
    requires WellFormed(s)
    ensures WellFormed(s')
    ensures !Included(e, r) ==> s'.order == s.order && s'.conversations == s.conversations
    ensures Included(e, r) ==> s'.order == (if RowKey(e, r) in s.conversations then s.order else s.order + [RowKey(e, r)])
  {
    if |Counterpart(e, r)| == 0 then s
    else
      var res := ResolveListing(e, r, s.cache);
      if IsBlocked(e.store, Counterpart(e, r), RowListingId(e, r)) then s.(cache := res.cache)
      else
        var key := RowKey(e, r);
        var summary :=
          if key !in s.conversations then NewSummary(e, r, res)
          else if IsUnread(e, r) then IncrementUnreadCount(s.conversations[key])
          else s.conversations[key];
        var summary' := Refresh(e, r, res, summary);
        var lid := RowListingId(e, r);
        var pending := if !IsEmptyOpt(lid) && IsEmptyOpt(summary'.listingTitle) && lid.value !in res.cache
                       then s.pendingLookups + {lid.value} else s.pendingLookups;
        Upsert(s, key, summary', res.cache, pending)
  }

  /** What one row does to the summary under key `k`: a kept row with that
      key creates it from the row or bumps its unread count, and every other
      row leaves it alone. */
  lemma StepAt(e: Env, s: ParseState, r: ChatRow, k: string)
    requires WellFormed(s)
    ensures var s' := Step(e, s, r);
            && (k in s'.conversations <==> k in s.conversations || (Included(e, r) && RowKey(e, r) == k))
            && (k in s.conversations && (!Included(e, r) || k != RowKey(e, r)) ==>
                  s'.conversations[k] == s.conversations[k])
    ensures Included(e, r) && RowKey(e, r) == k ==>
              var s' := Step(e, s, r);
              var bump := if IsUnread(e, r) then 1 else 0;
              && (k in s.conversations ==>
                    && s'.conversations[k].unreadCount == s.conversations[k].unreadCount + bump
                    && s'.conversations[k].lastMessage == s.conversations[k].lastMessage
                    && s'.conversations[k].timestamp == s.conversations[k].timestamp
                    && s'.conversations[k].userId == s.conversations[k].userId)
              && (k !in s.conversations ==>
                    && s'.conversations[k].unreadCount == bump
                    && s'.conversations[k].lastMessage == Some(r.message)
                    && s'.conversations[k].timestamp == r.createdAt
                    && s'.conversations[k].userId == Some(Counterpart(e, r)))
  {
  }

  /** The state with `key`'s summary set to `m`, the key appended to the
      order the first time it is seen. */
  function Upsert(s: ParseState, key: string, m: Message, cache: map<string, ListingMeta>, pending: set<string>): (s': ParseState)
    requires WellFormed(s)
    ensures WellFormed(s')
    ensures s'.order == (if key in s.conversations then s.order else s.order + [key])
    ensures s'.conversations == s.conversations[key := m]
  {
    var order := if key in s.conversations then s.order else s.order + [key];
    ParseState(order, s.conversations[key := m], cache, pending)
  }

  /** The loop over the rows, as a fold from the front. */
  function ParseRows(e: Env, s0: ParseState, rows: seq<ChatRow>): (s: ParseState)
    requires WellFormed(s0)
    ensures WellFormed(s)
    decreases |rows|
  {
    if |rows| == 0 then s0
    else Step(e, ParseRows(e, s0, rows[..|rows| - 1]), rows[|rows| - 1])
  }

  /** `parseConversations`: the summaries in first-appearance order. */
  function ParseConversations(e: Env, cache: map<string, ListingMeta>, rows: seq<ChatRow>): (shown: seq<Message>)
  {
    var s := ParseRows(e, Start(cache), rows);
    seq(|s.order|, i requires 0 <= i < |s.order| => s.conversations[s.order[i]])
  }

  // ---------------------------------------------------------------------------
  // What the grouping promises
  // ---------------------------------------------------------------------------

  /** The keys of the rows that are kept, in row order. */
  function KeysOf(e: Env, rows: seq<ChatRow>): (keys: seq<string>)
    decreases |rows|
  {
    if |rows| == 0 then []
    else KeysOf(e, rows[..|rows| - 1]) + (if Included(e, rows[|rows| - 1]) then [RowKey(e, rows[|rows| - 1])] else [])
  }

  /** The number of kept rows with key `k` that the user has not read. */
  function UnreadIn(e: Env, rows: seq<ChatRow>, k: string): nat
    decreases |rows|
  {
    if |rows| == 0 then 0
    else
      var r := rows[|rows| - 1];
      UnreadIn(e, rows[..|rows| - 1], k) + (if Included(e, r) && RowKey(e, r) == k && IsUnread(e, r) then 1 else 0)
  }

  /** The first (newest) kept row with key `k`. */
  function FirstRow(e: Env, rows: seq<ChatRow>, k: string): (r: Option<ChatRow>)
    decreases |rows|
  {
    if |rows| == 0 then None
    else
      var earlier := FirstRow(e, rows[..|rows| - 1], k);
      var r := rows[|rows| - 1];
      if earlier.Some? then earlier
      else if Included(e, r) && RowKey(e, r) == k then Some(r)
      else None
  }

  lemma {:induction false} UnreadInAbsent(e: Env, rows: seq<ChatRow>, k: string)
    requires k !in KeysOf(e, rows)
    ensures UnreadIn(e, rows, k) == 0 && FirstRow(e, rows, k).None?
    decreases |rows|
  {
    if |rows| > 0 {
      UnreadInAbsent(e, rows[..|rows| - 1], k);
    }
  }

  /** The initial parse state: no conversations yet, the cache as given. */
  function Start(cache: map<string, ListingMeta>): ParseState {
    ParseState([], map[], cache, {})
  }

  /** One summary per conversation key, in the order the keys first appear. */
  lemma {:induction false} GroupingOrder(e: Env, cache: map<string, ListingMeta>, rows: seq<ChatRow>)
    ensures ParseRows(e, Start(cache), rows).order == Dedup(KeysOf(e, rows))
    decreases |rows|
  {
    if |rows| > 0 {
      var init := rows[..|rows| - 1];
      var r := rows[|rows| - 1];
      GroupingOrder(e, cache, init);
      var s := ParseRows(e, Start(cache), init);
      var keys := KeysOf(e, init);
      assert ParseRows(e, Start(cache), rows) == Step(e, s, r);
      assert KeysOf(e, rows) == keys + (if Included(e, r) then [RowKey(e, r)] else []);
      if Included(e, r) {
        var key := RowKey(e, r);
        DedupMembership(keys, key);
        assert key in s.conversations <==> key in keys;
        DedupAppend(keys, key);
      } else {
        assert keys + [] == keys;
      }
    }
  }

  /** Each summary counts exactly the unread rows of its conversation and
      previews that conversation's newest row. */
  lemma {:induction false} GroupingSummaries(e: Env, cache: map<string, ListingMeta>, rows: seq<ChatRow>, k: string)
    ensures var s := ParseRows(e, Start(cache), rows);
            (k in s.conversations <==> k in KeysOf(e, rows)) &&
            (k in s.conversations ==>
               && FirstRow(e, rows, k).Some?
               && s.conversations[k].unreadCount == UnreadIn(e, rows, k)
               && s.conversations[k].lastMessage == Some(FirstRow(e, rows, k).value.message)
               && s.conversations[k].timestamp == FirstRow(e, rows, k).value.createdAt
               && s.conversations[k].userId == Some(Counterpart(e, FirstRow(e, rows, k).value)))
    decreases |rows|
  {
    if |rows| > 0 {
      var init := rows[..|rows| - 1];
      var r := rows[|rows| - 1];
      GroupingSummaries(e, cache, init, k);
      var s := ParseRows(e, Start(cache), init);
      assert ParseRows(e, Start(cache), rows) == Step(e, s, r);
      assert KeysOf(e, rows) == KeysOf(e, init) + (if Included(e, r) then [RowKey(e, r)] else []);
      if k !in KeysOf(e, init) {
        UnreadInAbsent(e, init, k);
      }
      StepAt(e, s, r, k);
      if !Included(e, r) || RowKey(e, r) != k {
        assert k in KeysOf(e, rows) <==> k in KeysOf(e, init);
      } else {
        assert k in KeysOf(e, rows);
      }
    }
  }

  lemma DedupMembership<T>(s: seq<T>, x: T)
    ensures x in Dedup(s) <==> x in s
  {
    if x in Dedup(s) {
      var i :| 0 <= i < |Dedup(s)| && Dedup(s)[i] == x;
    }
    if x in s {
      var i :| 0 <= i < |s| && s[i] == x;
    }
  }

  lemma DedupAppend<T>(s: seq<T>, x: T)
    ensures Dedup(s + [x]) == if x in s then Dedup(s) else Dedup(s) + [x]
  {
    assert (s + [x])[..|s + [x]| - 1] == s;
    DedupMembership(s, x);
  }

  /** No conversation of the output is blocked, and every one has a
      counterpart. */
  lemma {:induction false} NoBlockedConversation(e: Env, rows: seq<ChatRow>, k: string)
    requires k in KeysOf(e, rows)
    ensures exists i :: 0 <= i < |rows| && Included(e, rows[i]) && RowKey(e, rows[i]) == k
    ensures k !in e.store.blocked
    decreases |rows|
  {
    var r := rows[|rows| - 1];
    if k in KeysOf(e, rows[..|rows| - 1]) {
      NoBlockedConversation(e, rows[..|rows| - 1], k);
      var i :| 0 <= i < |rows| - 1 && Included(e, rows[..|rows| - 1][i]) && RowKey(e, rows[..|rows| - 1][i]) == k;
      assert rows[..|rows| - 1][i] == rows[i];
    } else {
      assert Included(e, r) && RowKey(e, r) == k;
    }
  }

  /** The list handed to the adapter: one summary per conversation key in
      first-appearance order, none of them blocked, each counting its unread
      rows and previewing its newest row. */
  lemma ParsedList(e: Env, cache: map<string, ListingMeta>, rows: seq<ChatRow>)
    ensures var shown := ParseConversations(e, cache, rows);
            var keys := Dedup(KeysOf(e, rows));
            && |shown| == |keys|
            && forall i :: 0 <= i < |shown| ==>
                 && keys[i] !in e.store.blocked
                 && FirstRow(e, rows, keys[i]).Some?
                 && shown[i].unreadCount == UnreadIn(e, rows, keys[i])
                 && shown[i].lastMessage == Some(FirstRow(e, rows, keys[i]).value.message)
                 && shown[i].timestamp == FirstRow(e, rows, keys[i]).value.createdAt
  {
    var s := ParseRows(e, Start(cache), rows);
    var keys := Dedup(KeysOf(e, rows));
    GroupingOrder(e, cache, rows);
    forall i | 0 <= i < |keys|
      ensures keys[i] !in e.store.blocked
      ensures FirstRow(e, rows, keys[i]).Some?
      ensures s.conversations[keys[i]].unreadCount == UnreadIn(e, rows, keys[i])
      ensures s.conversations[keys[i]].lastMessage == Some(FirstRow(e, rows, keys[i]).value.message)
      ensures s.conversations[keys[i]].timestamp == FirstRow(e, rows, keys[i]).value.createdAt
    {
      DedupMembership(KeysOf(e, rows), keys[i]);
      NoBlockedConversation(e, rows, keys[i]);
      GroupingSummaries(e, cache, rows, keys[i]);
    }
  }

  // ---------------------------------------------------------------------------
  // Remembering the listing contexts
  // ---------------------------------------------------------------------------

  /** A summary worth remembering: it has a counterpart and some listing id,
      title or image. */
  predicate WorthSaving(m: Message) {
    !IsEmptyOpt(m.userId) &&
    !(IsEmptyOpt(m.listingId) && IsEmptyOpt(m.listingTitle) && IsEmptyOpt(m.listingImageUrl))
  }

  /** After the list is shown, every summary's listing context is saved, in
      list order. */
  function PersistContexts(st: Store, messages: seq<Message>): (r: Store)
    ensures r.archived == st.archived && r.blocked == st.blocked
    ensures (forall i :: 0 <= i < |messages| ==> !WorthSaving(messages[i])) ==> r == st
    decreases |messages|
  {
    if |messages| == 0 then st
    else
      var before := PersistContexts(st, messages[..|messages| - 1]);
      var m := messages[|messages| - 1];
      if !WorthSaving(m) then before
      else SaveListingContext(before, m.userId.value, Normalize(m.listingId), Normalize(m.listingTitle), Normalize(m.listingImageUrl))
  }

  /** The last summary saved is read back from the store as saved. */
  lemma PersistLastReadable(st: Store, messages: seq<Message>)
    requires |messages| > 0 && WorthSaving(messages[|messages| - 1])
    requires var m := messages[|messages| - 1];
             Normalize(m.listingId).Some? || Normalize(m.listingTitle).Some? || Normalize(m.listingImageUrl).Some?
    ensures var m := messages[|messages| - 1];
            GetListingContext(PersistContexts(st, messages), m.userId.value, Normalize(m.listingId))
            == Some(ListingContext(Normalize(m.listingId), Normalize(m.listingTitle), Normalize(m.listingImageUrl)))
  {
    var m := messages[|messages| - 1];
    var before := PersistContexts(st, messages[..|messages| - 1]);
    NormalizeIdempotent(m.listingId);
    NormalizeIdempotent(m.listingTitle);
    NormalizeIdempotent(m.listingImageUrl);
    SaveThenGet(before, m.userId.value, Normalize(m.listingId), Normalize(m.listingTitle), Normalize(m.listingImageUrl));
  }
}

=== FILE: inbox_list.dfy ===
/** The inbox list: one conversation summary per row, its mutators, and the
    tab and search filters that pick the rows on screen. */
module InboxList {
  import opened Wrappers
  import opened JavaText
  import opened Sequences

  /** A conversation summary.  `unreadCount` is a Java `int` that only ever
      counts rows, so it stays small; it is kept unbounded here. */
  datatype Message = Message(
    userName: Option<string>, lastMessage: Option<string>, timestamp: string,
    unreadCount: int, isOnline: bool, itemName: Option<string>,
    userId: Option<string>, listingId: Option<string>, listingTitle: Option<string>,
    listingImageUrl: Option<string>, avatarUrl: Option<string>)

  /** The full constructor; a missing item name falls back to the listing title. */
  function NewMessage(userName: Option<string>, lastMessage: Option<string>, timestamp: string,
                      unreadCount: int, isOnline: bool, itemName: Option<string>,
                      userId: Option<string>, listingId: Option<string>, listingTitle: Option<string>,
                      listingImageUrl: Option<string>, avatarUrl: Option<string>): (m: Message)
    ensures m.itemName == (if itemName.Some? then itemName else listingTitle)
    ensures m.(itemName := itemName) ==
            Message(userName, lastMessage, timestamp, unreadCount, isOnline, itemName,
                    userId, listingId, listingTitle, listingImageUrl, avatarUrl)
  {
    Message(userName, lastMessage, timestamp, unreadCount, isOnline,
            if itemName.Some? then itemName else listingTitle,
            userId, listingId, listingTitle, listingImageUrl, avatarUrl)
  }

  /** Takes a listing title and image, each only when it is non-empty; the
      title also becomes the item name. */
  function SetListingMetadata(m: Message, title: Option<string>, imageUrl: Option<string>): (m': Message)
    ensures !IsEmptyOpt(title) ==> m'.listingTitle == title && m'.itemName == title
    ensures IsEmptyOpt(title) ==> m'.listingTitle == m.listingTitle && m'.itemName == m.itemName
    ensures m'.listingImageUrl == (if IsEmptyOpt(imageUrl) then m.listingImageUrl else imageUrl)
    ensures m'.(listingTitle := m.listingTitle, itemName := m.itemName, listingImageUrl := m.listingImageUrl) == m
  {
    var m1 := if IsEmptyOpt(title) then m else m.(listingTitle := title, itemName := title);
    if IsEmptyOpt(imageUrl) then m1 else m1.(listingImageUrl := imageUrl)
  }

  function SetAvatarUrl(m: Message, url: Option<string>): (m': Message)
    ensures m'.avatarUrl == url && m'.(avatarUrl := m.avatarUrl) == m
  {
    m.(avatarUrl := url)
  }

  /** Takes a listing id only when it is non-empty. */
  function SetListingId(m: Message, id: Option<string>): (m': Message)
    ensures m'.listingId == (if IsEmptyOpt(id) then m.listingId else id)
    ensures m'.(listingId := m.listingId) == m
  {
    if IsEmptyOpt(id) then m else m.(listingId := id)
  }

  function IncrementUnreadCount(m: Message): (m': Message)
    ensures m'.unreadCount == m.unreadCount + 1
    ensures m'.(unreadCount := m.unreadCount) == m
  {
    m.(unreadCount := m.unreadCount + 1)
  }

  /** `s` is present and contains `q`, both lower-cased. */
  predicate FieldMatches(s: Option<string>, lowerQuery: string) {
    s.Some? && Contains(Lower(s.value), lowerQuery)
  }

  /** Search over the user name, the last message and the item name, ignoring
      case; an empty query matches everything. */
  predicate MatchesQuery(m: Message, query: Option<string>) {
    IsEmptyOpt(query) ||
    var q := Lower(query.value);
    FieldMatches(m.userName, q) || FieldMatches(m.lastMessage, q) || FieldMatches(m.itemName, q)
  }

  /** Search ignores the query's case, and every summary is found by its own
      user name, in any case. */
  lemma MatchesQueryIgnoresCase(m: Message, query: string)
    ensures MatchesQuery(m, Some(query)) <==> MatchesQuery(m, Some(Lower(query)))
    ensures m.userName.Some? ==> MatchesQuery(m, Some(m.userName.value)) && MatchesQuery(m, Some(Upper(m.userName.value)))
  {
    LowerIdempotent(query);
    if m.userName.Some? {
      var n := m.userName.value;
      ContainsSelf(Lower(n));
      assert Lower(Upper(n)) == Lower(n);
    }
  }

  // ---------------------------------------------------------------------------
  // Tabs and search
  // ---------------------------------------------------------------------------

  /** Tab 0 is "All", tab 1 "Unread", tab 2 the archive, which lists nothing. */
  const UnreadTab := 1
  const ArchivedTab := 2

  predicate HasUnread(m: Message) {
    m.unreadCount > 0
  }

  /** The rows of the selected tab, before search. */
  function TabBase(messages: seq<Message>, tab: int): (base: seq<Message>)
    ensures tab == ArchivedTab ==> base == []
    ensures tab != UnreadTab && tab != ArchivedTab ==> base == messages
  {
    if tab == UnreadTab then Filter(messages, HasUnread)
    else if tab == ArchivedTab then []
    else messages
  }

  /** The adapter's state: all rows, the current tab and (lower-cased) query,
      and the rows on screen. */
  datatype Inbox = Inbox(messages: seq<Message>, tab: int, query: string, filtered: seq<Message>)

  function Matches(query: string): Message -> bool {
    m => MatchesQuery(m, Some(query))
  }

  /** The rows on screen: the tab's rows, then narrowed by the search. */
  function RebuildFiltered(messages: seq<Message>, tab: int, query: string): (shown: seq<Message>)
    ensures |query| == 0 ==> shown == TabBase(messages, tab)
    ensures |shown| <= |messages|
  {
    var base := TabBase(messages, tab);
    if |query| == 0 then base else Filter(base, Matches(query))
  }

  /** A row is on screen exactly when its tab keeps it and it matches the
      search, and the screen shows such rows in the list's order. */
  lemma {:induction false} RebuildFilteredSpec(messages: seq<Message>, tab: int, query: string, m: Message)
    ensures IsSubsequence(RebuildFiltered(messages, tab, query), messages)
    ensures m in RebuildFiltered(messages, tab, query) <==>
              m in messages && tab != ArchivedTab && (tab == UnreadTab ==> HasUnread(m)) && MatchesQuery(m, Some(query))
  {
    var base := TabBase(messages, tab);
    FilterIsSubsequence(messages, HasUnread);
    FilterMembership(messages, HasUnread, m);
    if tab == ArchivedTab {
      assert IsSubsequence(base, messages);
    } else if tab != UnreadTab {
      SubsequenceRefl(messages);
    }
    FilterIsSubsequence(base, Matches(query));
    FilterMembership(base, Matches(query), m);
    if |query| > 0 {
      SubsequenceTransitive(Filter(base, Matches(query)), base, messages);
    }
  }

  /** `filter(query)`: remembers the lower-cased query and refreshes. */
  function SetQuery(inbox: Inbox, query: Option<string>): (r: Inbox)
    ensures r.query == (if query.Some? then Lower(query.value) else "")
    ensures r.messages == inbox.messages && r.tab == inbox.tab
    ensures r.filtered == RebuildFiltered(r.messages, r.tab, r.query)
  {
    var q := if query.Some? then Lower(query.value) else "";
    inbox.(query := q, filtered := RebuildFiltered(inbox.messages, inbox.tab, q))
  }

  /** `filterByTab(position)`. */
  function SetTab(inbox: Inbox, tab: int): (r: Inbox)
    ensures r.tab == tab && r.messages == inbox.messages && r.query == inbox.query
    ensures r.filtered == RebuildFiltered(r.messages, r.tab, r.query)
  {
    inbox.(tab := tab, filtered := RebuildFiltered(inbox.messages, tab, inbox.query))
  }

  /** `setMessages(list)`: replaces all rows, keeping tab and query. */
  function SetInboxMessages(inbox: Inbox, messages: seq<Message>): (r: Inbox)
    ensures r.messages == messages && r.tab == inbox.tab && r.query == inbox.query
    ensures r.filtered == RebuildFiltered(r.messages, r.tab, r.query)
  {
    inbox.(messages := messages, filtered := RebuildFiltered(messages, inbox.tab, inbox.query))
  }

  /** Searching for the same text in another case shows the same rows. */
  lemma SearchIgnoresCase(inbox: Inbox, query: string)
    ensures SetQuery(inbox, Some(query)).filtered == SetQuery(inbox, Some(Upper(query))).filtered
  {
    assert Lower(Upper(query)) == Lower(query);
  }
}

=== FILE: initials.dfy ===
/** The avatar initials the app draws when a user has no photo.  Three
    variants exist: the profile screens split the trimmed name on runs of white
    space; the chat bubbles and the bid screen do the same but fall back to the
    untrimmed text for a single word; the listing preview and the inbox split
    on single spaces. */
module Initials {
  import opened Wrappers
  import opened JavaText
  import opened Sequences

  function Min(a: int, b: int): int { if a <= b then a else b }

  /** No ASCII lower-case letter remains. */
  predicate AllUpper(s: string) {
    forall i :: 0 <= i < |s| ==> !IsAsciiLower(s[i])
  }

  /** The first char of each of the first two words, upper-cased. */
  function TwoInitials(a: string, b: string): (r: string)
    requires |a| > 0 && |b| > 0
    ensures |r| == 2 && r[0] == UpperChar(a[0]) && r[1] == UpperChar(b[0])
  {
    Upper([a[0], b[0]])
  }

  // ---------------------------------------------------------------------------
  // Profile screens: words of the trimmed name
  // ---------------------------------------------------------------------------

  /** "?" for a blank name; the initials of the first two words; otherwise the
      first two chars of the single word, or its only char. */
  function ProfileInitials(name: Option<string>): (r: string)
    ensures name.None? || IsBlank(name.value) ==> r == "?"
    ensures name.Some? && !IsBlank(name.value) ==>
              1 <= |r| <= 2 && AllUpper(r) && r[0] == UpperChar(Trim(name.value)[0])
  {
    if name.None? then "?" else TrimmedInitials(Trim(name.value))
  }

  /** The initials of an already trimmed name. */
  function TrimmedInitials(t: string): (r: string)
    requires |t| > 0 ==> !IsTrimmable(t[0])
    ensures |t| == 0 ==> r == "?"
    ensures |t| > 0 ==> 1 <= |r| <= 2 && AllUpper(r) && r[0] == UpperChar(t[0])
  {
    if |t| == 0 then "?"
    else
      RegexSpaceIsTrimmable(t[0]);
      var parts := Words(t);
      if |parts| >= 2 then TwoInitials(parts[0], parts[1])
      else if |parts[0]| >= 2 then Upper(parts[0][..2])
      else Upper(parts[0][..1])
  }

  /** Only the trimmed name matters. */
  lemma ProfileInitialsIgnoreSurroundingSpace(name: string)
    ensures ProfileInitials(Some(name)) == ProfileInitials(Some(Trim(name)))
  {
    TrimIdempotent(name);
  }

  /** A word is a non-empty run of chars that neither trimming nor the
      white-space split touches. */
  predicate IsSolidWord(w: string) {
    |w| > 0 && forall i :: 0 <= i < |w| ==> !IsTrimmable(w[i])
  }

  /** Two words, however padded with a leading space, give their first
      letters upper-cased. */
  lemma ProfileInitialsTwoWords(a: string, b: string)
    requires IsSolidWord(a) && IsSolidWord(b)
    ensures ProfileInitials(Some(" " + a + " " + b)) == [UpperChar(a[0]), UpperChar(b[0])]
  {
    var name := " " + a + " " + b;
    TwoWordsTrim(a, b);
    TwoWordsSplit(a, b);
    ProfileInitialsOfWords(name);
  }

  lemma TwoWordsSplit(a: string, b: string)
    requires IsSolidWord(a) && IsSolidWord(b)
    ensures Words(a + " " + b) == [a, b]
  {
    assert forall i :: 0 <= i < |a| ==> !IsRegexSpace(a[i]);
    assert forall i :: 0 <= i < |b| ==> !IsRegexSpace(b[i]);
    WordsOfWord(b);
    WordsAfterWord(a, b);
  }

  /** With two words or more, only the first two matter. */
  lemma ProfileInitialsOfWords(name: string)
    requires !IsBlank(name) && |Words(Trim(name))| >= 2
    ensures ProfileInitials(Some(name)) == TwoInitials(Words(Trim(name))[0], Words(Trim(name))[1])
  {
    assert ProfileInitials(Some(name)) == TrimmedInitials(Trim(name));
  }

  lemma TwoWordsTrim(a: string, b: string)
    requires IsSolidWord(a) && IsSolidWord(b)
    ensures Trim(" " + a + " " + b) == a + " " + b
    ensures !IsBlank(" " + a + " " + b)
  {
    var t := a + " " + b;
    assert (" " + a + " " + b)[1..] == t;
    assert t[0] == a[0];
    assert TrimStart(" " + a + " " + b) == t;
    assert t[|t| - 1] == b[|b| - 1];
    TrimOfTrimmed(t);
  }

  /** One word, however padded, gives its first two letters, or its only
      letter, upper-cased. */
  lemma ProfileInitialsOneWord(lead: string, w: string, pad: string)
    requires IsSolidWord(w)
    requires forall i :: 0 <= i < |lead| ==> IsTrimmable(lead[i])
    requires forall i :: 0 <= i < |pad| ==> IsTrimmable(pad[i])
    ensures ProfileInitials(Some(lead + w + pad)) == Upper(w[..Min(2, |w|)])
  {
    TrimPadded(lead, w, pad);
    assert ProfileInitials(Some(lead + w + pad)) == TrimmedInitials(w);
    assert forall i :: 0 <= i < |w| ==> !IsRegexSpace(w[i]);
    WordsOfWord(w);
  }

  /** Trimming strips exactly the white space around a solid word. */
  lemma TrimPadded(lead: string, w: string, pad: string)
    requires IsSolidWord(w)
    requires forall i :: 0 <= i < |lead| ==> IsTrimmable(lead[i])
    requires forall i :: 0 <= i < |pad| ==> IsTrimmable(pad[i])
    ensures Trim(lead + w + pad) == w
  {
    var s := lead + w + pad;
    assert s[|lead|] == w[0];
    var t := TrimStart(s);
    assert t == w + pad;
    assert t[|w| - 1] == w[|w| - 1];
  }

  // ---------------------------------------------------------------------------
  // Chat bubbles and the bid screen
  // ---------------------------------------------------------------------------

  /** The chat bubble's initials: the display name, or the sender id when the
      name is empty; two words give their first letters, anything else the
      first two chars of the text as given. */
  function ExtractInitials(name: Option<string>, fallback: Option<string>): (r: string)
    ensures IsEmptyOpt(name) && IsEmptyOpt(fallback) ==> r == "?"
    ensures !(IsEmptyOpt(name) && IsEmptyOpt(fallback)) ==> 1 <= |r| <= 2 && AllUpper(r)
    // the words are taken from the trimmed text, the lone-word fallback from
    // the text as given
    ensures !(IsEmptyOpt(name) && IsEmptyOpt(fallback)) ==>
              var s := if !IsEmptyOpt(name) then name.value else fallback.value;
              var words := Words(Trim(s));
              && (|words| >= 2 ==> r == [UpperChar(words[0][0]), UpperChar(words[1][0])])
              && (|words| < 2 ==> r == Upper(s[..Min(2, |s|)]))
  {
    var source := if !IsEmptyOpt(name) then name else fallback;
    if IsEmptyOpt(source) then "?"
    else
      TextInitialsValue(source.value);
      TextInitials(source.value)
  }

  /** The chat rule on a non-empty text: the first letters of the first two
      words of the trimmed text, else the first two chars of the text as
      given, upper-cased. */
  function TextInitials(s: string): (r: string)
    requires |s| > 0
    ensures 1 <= |r| <= 2 && AllUpper(r)
  {
    var parts := SplitTrimmedOnWhitespace(s);
    SplitAtLeastTwo(s);
    if |parts| >= 2 then TwoInitials(parts[0], parts[1])
    else Upper(s[..Min(2, |s|)])
  }

  /** For every text, two words of the trimmed text give their first
      letters, and fewer give the first two chars of the text as given. */
  lemma TextInitialsValue(s: string)
    requires |s| > 0
    ensures var words := Words(Trim(s));
            && (|words| >= 2 ==> TextInitials(s) == [UpperChar(words[0][0]), UpperChar(words[1][0])])
            && (|words| < 2 ==> TextInitials(s) == Upper(s[..Min(2, |s|)]))
  {
    if |Words(Trim(s))| >= 2 {
      TextInitialsOfWords(s);
    } else {
      TextInitialsOfText(s);
    }
  }

  lemma TextInitialsOfWords(s: string)
    requires |s| > 0 && |Words(Trim(s))| >= 2
    ensures TextInitials(s) == TwoInitials(Words(Trim(s))[0], Words(Trim(s))[1])
  {
    SplitAtLeastTwo(s);
  }

  lemma TextInitialsOfText(s: string)
    requires |s| > 0 && |Words(Trim(s))| < 2
    ensures TextInitials(s) == Upper(s[..Min(2, |s|)])
  {
    SplitAtLeastTwo(s);
  }

  /** The trimmed split has two parts or more exactly when the trimmed text
      has two words or more, and then the parts are those words. */
  lemma SplitAtLeastTwo(s: string)
    ensures |SplitTrimmedOnWhitespace(s)| >= 2 <==> |Words(Trim(s))| >= 2
    ensures |Words(Trim(s))| >= 2 ==> SplitTrimmedOnWhitespace(s) == Words(Trim(s))
  {
  }

  /** A single word keeps the white space in front of it, unlike on the
      profile screens. */
  lemma ExtractKeepsLeadingSpace(w: string)
    requires IsSolidWord(w)
    ensures ExtractInitials(Some(" " + w), None) == [' ', UpperChar(w[0])]
    ensures ProfileInitials(Some(" " + w)) == Upper(w[..Min(2, |w|)])
  {
    OneWordPadded(w);
    assert (" " + w)[..2] == [' ', w[0]];
    assert ProfileInitials(Some(" " + w)) == TrimmedInitials(w);
  }

  lemma OneWordPadded(w: string)
    requires IsSolidWord(w)
    ensures Trim(" " + w) == w
    ensures Words(w) == [w]
    ensures SplitTrimmedOnWhitespace(" " + w) == [w]
  {
    assert (" " + w)[1..] == w;
    assert TrimStart(" " + w) == w;
    TrimOfTrimmed(w);
    assert forall i :: 0 <= i < |w| ==> !IsRegexSpace(w[i]);
    WordsOfWord(w);
  }

  /** A non-empty display name decides alone; the fallback is not consulted. */
  lemma NameOverridesFallback(name: Option<string>, f: Option<string>, g: Option<string>)
    requires !IsEmptyOpt(name)
    ensures ExtractInitials(name, f) == ExtractInitials(name, g)
  {
  }

  /** The bid screen's initials are the chat rule with no fallback. */
  function BidInitials(name: Option<string>): (r: string)
    ensures IsEmptyOpt(name) ==> r == "?"
    ensures !IsEmptyOpt(name) ==> 1 <= |r| <= 2 && AllUpper(r)
    ensures !IsEmptyOpt(name) && |Words(Trim(name.value))| >= 2 ==>
              r == [UpperChar(Words(Trim(name.value))[0][0]), UpperChar(Words(Trim(name.value))[1][0])]
    ensures !IsEmptyOpt(name) && |Words(Trim(name.value))| < 2 ==>
              r == Upper(name.value[..Min(2, |name.value|)])
  {
    ExtractInitials(name, None)
  }

  /** On a name that is already trimmed and not blank, the chat rule and the
      profile rule agree. */
  lemma ExtractAgreesWithProfile(name: string)
    requires |name| > 0 && !IsTrimmable(name[0]) && !IsTrimmable(name[|name| - 1])
    ensures ExtractInitials(Some(name), None) == ProfileInitials(Some(name))
  {
    TrimOfTrimmed(name);
    RegexSpaceIsTrimmable(name[0]);
    var parts := Words(name);
    SingleWordIsWhole(name);
    if |parts| >= 2 {
      assert ProfileInitials(Some(name)) == TwoInitials(parts[0], parts[1]);
      assert ExtractInitials(Some(name), None) == TwoInitials(parts[0], parts[1]);
    } else {
      assert ProfileInitials(Some(name)) == Upper(name[..Min(2, |name|)]);
      assert ExtractInitials(Some(name), None) == Upper(name[..Min(2, |name|)]);
    }
  }

  /** A string that starts with a word and does not end in white space is
      either one word, itself, or at least two. */
  lemma {:induction false} SingleWordIsWhole(t: string)
    requires |t| > 0 && !IsRegexSpace(t[0]) && !IsTrimmable(t[|t| - 1])
    ensures |Words(t)| >= 2 || Words(t) == [t]
    decreases |t|
  {
    if |t| == 1 {
      assert Words(t) == [[t[0]]] + Words(t[1..]);
      assert t == [t[0]];
    } else {
      var rest := Words(t[1..]);
      if IsRegexSpace(t[1]) {
        LastCharStartsWord(t[1..]);
        assert Words(t) == [[t[0]]] + rest;
      } else {
        SingleWordIsWhole(t[1..]);
        assert Words(t) == [[t[0]] + rest[0]] + rest[1..];
        assert [t[0]] + t[1..] == t;
      }
    }
  }

  /** A string whose last char is not white space has at least one word. */
  lemma {:induction false} LastCharStartsWord(s: string)
    requires |s| > 0 && !IsTrimmable(s[|s| - 1])
    ensures |Words(s)| >= 1
    decreases |s|
  {
    if IsRegexSpace(s[0]) {
      RegexSpaceIsTrimmable(s[0]);
      LastCharStartsWord(s[1..]);
    }
  }

  // ---------------------------------------------------------------------------
  // Listing preview and inbox: parts between single spaces
  // ---------------------------------------------------------------------------

  /** The listing preview's rule exactly as written: `charAt(0)` of the first
      two parts of `split(" ")`, which throws when either part is empty;
      `None` is that exception. */
  function SpaceSplitInitialsAsWritten(name: Option<string>): (r: Option<string>)
    ensures IsEmptyOpt(name) ==> r == Some("?")
  {
    if IsEmptyOpt(name) then Some("?")
    else
      var s := name.value;
      var parts := JavaSplit(s, ' ');
      if |parts| >= 2 then
        if |parts[0]| == 0 || |parts[1]| == 0 then None
        else Some(TwoInitials(parts[0], parts[1]))
      else Some(Upper(s[..Min(2, |s|)]))
  }

  /** A doubled space, or a leading space before a second word, makes the
      rule as written throw. */
  lemma SpaceSplitCrashes()
    ensures SpaceSplitInitialsAsWritten(Some("A  B")) == None
    ensures SpaceSplitInitialsAsWritten(Some(" Bob")) == None
  {
    DoubleSpaceParts();
    LeadingSpaceParts();
  }

  lemma DoubleSpaceParts()
    ensures JavaSplit("A  B", ' ') == ["A", "", "B"]
  {
    SplitAllNoSep("B", ' ');
    SplitAllAfterSep("", "B", ' ');
    SplitAllAfterSep("A", " B", ' ');
    assert "" + [' '] + "B" == " B";
    assert "A" + [' '] + " B" == "A  B";
    assert SplitAll("A  B", ' ') == ["A", "", "B"];
    assert "A  B"[1] == ' ';
  }

  lemma LeadingSpaceParts()
    ensures JavaSplit(" Bob", ' ') == ["", "Bob"]
  {
    SplitAllNoSep("Bob", ' ');
    SplitAllAfterSep("", "Bob", ' ');
    assert "" + [' '] + "Bob" == " Bob";
    assert SplitAll(" Bob", ' ') == ["", "Bob"];
    assert " Bob"[0] == ' ';
  }

  predicate IsNonEmptyPart(p: string) {
    |p| > 0
  }

  /** The non-empty parts of a split, in order. */
  function NonEmptyParts(parts: seq<string>): (r: seq<string>)
    ensures r == Filter(parts, IsNonEmptyPart)
    ensures forall k :: 0 <= k < |r| ==> |r[k]| > 0
  {
    if |parts| == 0 then []
    else
      assert parts == [parts[0]] + parts[1..];
      (if |parts[0]| > 0 then [parts[0]] else []) + NonEmptyParts(parts[1..])
  }

  /** The rule as intended: the first letters of the first two non-empty
      space-separated words; a single word after empty parts gives its first
      two chars; a name without a space inside it keeps the rule as written. */
  function SpaceSplitInitials(name: Option<string>): (r: string)
    ensures IsEmptyOpt(name) ==> r == "?"
    ensures !IsEmptyOpt(name) ==> 1 <= |r| <= 2 && AllUpper(r)
    ensures !IsEmptyOpt(name) && |NonEmptyParts(JavaSplit(name.value, ' '))| >= 2 ==>
              var words := NonEmptyParts(JavaSplit(name.value, ' '));
              r == TwoInitials(words[0], words[1])
    ensures !IsEmptyOpt(name) && |NonEmptyParts(JavaSplit(name.value, ' '))| < 2 <= |JavaSplit(name.value, ' ')| ==>
              var words := NonEmptyParts(JavaSplit(name.value, ' '));
              |words| == 1 && r == Upper(words[0][..Min(2, |words[0]|)])
  {
    if IsEmptyOpt(name) then "?"
    else
      var s := name.value;
      var parts := JavaSplit(s, ' ');
      var words := NonEmptyParts(parts);
      if |words| >= 2 then TwoInitials(words[0], words[1])
      else if |parts| >= 2 then
        LastPartKept(s);
        Upper(words[0][..Min(2, |words[0]|)])
      else Upper(s[..Min(2, |s|)])
  }

  /** A split into two or more parts ends with a non-empty part, so some word
      survives. */
  lemma LastPartKept(s: string)
    requires |JavaSplit(s, ' ')| >= 2
    ensures |NonEmptyParts(JavaSplit(s, ' '))| >= 1
  {
    var parts := JavaSplit(s, ' ');
    assert ' ' in s;
    FilterMembership(parts, IsNonEmptyPart, parts[|parts| - 1]);
  }

  /** On the names the rule as written throws on, the intended rule gives the
      initials of the words that are there: a doubled space is skipped... */
  lemma SpaceSplitIntendedDoubleSpace()
    ensures SpaceSplitInitials(Some("A  B")) == "AB"
  {
    DoubleSpaceParts();
    DoubleSpaceWords();
    TwoInitialsAB();
  }

  /** ...and so is a leading space, leaving the single word's first two
      chars. */
  lemma SpaceSplitIntendedLeadingSpace()
    ensures SpaceSplitInitials(Some(" Bob")) == "BO"
  {
    LeadingSpaceParts();
    LeadingSpaceWords();
    UpperBo();
  }

  lemma DoubleSpaceWords()
    ensures NonEmptyParts(["A", "", "B"]) == ["A", "B"]
  {
    assert ["A", "", "B"][1..] == ["", "B"];
    assert ["", "B"][1..] == ["B"];
    assert ["B"][1..] == [];
  }

  lemma LeadingSpaceWords()
    ensures NonEmptyParts(["", "Bob"]) == ["Bob"]
  {
    assert ["", "Bob"][1..] == ["Bob"];
    assert ["Bob"][1..] == [];
  }

  lemma TwoInitialsAB()
    ensures TwoInitials("A", "B") == "AB"
  {
    var r := TwoInitials("A", "B");
    assert r[0] == 'A' && r[1] == 'B';
  }

  lemma UpperBo()
    ensures Upper("Bob"[..Min(2, |"Bob"|)]) == "BO"
  {
    assert "Bob"[..Min(2, |"Bob"|)] == "Bo";
    var r := Upper("Bo");
    assert r[0] == 'B' && r[1] == 'O';
  }

  /** The intended rule never fails, and wherever the rule as written does not
      throw the two give the same initials. */
  lemma SpaceSplitCorrected(name: Option<string>)
    ensures SpaceSplitInitialsAsWritten(name).Some? ==>
              SpaceSplitInitialsAsWritten(name).value == SpaceSplitInitials(name)
  {
    if !IsEmptyOpt(name) {
      var parts := JavaSplit(name.value, ' ');
      var words := NonEmptyParts(parts);
      if |parts| >= 2 && |parts[0]| > 0 && |parts[1]| > 0 {
        assert NonEmptyParts(parts) == [parts[0]] + NonEmptyParts(parts[1..]);
        assert NonEmptyParts(parts[1..]) == [parts[1]] + NonEmptyParts(parts[1..][1..]);
      }
    }
  }
}

=== FILE: javamath.dfy ===
/** Java's integer division and the powers of two the image loops produce. */
module JavaMath {

  /** Java's `/` on `int`/`long` for a positive divisor: it truncates toward
      zero, where Dafny's `/` rounds toward negative infinity.  Written as
      repeated subtraction so that proofs about it need no non-linear
      arithmetic. */
  function JavaDiv(a: int, b: int): (q: int)
    requires b > 0
    ensures 0 <= a < b ==> q == 0
    ensures a >= 0 ==> q >= 0 && q * b <= a
    ensures a < 0 ==> q <= 0
    decreases if a >= 0 then a else -a + 1
  {
    if a < 0 then -JavaDiv(-a, b)
    else if a < b then 0
    else 1 + JavaDiv(a - b, b)
  }

  /** Negating the dividend negates the quotient. */
  lemma JavaDivNegate(a: int, b: int)
    requires b > 0
    ensures JavaDiv(-a, b) == -JavaDiv(a, b)
  {
  }

  /** A non-negative dividend is less than one more divisor than the
      quotient's multiple: together with the lower bound in `JavaDiv`'s
      contract this pins the quotient. */
  lemma {:induction false} JavaDivUpper(a: int, b: int)
    requires b > 0
    ensures a >= 0 ==> a < (JavaDiv(a, b) + 1) * b
    decreases if a >= 0 then a else 0
  {
    if a >= b {
      JavaDivUpper(a - b, b);
      assert (JavaDiv(a, b) + 1) * b == (JavaDiv(a - b, b) + 1) * b + b;
    }
  }

  /** A dividend smaller than the divisor yields no positive quotient. */
  lemma JavaDivSmall(a: int, b: int)
    requires b > 0
    ensures a < b ==> JavaDiv(a, b) <= 0
  {
  }

  predicate IsPowerOfTwo(n: int)
    decreases if n > 0 then n else 0
  {
    n == 1 || (n > 1 && n % 2 == 0 && IsPowerOfTwo(n / 2))
  }

  function Max(a: int, b: int): int {
    if a >= b then a else b
  }
}

=== FILE: listing_preview.dfy ===
/** The listing preview sheet: the photos it pages through, who sees the
    owner actions, and what marking the listing successful records. */
module ListingPreview {
  import opened Wrappers
  import opened JavaText
  import Chat
  import Impact

  // ---------------------------------------------------------------------------
  // Photos
  // ---------------------------------------------------------------------------

  /** The parts of a split, trimmed, with the blank ones dropped. */
  function KeepTrimmed(parts: seq<string>): (kept: seq<string>)
    ensures |kept| <= |parts|
    ensures forall i :: 0 <= i < |kept| ==> |kept[i]| > 0 && Trim(kept[i]) == kept[i]
    decreases |parts|
  {
    if |parts| == 0 then []
    else
      var t := Trim(parts[0]);
      TrimIdempotent(parts[0]);
      var rest := KeepTrimmed(parts[1..]);
      if |t| > 0 then [t] + rest else rest
  }

  /** Trimming adds no comma. */
  lemma {:induction false} KeepTrimmedCommaFree(parts: seq<string>)
    requires forall i :: 0 <= i < |parts| ==> ',' !in parts[i]
    ensures forall i :: 0 <= i < |KeepTrimmed(parts)| ==> ',' !in KeepTrimmed(parts)[i]
    decreases |parts|
  {
    if |parts| > 0 {
      TrimKeepsChars(parts[0], ',');
      KeepTrimmedCommaFree(parts[1..]);
    }
  }

  /** The images the slider shows for a listing's `image_url`: none for an
      empty value, the value itself when it holds no comma, and otherwise the
      comma-separated parts, trimmed, blank ones dropped. */
  function PreviewImages(imageUrl: Option<string>): (images: seq<string>)
    ensures IsEmptyOpt(imageUrl) ==> images == []
    ensures !IsEmptyOpt(imageUrl) && ',' !in imageUrl.value ==> images == [imageUrl.value]
    ensures forall i :: 0 <= i < |images| ==> |images[i]| > 0 && ',' !in images[i]
    ensures !IsEmptyOpt(imageUrl) && ',' in imageUrl.value ==> forall i :: 0 <= i < |images| ==> Trim(images[i]) == images[i]
  {
    if IsEmptyOpt(imageUrl) then []
    else if ',' !in imageUrl.value then [imageUrl.value]
    else
      KeepTrimmedCommaFree(JavaSplit(imageUrl.value, ','));
      KeepTrimmed(JavaSplit(imageUrl.value, ','))
  }

  /** The page dots appear only when there is more than one image. */
  predicate ShowIndicator(images: seq<string>) {
    |images| > 1
  }

  /** Parts that are already trimmed and non-empty are kept as they are. */
  lemma {:induction false} KeepTrimmedKeepsClean(parts: seq<string>)
    requires forall i :: 0 <= i < |parts| ==> |parts[i]| > 0 && Trim(parts[i]) == parts[i]
    ensures KeepTrimmed(parts) == parts
    decreases |parts|
  {
    if |parts| > 0 {
      KeepTrimmedKeepsClean(parts[1..]);
      assert [parts[0]] + parts[1..] == parts;
    }
  }

  /** A join of several parts holds the separator. */
  lemma JoinHasSeparator(parts: seq<string>, sep: char)
    requires |parts| > 1
    ensures sep in Join(parts, sep)
  {
    var s := Join(parts, sep);
    assert s == parts[0] + [sep] + Join(parts[1..], sep);
    assert s[|parts[0]|] == sep;
  }

  /** Java's split of such a join gives back the parts, when no part holds
      the separator and the last is non-empty. */
  lemma JavaSplitJoin(parts: seq<string>, sep: char)
    requires |parts| > 1 && |parts[|parts| - 1]| > 0
    requires forall i :: 0 <= i < |parts| ==> sep !in parts[i]
    ensures JavaSplit(Join(parts, sep), sep) == parts
  {
    JoinHasSeparator(parts, sep);
    SplitAllJoin(parts, sep);
    assert DropTrailingEmpty(parts) == parts;
  }

  /** The comma-join the listing form stores is split back into the same
      URLs, in order, when each URL is non-empty, trimmed and comma-free; the
      page dots show exactly when there are several. */
  lemma ImagesRoundTrip(urls: seq<string>)
    requires forall i :: 0 <= i < |urls| ==> |urls[i]| > 0 && Trim(urls[i]) == urls[i] && ',' !in urls[i]
    ensures PreviewImages(Some(Join(urls, ','))) == urls
    ensures ShowIndicator(PreviewImages(Some(Join(urls, ',')))) <==> |urls| > 1
  {
    var s := Join(urls, ',');
    if |urls| == 0 {
      assert s == "";
    } else if |urls| == 1 {
      assert s == urls[0];
    } else {
      JoinHasSeparator(urls, ',');
      assert |s| > 0 && ',' in s;
      JavaSplitJoin(urls, ',');
      KeepTrimmedKeepsClean(urls);
      calc {
        PreviewImages(Some(s));
        KeepTrimmed(JavaSplit(s, ','));
        KeepTrimmed(urls);
      }
    }
  }

  // ---------------------------------------------------------------------------
  // Owner actions and completion
  // ---------------------------------------------------------------------------

  /** The sheet shows the owner's edit/delete/mark actions or the chat
      button, never both. */
  datatype Actions = OwnerActions | ChatButton

  function ActionsFor(currentUserId: Option<string>, ownerId: Option<string>): (a: Actions)
    ensures a == OwnerActions <==> Chat.IsListingOwner(currentUserId, ownerId)
    ensures a == OwnerActions ==> currentUserId == ownerId && !IsEmptyOpt(ownerId)
  {
    if Chat.IsListingOwner(currentUserId, ownerId) then OwnerActions else ChatButton
  }

  /** `markAsComplete`: the status written, or nothing without a client or
      listing id. */
  function MarkAsComplete(hasClient: bool, listingId: Option<string>, listingType: Option<string>): (status: Option<string>)
    ensures status.None? <==> !hasClient || IsEmptyOpt(listingId)
    ensures status.Some? ==> status.value == Impact.ListingCompletionStatus(listingType)
  {
    if !hasClient || IsEmptyOpt(listingId) then None else Some(Impact.ListingCompletionStatus(listingType))
  }

  /** The row `createDonationRecord` inserts into `donations`; `receiverId`
      is sent only when the viewer is not the owner.  `completedAt` is the
      current instant, passed in. */
  datatype DonationRow = DonationRow(postId: Option<string>, donorId: string, receiverName: string, status: string,
                                     completedAt: string, receiverId: Option<string>)

  /** No row without both an owner and a viewer. */
  function DonationRecord(listingId: Option<string>, ownerId: Option<string>, currentUserId: Option<string>, completedAt: string): (r: Option<DonationRow>)
    ensures r.None? <==> IsEmptyOpt(ownerId) || IsEmptyOpt(currentUserId)
    ensures r.Some? ==> r.value.donorId == ownerId.value && r.value.postId == listingId
                        && r.value.status == "completed" && r.value.receiverName == "Peer"
    ensures r.Some? ==> (r.value.receiverId.Some? <==> currentUserId.value != ownerId.value)
    ensures r.Some? && r.value.receiverId.Some? ==> r.value.receiverId == currentUserId
  {
    if IsEmptyOpt(ownerId) || IsEmptyOpt(currentUserId) then None
    else
      var receiver := if currentUserId.value != ownerId.value then currentUserId else None;
      Some(DonationRow(listingId, ownerId.value, "Peer", "completed", completedAt, receiver))
  }

  /** The donation row and the impact update agree on who took part: a
      recorded receiver is credited after the owner, and without one only the
      owner is credited. */
  lemma DonationMatchesImpact(listingId: Option<string>, ownerId: string, currentUserId: string, at: string)
    requires |ownerId| > 0 && |currentUserId| > 0
    ensures var r := DonationRecord(listingId, Some(ownerId), Some(currentUserId), at).value;
            var targets := Impact.CreditTargets(Some(ownerId), Some(currentUserId));
            && (r.receiverId.Some? ==> targets == [ownerId, r.receiverId.value])
            && (r.receiverId.None? ==> targets == [ownerId])
  {
  }
}

=== FILE: marketplace.dfy ===
/** The marketplace feed: category and text filters over the fetched
    listings, the "near you" flag, and the ordering by distance (unknown
    distances last) or, without coordinates, near listings first.  Distances
    come from a great-circle computation on doubles, so they are taken here
    as an opaque function of the listing. */
module Marketplace {
  import opened Wrappers
  import opened JavaText
  import opened Sequences
  import Sorting

  datatype Item = Item(
    title: Option<string>, description: Option<string>, location: Option<string>,
    rawCategory: Option<string>, displayCategory: Option<string>,
    hasCoordinates: bool, distanceKm: Option<real>, nearUser: bool)

  /** What is known about the viewer: whether both coordinates are known, and
      the typed location. */
  datatype Viewer = Viewer(hasCoordinates: bool, location: Option<string>)

  /** Listings within this many kilometres are "near". */
  const NearKm: real := 10.0

  // ---------------------------------------------------------------------------
  // Filters
  // ---------------------------------------------------------------------------

  /** The category filter of a chip label: none for an empty label or "All"
      in any case, otherwise the lower-cased label. */
  function NormalizeCategory(chip: Option<string>): (key: Option<string>)
    ensures key.None? <==> IsEmptyOpt(chip) || EqualsIgnoreCase(chip.value, "All")
    ensures key.Some? ==> key.value == Lower(chip.value) && |key.value| > 0
  {
    if IsEmptyOpt(chip) || EqualsIgnoreCase(chip.value, "All") then None
    else Some(Lower(chip.value))
  }

  predicate CategoryMatches(key: Option<string>, item: Item) {
    key.None? || (item.rawCategory.Some? && EqualsIgnoreCase(key.value, item.rawCategory.value))
  }

  /** The chip keeps a listing exactly when it is the "all" chip or names the
      listing's category in any case. */
  lemma CategoryChipIgnoresCase(chip: Option<string>, item: Item)
    ensures CategoryMatches(NormalizeCategory(chip), item) <==>
              IsEmptyOpt(chip) || EqualsIgnoreCase(chip.value, "All") ||
              (item.rawCategory.Some? && EqualsIgnoreCase(chip.value, item.rawCategory.value))
  {
    if chip.Some? {
      LowerIdempotent(chip.value);
    }
  }

  /** `s` is present and its lower-cased form contains the (lower-cased)
      query. */
  predicate FieldHas(s: Option<string>, query: string) {
    s.Some? && Contains(Lower(s.value), query)
  }

  /** The query occurs in the title, description, location or shown
      category. */
  predicate MatchesQuery(item: Item, query: string) {
    FieldHas(item.title, query) || FieldHas(item.description, query) ||
    FieldHas(item.location, query) || FieldHas(item.displayCategory, query)
  }

  /** The search text as the filter uses it: trimmed and lower-cased. */
  function SearchQuery(text: Option<string>): (q: string)
    ensures Lower(q) == q
    ensures text.None? ==> q == ""
  {
    if text.Some? then
      LowerIdempotent(Trim(text.value));
      Lower(Trim(text.value))
    else ""
  }

  /** The test each fetched listing goes through. */
  predicate Keep(item: Item, query: string, key: Option<string>) {
    CategoryMatches(key, item) && (|query| == 0 || MatchesQuery(item, query))
  }

  /** The search ignores the case of the typed text. */
  lemma SearchIgnoresCase(text: string)
    ensures SearchQuery(Some(Upper(text))) == SearchQuery(Some(text))
  {
    var u := Upper(text);
    LowerTrimCommute(u);
    LowerTrimCommute(text);
    LowerOfUpper(text);
    var l := Lower(text);
    assert SearchQuery(Some(u)) == Trim(l);
  }

  /** Lower-casing leaves control characters and spaces alone, so it commutes
      with trimming. */
  lemma {:induction false} LowerTrimCommute(s: string)
    ensures Lower(Trim(s)) == Trim(Lower(s))
  {
    LowerTrimStart(s);
    LowerTrimEnd(TrimStart(s));
    assert Lower(Trim(s)) == Lower(TrimEnd(TrimStart(s)));
  }

  lemma {:induction false} LowerTrimStart(s: string)
    ensures Lower(TrimStart(s)) == TrimStart(Lower(s))
    decreases |s|
  {
    if |s| > 0 {
      LowerHead(s);
      if IsTrimmable(s[0]) {
        LowerTrimStart(s[1..]);
      }
    }
  }

  /** Lower-casing a non-empty string lower-cases its first char and the rest;
      it keeps a trimmable first char and never makes one. */
  lemma LowerHead(s: string)
    requires |s| > 0
    ensures Lower(s)[1..] == Lower(s[1..])
    ensures IsTrimmable(Lower(s)[0]) <==> IsTrimmable(s[0])
    ensures IsTrimmable(s[0]) ==> TrimStart(Lower(s)) == TrimStart(Lower(s[1..])) && TrimStart(s) == TrimStart(s[1..])
    ensures !IsTrimmable(s[0]) ==> TrimStart(Lower(s)) == Lower(s) && TrimStart(s) == s
  {
    assert Lower(s)[0] == LowerChar(s[0]);
  }

  lemma {:induction false} LowerTrimEnd(s: string)
    ensures Lower(TrimEnd(s)) == TrimEnd(Lower(s))
    decreases |s|
  {
    if |s| > 0 {
      LowerTrimEnd(s[..|s| - 1]);
      assert Lower(s)[..|s| - 1] == Lower(s[..|s| - 1]);
    }
  }

  // ---------------------------------------------------------------------------
  // Distance and "near you"
  // ---------------------------------------------------------------------------

  /** Sets the listing's distance (known only when both sides have
      coordinates) and its near flag: within `NearKm` when the distance is
      known, else its location contains the viewer's, ignoring case. */
  function Annotate(item: Item, v: Viewer, distanceTo: Item -> real): (r: Item)
    ensures r.distanceKm.Some? <==> v.hasCoordinates && item.hasCoordinates
    ensures r.distanceKm.Some? ==> r.distanceKm.value == distanceTo(item) && (r.nearUser <==> distanceTo(item) <= NearKm)
    ensures r.distanceKm.None? ==>
              (r.nearUser <==> !IsEmptyOpt(v.location) && FieldHas(item.location, Lower(v.location.value)))
    ensures r.(distanceKm := item.distanceKm, nearUser := item.nearUser) == item
  {
    var d := if v.hasCoordinates && item.hasCoordinates then Some(distanceTo(item)) else None;
    var near :=
      if d.Some? then d.value <= NearKm
      else !IsEmptyOpt(v.location) && item.location.Some? && Contains(Lower(item.location.value), Lower(v.location.value));
    item.(distanceKm := d, nearUser := near)
  }

  /** Ascending distance, listings without a distance last. */
  predicate ByDistance(a: Item, b: Item) {
    b.distanceKm.None? || (a.distanceKm.Some? && a.distanceKm.value <= b.distanceKm.value)
  }

  /** Near listings before the others. */
  predicate NearFirst(a: Item, b: Item) {
    a.nearUser || !b.nearUser
  }

  lemma ComparatorsArePreorders()
    ensures Sorting.TotalPreorder(ByDistance)
    ensures Sorting.TotalPreorder(NearFirst)
  {
  }

  // ---------------------------------------------------------------------------
  // applyFilters
  // ---------------------------------------------------------------------------

  /** The fetched listings that pass the filters, annotated, in fetch order. */
  function Kept(items: seq<Item>, query: string, key: Option<string>, v: Viewer, distanceTo: Item -> real): seq<Item> {
    Map(Filter(items, it => Keep(it, query, key)), it => Annotate(it, v, distanceTo))
  }

  /** The list the feed shows. */
  function ApplyFilters(items: seq<Item>, searchText: Option<string>, chip: Option<string>,
                        v: Viewer, distanceTo: Item -> real): (shown: seq<Item>)
    ensures |shown| <= |items|
  {
    var kept := Kept(items, SearchQuery(searchText), NormalizeCategory(chip), v, distanceTo);
    if v.hasCoordinates then Sorting.Sort(kept, ByDistance)
    else if !IsEmptyOpt(v.location) then Sorting.Sort(kept, NearFirst)
    else kept
  }

  /** The feed is a reordering of the annotated listings that pass the
      filters, each as often as it was fetched. */
  lemma ShownIsPermutation(items: seq<Item>, searchText: Option<string>, chip: Option<string>,
                           v: Viewer, distanceTo: Item -> real)
    ensures multiset(ApplyFilters(items, searchText, chip, v, distanceTo))
            == multiset(Kept(items, SearchQuery(searchText), NormalizeCategory(chip), v, distanceTo))
  {
  }

  /** Every listing shown passes the filters. */
  lemma ShownPass(items: seq<Item>, searchText: Option<string>, chip: Option<string>,
                  v: Viewer, distanceTo: Item -> real, i: nat)
    requires i < |ApplyFilters(items, searchText, chip, v, distanceTo)|
    ensures Keep(ApplyFilters(items, searchText, chip, v, distanceTo)[i], SearchQuery(searchText), NormalizeCategory(chip))
  {
    var q := SearchQuery(searchText);
    var key := NormalizeCategory(chip);
    var keep := it => Keep(it, q, key);
    var filtered := Filter(items, keep);
    var kept := Kept(items, q, key, v, distanceTo);
    var shown := ApplyFilters(items, searchText, chip, v, distanceTo);
    ShownIsPermutation(items, searchText, chip, v, distanceTo);
    assert shown[i] in multiset(kept);
    var j :| 0 <= j < |kept| && kept[j] == shown[i];
    assert keep(filtered[j]);
  }

  /** Every fetched listing that passes the filters is shown, annotated. */
  lemma PassingAreShown(items: seq<Item>, searchText: Option<string>, chip: Option<string>,
                        v: Viewer, distanceTo: Item -> real, i: nat)
    requires i < |items| && Keep(items[i], SearchQuery(searchText), NormalizeCategory(chip))
    ensures Annotate(items[i], v, distanceTo) in ApplyFilters(items, searchText, chip, v, distanceTo)
  {
    var q := SearchQuery(searchText);
    var key := NormalizeCategory(chip);
    var keep := it => Keep(it, q, key);
    var ann := it => Annotate(it, v, distanceTo);
    var filtered := Filter(items, keep);
    var kept := Kept(items, q, key, v, distanceTo);
    var shown := ApplyFilters(items, searchText, chip, v, distanceTo);
    ShownIsPermutation(items, searchText, chip, v, distanceTo);
    FilterMembership(items, keep, items[i]);
    var j :| 0 <= j < |filtered| && filtered[j] == items[i];
    assert kept[j] == ann(items[i]);
    assert ann(items[i]) in multiset(kept);
  }

  /** With the viewer's coordinates the feed runs from nearest to farthest,
      listings without a distance last, and listings at the same distance in
      fetch order. */
  lemma OrderedByDistance(items: seq<Item>, searchText: Option<string>, chip: Option<string>,
                          v: Viewer, distanceTo: Item -> real, x: Item)
    requires v.hasCoordinates
    ensures var shown := ApplyFilters(items, searchText, chip, v, distanceTo);
            var kept := Kept(items, SearchQuery(searchText), NormalizeCategory(chip), v, distanceTo);
            && (forall i, j :: 0 <= i < j < |shown| && shown[j].distanceKm.Some? ==>
                  shown[i].distanceKm.Some? && shown[i].distanceKm.value <= shown[j].distanceKm.value)
            && Sorting.EquivClass(shown, ByDistance, x) == Sorting.EquivClass(kept, ByDistance, x)
  {
    var kept := Kept(items, SearchQuery(searchText), NormalizeCategory(chip), v, distanceTo);
    ComparatorsArePreorders();
    Sorting.SortSorted(kept, ByDistance);
    Sorting.SortStable(kept, ByDistance, x);
  }

  /** Without coordinates but with a typed location, near listings come
      first and the order is otherwise the fetch order. */
  lemma NearListingsFirst(items: seq<Item>, searchText: Option<string>, chip: Option<string>,
                          v: Viewer, distanceTo: Item -> real, x: Item)
    requires !v.hasCoordinates && !IsEmptyOpt(v.location)
    ensures var shown := ApplyFilters(items, searchText, chip, v, distanceTo);
            var kept := Kept(items, SearchQuery(searchText), NormalizeCategory(chip), v, distanceTo);
            && (forall i, j :: 0 <= i < j < |shown| && shown[j].nearUser ==> shown[i].nearUser)
            && Sorting.EquivClass(shown, NearFirst, x) == Sorting.EquivClass(kept, NearFirst, x)
  {
    var kept := Kept(items, SearchQuery(searchText), NormalizeCategory(chip), v, distanceTo);
    ComparatorsArePreorders();
    Sorting.SortSorted(kept, NearFirst);
    Sorting.SortStable(kept, NearFirst, x);
  }

  /** Without coordinates or location the feed keeps the fetch order. */
  lemma FetchOrderOtherwise(items: seq<Item>, searchText: Option<string>, chip: Option<string>,
                            v: Viewer, distanceTo: Item -> real)
    requires !v.hasCoordinates && IsEmptyOpt(v.location)
    ensures ApplyFilters(items, searchText, chip, v, distanceTo) ==
            Kept(items, SearchQuery(searchText), NormalizeCategory(chip), v, distanceTo)
    ensures IsSubsequence(Filter(items, it => Keep(it, SearchQuery(searchText), NormalizeCategory(chip))), items)
  {
    FilterIsSubsequence(items, it => Keep(it, SearchQuery(searchText), NormalizeCategory(chip)));
  }

  // ---------------------------------------------------------------------------
  // Labels
  // ---------------------------------------------------------------------------

  /** First character upper-cased, the rest lower-cased; empty stays empty. */
  function Capitalize(value: string): (r: string)
    ensures |r| == |value|
    ensures |value| > 0 ==> r[0] == UpperChar(value[0]) && r[1..] == Lower(value[1..])
  {
    if |value| == 0 then value
    else
      var lower := Lower(value);
      assert lower[1..] == Lower(value[1..]);
      assert UpperChar(LowerChar(value[0])) == UpperChar(value[0]);
      [UpperChar(lower[0])] + lower[1..]
  }

  /** Capitalizing agrees with lower-casing except on the first character. */
  lemma CapitalizeThenLower(value: string)
    ensures Lower(Capitalize(value)) == Lower(value)
  {
    if |value| > 0 {
      var c := Capitalize(value);
      assert LowerChar(UpperChar(value[0])) == LowerChar(value[0]);
      forall i | 1 <= i < |value|
        ensures LowerChar(c[i]) == LowerChar(value[i])
      {
        assert c[i] == c[1..][i - 1] == Lower(value[1..])[i - 1];
      }
      assert forall i :: 0 <= i < |value| ==> Lower(c)[i] == Lower(value)[i];
    }
  }

  /** Capitalizing ignores the input's case, so it is idempotent. */
  lemma CapitalizeIgnoresCase(value: string)
    ensures Capitalize(Upper(value)) == Capitalize(value)
    ensures Capitalize(Capitalize(value)) == Capitalize(value)
  {
    if |value| > 0 {
      var u := Upper(value);
      assert u[1..] == Upper(value[1..]);
      assert Lower(Upper(value[1..])) == Lower(value[1..]);
      var c := Capitalize(value);
      LowerIdempotent(value[1..]);
      assert c[1..] == Lower(value[1..]);
    }
  }
}

=== FILE: metadata.dfy ===
/** The on-device conversation metadata store: per user and listing it keeps the
    listing id, title and image of a conversation, plus the sets of archived
    and blocked conversations.  Shared preferences are modelled as a map from
    key to stored entry and two sets of keys. */
module ConversationMetadata {
  import opened Wrappers
  import opened JavaText

  /** Listing part of the key of a conversation with no listing. */
  const DirectListing := "direct"

  /** The `listingId`/`title`/`imageUrl` fields of one stored JSON object;
      a `None` field is absent from the object. */
  datatype Entry = Entry(listingId: Option<string>, title: Option<string>, imageUrl: Option<string>)

  /** What a lookup returns. */
  datatype ListingContext = ListingContext(listingId: Option<string>, title: Option<string>, imageUrl: Option<string>)

  datatype Store = Store(contexts: map<string, Entry>, archived: set<string>, blocked: set<string>)

  const EmptyStore := Store(map[], {}, {})

  /** A value that carries information: not absent, not blank, and not the
      words "null" or "undefined" in any case. */
  predicate IsPlaceholder(t: string) {
    |t| == 0 || EqualsIgnoreCase(t, "null") || EqualsIgnoreCase(t, "undefined")
  }

  /** Trims a metadata value and turns placeholders into null. */
  function Normalize(value: Option<string>): (r: Option<string>)
    ensures r.Some? <==> value.Some? && !IsPlaceholder(Trim(value.value))
    ensures r.Some? ==> r.value == Trim(value.value) && |r.value| > 0
  {
    if IsEmptyOpt(value) then None
    else
      var trimmed := Trim(value.value);
      if |trimmed| == 0 then None
      else if EqualsIgnoreCase(trimmed, "null") || EqualsIgnoreCase(trimmed, "undefined") then None
      else Some(trimmed)
  }

  /** Normalizing twice changes nothing. */
  lemma NormalizeIdempotent(value: Option<string>)
    ensures Normalize(Normalize(value)) == Normalize(value)
  {
    if Normalize(value).Some? {
      TrimIdempotent(value.value);
    }
  }

  /** The chat screen's test for a metadata value worth showing. */
  predicate HasMeaningfulValue(value: Option<string>) {
    Normalize(value).Some?
  }

  /** A value is meaningful exactly when its trimmed text is neither empty nor
      a null placeholder. */
  lemma MeaningfulIffNotPlaceholder(value: Option<string>)
    ensures HasMeaningfulValue(value) <==> value.Some? && !IsPlaceholder(Trim(value.value))
  {
  }

  /** The listing part of a key: the id, or "direct" when it is null or empty. */
  function ListingPart(listingId: Option<string>): (r: string)
    ensures IsEmptyOpt(listingId) ==> r == DirectListing
    ensures !IsEmptyOpt(listingId) ==> r == listingId.value
  {
    if IsEmptyOpt(listingId) then DirectListing else listingId.value
  }

  /** The preference key `userId|listing`. */
  function BuildKey(userId: string, listingId: Option<string>): string {
    userId + "|" + ListingPart(listingId)
  }

  /** A user id without `|` can be read back from the key. */
  lemma {:induction false} BuildKeyInjective(u1: string, l1: Option<string>, u2: string, l2: Option<string>)
    requires '|' !in u1 && '|' !in u2
    ensures BuildKey(u1, l1) == BuildKey(u2, l2) <==> u1 == u2 && ListingPart(l1) == ListingPart(l2)
  {
    var k1 := BuildKey(u1, l1);
    var k2 := BuildKey(u2, l2);
    if k1 == k2 {
      BarIndexOfKey(u1, ListingPart(l1));
      BarIndexOfKey(u2, ListingPart(l2));
      assert u1 == k1[..|u1|] == k2[..|u2|] == u2;
      assert ListingPart(l1) == k1[|u1| + 1..] == k2[|u2| + 1..] == ListingPart(l2);
    }
  }

  /** Index of the first `|` in `s`, or `|s|` when there is none. */
  function BarIndex(s: string): (i: nat)
    ensures i <= |s|
  {
    if |s| == 0 || s[0] == '|' then 0 else 1 + BarIndex(s[1..])
  }

  lemma {:induction false} BarIndexOfKey(u: string, rest: string)
    requires '|' !in u
    ensures BarIndex(u + "|" + rest) == |u|
    decreases |u|
  {
    if |u| > 0 {
      BarIndexOfKey(u[1..], rest);
      assert (u + "|" + rest)[1..] == u[1..] + "|" + rest;
    }
  }

  /** Remembers the listing context of a conversation.  The entry goes under
      the user's key for the listing and, when there is a listing id, also under
      the user's direct key as a fallback for chats without a listing id. */
  function SaveListingContext(st: Store, userId: string, listingId: Option<string>,
                              title: Option<string>, imageUrl: Option<string>): (r: Store)
    ensures r.archived == st.archived && r.blocked == st.blocked
    ensures |userId| == 0 ==> r == st
    ensures Normalize(listingId).None? && Normalize(title).None? && Normalize(imageUrl).None? ==> r == st
    ensures forall k :: k in st.contexts && k != BuildKey(userId, Normalize(listingId)) && k != BuildKey(userId, None)
              ==> k in r.contexts && r.contexts[k] == st.contexts[k]
    ensures r.contexts.Keys <= st.contexts.Keys + {BuildKey(userId, Normalize(listingId)), BuildKey(userId, None)}
  {
    if |userId| == 0 then st
    else
      var id := Normalize(listingId);
      var t := Normalize(title);
      var img := Normalize(imageUrl);
      if id.None? && t.None? && img.None? then st
      else
        var e := Entry(id, t, img);
        var c := st.contexts[BuildKey(userId, id) := e];
        var c' := if id.Some? then c[BuildKey(userId, None) := e] else c;
        st.(contexts := c')
  }

  /** Reads the listing context of a conversation, falling back to the user's
      direct entry when the listing has none.  A missing listing id in the
      stored entry is replaced by the queried one. */
  function GetListingContext(st: Store, userId: string, listingId: Option<string>): (r: Option<ListingContext>)
    ensures r.Some? <==> |userId| > 0 && (BuildKey(userId, listingId) in st.contexts
                                          || (!IsEmptyOpt(listingId) && BuildKey(userId, None) in st.contexts))
    ensures r.Some? && BuildKey(userId, listingId) in st.contexts ==>
              ReadsEntry(r.value, st.contexts[BuildKey(userId, listingId)], listingId)
    ensures r.Some? && BuildKey(userId, listingId) !in st.contexts ==>
              ReadsEntry(r.value, st.contexts[BuildKey(userId, None)], listingId)
  {
    if |userId| == 0 then None
    else
      var key := BuildKey(userId, listingId);
      var found :=
        if key in st.contexts then Some(st.contexts[key])
        else if !IsEmptyOpt(listingId) && BuildKey(userId, None) in st.contexts then Some(st.contexts[BuildKey(userId, None)])
        else None;
      match found
      case None => None
      case Some(e) =>
        var resolved := Normalize(if e.listingId.Some? then e.listingId else listingId);
        Some(ListingContext(if resolved.None? then listingId else resolved, Normalize(e.title), Normalize(e.imageUrl)))
  }

  /** How a found entry is read for the queried `listingId`: title and image
      are normalized; the listing id is the stored one normalized, falling
      back to the queried one (normalized when it can be) when nothing is
      stored, and to the raw queried one when the stored or queried value
      normalizes to nothing. */
  predicate ReadsEntry(c: ListingContext, e: Entry, listingId: Option<string>) {
    && c.title == Normalize(e.title)
    && c.imageUrl == Normalize(e.imageUrl)
    && (Normalize(e.listingId).Some? ==> c.listingId == Normalize(e.listingId))
    && (e.listingId.Some? && Normalize(e.listingId).None? ==> c.listingId == listingId)
    && (e.listingId.None? && Normalize(listingId).Some? ==> c.listingId == Normalize(listingId))
    && (e.listingId.None? && Normalize(listingId).None? ==> c.listingId == listingId)
  }

  /** Saving and then reading the same conversation returns the normalized
      values that were saved. */
  lemma SaveThenGet(st: Store, userId: string, listingId: Option<string>, title: Option<string>, imageUrl: Option<string>)
    requires |userId| > 0
    requires Normalize(listingId).Some? || Normalize(title).Some? || Normalize(imageUrl).Some?
    ensures var id := Normalize(listingId);
            GetListingContext(SaveListingContext(st, userId, listingId, title, imageUrl), userId, id)
            == Some(ListingContext(id, Normalize(title), Normalize(imageUrl)))
  {
    var id := Normalize(listingId);
    var st' := SaveListingContext(st, userId, listingId, title, imageUrl);
    SavedEntry(st, userId, listingId, title, imageUrl);
    NormalizeIdempotent(listingId);
    NormalizeIdempotent(title);
    NormalizeIdempotent(imageUrl);
    var e := st'.contexts[BuildKey(userId, id)];
    assert Normalize(if e.listingId.Some? then e.listingId else id) == id;
  }

  /** The saved entry sits under the conversation's key. */
  lemma SavedEntry(st: Store, userId: string, listingId: Option<string>, title: Option<string>, imageUrl: Option<string>)
    requires |userId| > 0
    requires Normalize(listingId).Some? || Normalize(title).Some? || Normalize(imageUrl).Some?
    ensures var r := SaveListingContext(st, userId, listingId, title, imageUrl);
            && BuildKey(userId, Normalize(listingId)) in r.contexts
            && r.contexts[BuildKey(userId, Normalize(listingId))] == Entry(Normalize(listingId), Normalize(title), Normalize(imageUrl))
  {
  }

  /** After saving a conversation with a listing id, a lookup without a listing
      id (or for a listing with no entry) finds that conversation through the
      direct fallback. */
  lemma SaveThenGetDirect(st: Store, userId: string, listingId: Option<string>, title: Option<string>,
                          imageUrl: Option<string>, other: Option<string>)
    requires |userId| > 0
    requires Normalize(listingId).Some?
    requires BuildKey(userId, other) !in SaveListingContext(st, userId, listingId, title, imageUrl).contexts
             || IsEmptyOpt(other)
    ensures GetListingContext(SaveListingContext(st, userId, listingId, title, imageUrl), userId, other)
            == Some(ListingContext(Normalize(listingId), Normalize(title), Normalize(imageUrl)))
  {
    NormalizeIdempotent(listingId);
    NormalizeIdempotent(title);
    NormalizeIdempotent(imageUrl);
  }

  /** Adds the conversation's key to a flag set or removes it. */
  function SetFlag(flags: set<string>, userId: string, listingId: Option<string>, on: bool): (r: set<string>)
    ensures |userId| == 0 ==> r == flags
    ensures |userId| > 0 ==> (BuildKey(userId, listingId) in r <==> on)
    ensures forall k :: k != BuildKey(userId, listingId) ==> (k in r <==> k in flags)
  {
    if |userId| == 0 then flags
    else if on then flags + {BuildKey(userId, listingId)}
    else flags - {BuildKey(userId, listingId)}
  }

  function SetArchived(st: Store, userId: string, listingId: Option<string>, archived: bool): (r: Store)
    ensures r.contexts == st.contexts && r.blocked == st.blocked
    ensures r.archived == SetFlag(st.archived, userId, listingId, archived)
  {
    st.(archived := SetFlag(st.archived, userId, listingId, archived))
  }

  predicate IsArchived(st: Store, userId: string, listingId: Option<string>) {
    |userId| > 0 && BuildKey(userId, listingId) in st.archived
  }

  function SetBlocked(st: Store, userId: string, listingId: Option<string>, blocked: bool): (r: Store)
    ensures r.contexts == st.contexts && r.archived == st.archived
    ensures r.blocked == SetFlag(st.blocked, userId, listingId, blocked)
  {
    st.(blocked := SetFlag(st.blocked, userId, listingId, blocked))
  }

  predicate IsBlocked(st: Store, userId: string, listingId: Option<string>) {
    |userId| > 0 && BuildKey(userId, listingId) in st.blocked
  }

  /** Archiving answers the last value set for that conversation, leaves every
      other conversation's answer alone, and is ignored without a user. */
  lemma ArchivedRoundTrip(st: Store, userId: string, listingId: Option<string>, archived: bool,
                          u: string, l: Option<string>)
    ensures |userId| > 0 ==> (IsArchived(SetArchived(st, userId, listingId, archived), userId, listingId) <==> archived)
    ensures BuildKey(u, l) != BuildKey(userId, listingId) ==>
              (IsArchived(SetArchived(st, userId, listingId, archived), u, l) <==> IsArchived(st, u, l))
    ensures !IsArchived(st, "", l)
  {
  }

  /** Blocking answers the last value set for that conversation, leaves every
      other conversation's answer alone, and is ignored without a user. */
  lemma BlockedRoundTrip(st: Store, userId: string, listingId: Option<string>, blocked: bool,
                         u: string, l: Option<string>)
    ensures |userId| > 0 ==> (IsBlocked(SetBlocked(st, userId, listingId, blocked), userId, listingId) <==> blocked)
    ensures BuildKey(u, l) != BuildKey(userId, listingId) ==>
              (IsBlocked(SetBlocked(st, userId, listingId, blocked), u, l) <==> IsBlocked(st, u, l))
    ensures !IsBlocked(st, "", l)
  {
  }

  /** A null listing id and an empty one name the same conversation. */
  lemma NullAndEmptyListingAgree(userId: string)
    ensures BuildKey(userId, None) == BuildKey(userId, Some(""))
  {
  }
}

=== FILE: my_listings.dfy ===
/** My Listings: which of the user's posts count as active, the cover image
    chosen from a comma-joined `image_url`, and the active-listings parse. */
module MyListings {
  import opened Wrappers
  import opened JavaText
  import opened Sequences
  import Trades
  import ListingPreview

  // ---------------------------------------------------------------------------
  // Status
  // ---------------------------------------------------------------------------

  /** `isActiveStatus`: an empty status counts as active, otherwise
      "available" or "pending" in any case. */
  predicate IsActiveStatus(status: Option<string>) {
    IsEmptyOpt(status) || Lower(status.value) == "available" || Lower(status.value) == "pending"
  }

  /** An active status is never a completed one, and a completed one never
      active; the match ignores case. */
  lemma ActiveNotCompleted(status: string)
    ensures IsActiveStatus(Some(status)) ==> !Trades.IsCompletedStatus(status)
    ensures Trades.IsCompletedStatus(status) ==> !IsActiveStatus(Some(status))
    ensures IsActiveStatus(Some(Upper(status))) == IsActiveStatus(Some(status))
  {
    LowerOfUpper(status);
    if |status| > 0 && IsActiveStatus(Some(status)) {
      assert Lower(status) !in Trades.CompletedStatuses;
    }
  }

  // ---------------------------------------------------------------------------
  // Cover image
  // ---------------------------------------------------------------------------

  /** A part that can serve as the cover: non-empty once trimmed and not the
      text "null" in any case. */
  predicate Usable(part: string) {
    |Trim(part)| > 0 && Lower(Trim(part)) != "null"
  }

  /** `normalizeImageUrl`: the first usable comma-separated part, trimmed,
      or nothing. */
  function NormalizeImageUrl(raw: Option<string>): (url: Option<string>)
    ensures IsEmptyOpt(raw) ==> url.None?
    ensures url.Some? ==> |url.value| > 0 && Trim(url.value) == url.value && Lower(url.value) != "null" && ',' !in url.value
    // a cover exists exactly when some part is usable, and it is the first
    // usable part, trimmed
    ensures !IsEmptyOpt(raw) ==>
              var parts := JavaSplit(raw.value, ',');
              && (url.Some? <==> exists i :: 0 <= i < |parts| && Usable(parts[i]))
              && (url.Some? ==> exists i :: 0 <= i < |parts| && Usable(parts[i]) && url.value == Trim(parts[i])
                                             && forall j :: 0 <= j < i ==> !Usable(parts[j]))
  {
    if IsEmptyOpt(raw) then None
    else
      var parts := JavaSplit(raw.value, ',');
      match FirstIndex(parts, Usable, 0)
      case None => None
      case Some(i) =>
        TrimIdempotent(parts[i]);
        TrimKeepsChars(parts[i], ',');
        Some(Trim(parts[i]))
  }

  /** The cover of a comma-joined list of clean URLs is its first URL, the
      same image the preview sheet shows first. */
  lemma CoverIsFirstJoined(urls: seq<string>)
    requires |urls| > 0 && Lower(urls[0]) != "null"
    requires forall i :: 0 <= i < |urls| ==> |urls[i]| > 0 && Trim(urls[i]) == urls[i] && ',' !in urls[i]
    ensures NormalizeImageUrl(Some(Join(urls, ','))) == Some(urls[0])
    ensures var shown := ListingPreview.PreviewImages(Some(Join(urls, ',')));
            |shown| > 0 && shown[0] == urls[0]
  {
    var s := Join(urls, ',');
    ListingPreview.ImagesRoundTrip(urls);
    FirstPartOfJoin(urls);
    var parts := JavaSplit(s, ',');
    assert Usable(parts[0]);
    // the first usable part is the first one
    var url := NormalizeImageUrl(Some(s));
    var i :| 0 <= i < |parts| && Usable(parts[i]) && url.value == Trim(parts[i])
             && forall j :: 0 <= j < i ==> !Usable(parts[j]);
    assert i == 0;
  }

  /** Splitting a comma join of comma-free parts gives the first part first. */
  lemma FirstPartOfJoin(urls: seq<string>)
    requires |urls| > 0 && forall i :: 0 <= i < |urls| ==> |urls[i]| > 0 && ',' !in urls[i]
    ensures |Join(urls, ',')| > 0
    ensures |JavaSplit(Join(urls, ','), ',')| > 0 && JavaSplit(Join(urls, ','), ',')[0] == urls[0]
  {
    if |urls| == 1 {
      assert Join(urls, ',') == urls[0];
      assert JavaSplit(urls[0], ',') == [urls[0]];
    } else {
      ListingPreview.JavaSplitJoin(urls, ',');
    }
  }

  // ---------------------------------------------------------------------------
  // Active listings
  // ---------------------------------------------------------------------------

  /** A row of the user's posts as fetched; a missing `status` reads as
      "available" and a missing `listing_type` as "". */
  datatype PostRow = PostRow(id: string, title: string, imageUrl: Option<string>, category: Option<string>,
                             listingType: Option<string>, status: Option<string>)

  datatype ActiveListing = ActiveListing(id: string, title: string, imageUrl: Option<string>, category: Option<string>,
                                         listingType: string, status: string)

  function StatusOf(p: PostRow): string {
    if p.status.Some? then p.status.value else "available"
  }

  function TypeOf(p: PostRow): string {
    Trim(if p.listingType.Some? then p.listingType.value else "")
  }

  /** The row is an active listing and not a community post, by category or
      by listing type. */
  predicate KeepActive(p: PostRow) {
    IsActiveStatus(Some(StatusOf(p)))
    && !(!IsEmptyOpt(p.category) && EqualsIgnoreCase(p.category.value, "community"))
    && !EqualsIgnoreCase(TypeOf(p), "community")
  }

  function ToActive(p: PostRow): ActiveListing {
    var t := TypeOf(p);
    ActiveListing(p.id, p.title, NormalizeImageUrl(p.imageUrl), p.category, if |t| == 0 then "swap" else t, StatusOf(p))
  }

  /** `parseActiveListings`, in fetch order. */
  function ParseActiveListings(rows: seq<PostRow>): (listings: seq<ActiveListing>)
    ensures |listings| <= |rows|
  {
    Map(Filter(rows, KeepActive), ToActive)
  }

  /** Every active, non-community row is listed. */
  lemma ParseActiveComplete(rows: seq<PostRow>)
    ensures forall i :: 0 <= i < |rows| && KeepActive(rows[i]) ==> ToActive(rows[i]) in ParseActiveListings(rows)
  {
    var kept := Filter(rows, KeepActive);
    var listings := ParseActiveListings(rows);
    forall i | 0 <= i < |rows| && KeepActive(rows[i])
      ensures ToActive(rows[i]) in listings
    {
      FilterMembership(rows, KeepActive, rows[i]);
      var j :| 0 <= j < |kept| && kept[j] == rows[i];
      assert listings[j] == ToActive(rows[i]);
    }
  }

  /** Every listing comes from an active, non-community row. */
  lemma ParseActiveSound(rows: seq<PostRow>, k: nat)
    requires k < |ParseActiveListings(rows)|
    ensures exists i :: 0 <= i < |rows| && KeepActive(rows[i]) && ParseActiveListings(rows)[k] == ToActive(rows[i])
  {
    var kept := Filter(rows, KeepActive);
    var listings := ParseActiveListings(rows);
    assert listings[k] == ToActive(kept[k]);
    FilterMembership(rows, KeepActive, kept[k]);
    var i :| 0 <= i < |rows| && rows[i] == kept[k];
    assert KeepActive(rows[i]) && listings[k] == ToActive(rows[i]);
  }

  /** Every listing has a non-empty type other than "community" and an active
      status. */
  lemma ParseActiveShape(rows: seq<PostRow>)
    ensures var listings := ParseActiveListings(rows);
            forall k :: 0 <= k < |listings| ==>
              |listings[k].listingType| > 0 && !EqualsIgnoreCase(listings[k].listingType, "community")
              && IsActiveStatus(Some(listings[k].status))
  {
    var kept := Filter(rows, KeepActive);
    var listings := ParseActiveListings(rows);
    forall k | 0 <= k < |listings|
      ensures |listings[k].listingType| > 0 && !EqualsIgnoreCase(listings[k].listingType, "community")
              && IsActiveStatus(Some(listings[k].status))
    {
      assert listings[k] == ToActive(kept[k]);
      assert KeepActive(kept[k]);
      assert Lower("swap") != Lower("community");
    }
  }
}

=== FILE: notifications.dfy ===
/** The notifications sheet: when it queries, which notifications it marks
    read, how an empty list is shown, and how each row is labelled. */
module Notifications {
  import opened Wrappers
  import opened JavaText
  import opened Sequences
  import opened Dates

  datatype NotificationItem = NotificationItem(id: string, kind: string, message: string, isRead: bool, createdAt: string)

  /** What opening the sheet does: show the login prompt, or query the
      signed-in user's notifications newest first. */
  datatype Load = LoginPrompt | Query(endpoint: string)

  function LoadNotifications(hasClient: bool, userId: Option<string>): (l: Load)
    ensures l.LoginPrompt? <==> !hasClient || IsEmptyOpt(userId)
    ensures l.Query? ==> EndsWith(l.endpoint, "&order=created_at.desc")
    ensures l.Query? ==> Contains(l.endpoint, "user_id=eq." + userId.value)
  {
    if !hasClient || IsEmptyOpt(userId) then LoginPrompt
    else
      var filter := "user_id=eq." + userId.value;
      var endpoint := "/rest/v1/notifications?select=*&" + filter + "&order=created_at.desc";
      assert endpoint[|endpoint| - |"&order=created_at.desc"|..] == "&order=created_at.desc";
      assert OccursAt(endpoint, filter, |"/rest/v1/notifications?select=*&"|);
      ContainsIffOccurrence(endpoint, filter);
      Query(endpoint)
  }

  predicate EndsWith(s: string, suffix: string) {
    |suffix| <= |s| && s[|s| - |suffix|..] == suffix
  }

  /** A notification that `markUnreadAsRead` updates. */
  predicate NeedsMark(item: NotificationItem) {
    !item.isRead && |item.id| > 0
  }

  /** The notifications updated to read, in list order; nothing without a
      client. */
  function MarkUnreadAsRead(hasClient: bool, items: seq<NotificationItem>): (marked: seq<NotificationItem>)
    ensures !hasClient ==> marked == []
    ensures forall i :: 0 <= i < |marked| ==> NeedsMark(marked[i])
  {
    if !hasClient then [] else Filter(items, NeedsMark)
  }

  /** Exactly the unread notifications with an id are marked, each once per
      occurrence and in list order. */
  lemma MarkedExactly(items: seq<NotificationItem>, item: NotificationItem)
    ensures item in MarkUnreadAsRead(true, items) <==> item in items && NeedsMark(item)
    ensures IsSubsequence(MarkUnreadAsRead(true, items), items)
    ensures (forall i :: 0 <= i < |items| ==> items[i].isRead) ==> MarkUnreadAsRead(true, items) == []
  {
    FilterMembership(items, NeedsMark, item);
    FilterIsSubsequence(items, NeedsMark);
    if forall i :: 0 <= i < |items| ==> items[i].isRead {
      var m := MarkUnreadAsRead(true, items);
      if |m| > 0 {
        FilterMembership(items, NeedsMark, m[0]);
      }
    }
  }

  /** `markAllRead`: the user whose notifications are all updated to read,
      or nothing without a client or user. */
  function MarkAllRead(hasClient: bool, userId: Option<string>): (owner: Option<string>)
    ensures owner.None? <==> !hasClient || IsEmptyOpt(userId)
    ensures owner.Some? ==> owner == userId
  {
    if !hasClient || IsEmptyOpt(userId) then None else userId
  }

  /** Marking all read is possible exactly when the sheet can load, and it
      updates the same user's notifications that the load queries. */
  lemma MarkAllMatchesLoad(hasClient: bool, userId: Option<string>)
    ensures MarkAllRead(hasClient, userId).Some? <==> LoadNotifications(hasClient, userId).Query?
    ensures MarkAllRead(hasClient, userId).Some? ==>
              Contains(LoadNotifications(hasClient, userId).endpoint, "user_id=eq." + MarkAllRead(hasClient, userId).value)
  {
  }

  /** The sheet after a successful load. */
  datatype Loaded = Loaded(shown: seq<NotificationItem>, emptyVisible: bool, markAllVisible: bool, marked: seq<NotificationItem>)

  function OnLoaded(hasClient: bool, items: seq<NotificationItem>): (v: Loaded)
    ensures v.shown == items
    ensures v.emptyVisible <==> |items| == 0
    ensures v.markAllVisible <==> !v.emptyVisible
    ensures v.marked == MarkUnreadAsRead(hasClient, items)
  {
    var empty := |items| == 0;
    Loaded(items, empty, !empty, MarkUnreadAsRead(hasClient, items))
  }

  /** The row text: an empty message reads "Notification". */
  function DisplayMessage(message: string): (text: string)
    ensures |text| > 0
    ensures |message| > 0 ==> text == message
  {
    if |message| == 0 then "Notification" else message
  }

  /** A row's labels: message, upper-cased type and relative time. */
  datatype Row = Row(message: string, kind: string, time: Relative, dimmed: bool)

  function BindRow(item: NotificationItem, parsed: Option<int>, now: int): (r: Row)
    ensures r.message == DisplayMessage(item.message)
    ensures |r.kind| == |item.kind| && Lower(r.kind) == Lower(item.kind)
    ensures r.kind == Upper(item.kind) && forall i :: 0 <= i < |r.kind| ==> !IsAsciiLower(r.kind[i])
    ensures r.dimmed <==> item.isRead
    ensures |item.createdAt| == 0 ==> r.time == RelJustNow
  {
    LowerOfUpper(item.kind);
    Row(DisplayMessage(item.message), Upper(item.kind), FormatRelative(Some(item.createdAt), parsed, now), item.isRead)
  }
}

=== FILE: profile.dfy ===
/** The profile screens: the edit-profile validation, the bio shown while a
    saved bio travels to the server and back, and the first-run profile setup
    with its photo upload and avatar fallback. */
module Profile {
  import opened Wrappers
  import opened JavaText
  import opened Sequences
  import Initials

  // ---------------------------------------------------------------------------
  // Edit-profile validation
  // ---------------------------------------------------------------------------

  /** The edit dialog's rules, in the order they are checked. */
  datatype ProfileError = NameEmpty | NameTooShort | NameTooLong | PhoneTooShort | LocationTooLong | BioTooLong

  datatype Check<E> = Valid | Invalid(error: E)

  function ProfileRank(e: ProfileError): nat {
    match e
    case NameEmpty => 0
    case NameTooShort => 1
    case NameTooLong => 2
    case PhoneTooShort => 3
    case LocationTooLong => 4
    case BioTooLong => 5
  }

  /** The chars `replaceAll("[\\s-]", "")` removes. */
  predicate IsPhoneFiller(c: char) {
    IsRegexSpace(c) || c == '-'
  }

  /** A char `replaceAll("[\\s-]", "")` keeps. */
  predicate IsPhoneChar(c: char) {
    !IsPhoneFiller(c)
  }

  /** The phone number without white space and dashes: every other char is
      kept, as often as it occurs and in its order. */
  function CleanPhone(phone: string): (r: string)
    ensures |r| <= |phone|
    ensures forall i :: 0 <= i < |r| ==> !IsPhoneFiller(r[i])
    ensures forall c :: c in r <==> c in phone && !IsPhoneFiller(c)
    ensures r == Filter(phone, IsPhoneChar)
  {
    if |phone| == 0 then ""
    else if IsPhoneFiller(phone[0]) then CleanPhone(phone[1..])
    else [phone[0]] + CleanPhone(phone[1..])
  }

  /** The rule `e` rejects the (trimmed) fields. */
  predicate Violates(e: ProfileError, name: string, phone: string, location: string, bio: string) {
    match e
    case NameEmpty => |name| == 0
    case NameTooShort => |name| < 2
    case NameTooLong => |name| > 50
    case PhoneTooShort => |phone| > 0 && |CleanPhone(phone)| < 10
    case LocationTooLong => |location| > 100
    case BioTooLong => |bio| > 150
  }

  /** What an acceptable edit looks like, independent of the order of checks. */
  predicate ProfileFieldsValid(name: string, phone: string, location: string, bio: string) {
    2 <= |name| <= 50 && (|phone| == 0 || |CleanPhone(phone)| >= 10) && |location| <= 100 && |bio| <= 150
  }

  /** Trims the four fields of the edit dialog and reports the first rule they
      break; a valid edit goes on to be saved. */
  function ValidateProfile(nameText: string, phoneText: string, locationText: string, bioText: string): (r: Check<ProfileError>)
    ensures var (n, p, l, b) := (Trim(nameText), Trim(phoneText), Trim(locationText), Trim(bioText));
            && (r.Valid? <==> ProfileFieldsValid(n, p, l, b))
            && (r.Invalid? ==> Violates(r.error, n, p, l, b))
  {
    var (name, phone, location, bio) := (Trim(nameText), Trim(phoneText), Trim(locationText), Trim(bioText));
    CheckFieldsSound(name, phone, location, bio);
    CheckFields(name, phone, location, bio)
  }

  /** The rules of the edit dialog on the trimmed fields, in order. */
  function CheckFields(name: string, phone: string, location: string, bio: string): Check<ProfileError> {
    if |name| == 0 then Invalid(NameEmpty)
    else if |name| < 2 then Invalid(NameTooShort)
    else if |name| > 50 then Invalid(NameTooLong)
    else if |phone| > 0 && |CleanPhone(phone)| < 10 then Invalid(PhoneTooShort)
    else if |location| > 0 && |location| > 100 then Invalid(LocationTooLong)
    else if |bio| > 0 && |bio| > 150 then Invalid(BioTooLong)
    else Valid
  }

  /** The chain accepts exactly the valid fields and names a broken rule. */
  lemma CheckFieldsSound(name: string, phone: string, location: string, bio: string)
    ensures CheckFields(name, phone, location, bio).Valid? <==> ProfileFieldsValid(name, phone, location, bio)
    ensures CheckFields(name, phone, location, bio).Invalid? ==>
              Violates(CheckFields(name, phone, location, bio).error, name, phone, location, bio)
  {
  }

  /** The reported rule is the first one broken: every earlier rule holds. */
  lemma ValidateProfileFirst(nameText: string, phoneText: string, locationText: string, bioText: string, e: ProfileError)
    requires ValidateProfile(nameText, phoneText, locationText, bioText).Invalid?
    requires ProfileRank(e) < ProfileRank(ValidateProfile(nameText, phoneText, locationText, bioText).error)
    ensures !Violates(e, Trim(nameText), Trim(phoneText), Trim(locationText), Trim(bioText))
  {
    var (n, p, l, b) := (Trim(nameText), Trim(phoneText), Trim(locationText), Trim(bioText));
    assert ValidateProfile(nameText, phoneText, locationText, bioText) == CheckFields(n, p, l, b);
    CheckFieldsFirst(n, p, l, b, e);
  }

  /** `ValidateProfileFirst` on fields already trimmed, one rank at a time. */
  lemma CheckFieldsFirst(name: string, phone: string, location: string, bio: string, e: ProfileError)
    requires CheckFields(name, phone, location, bio).Invalid?
    requires ProfileRank(e) < ProfileRank(CheckFields(name, phone, location, bio).error)
    ensures !Violates(e, name, phone, location, bio)
  {
    var reported := CheckFields(name, phone, location, bio).error;
    assert |name| > 0;
    if ProfileRank(reported) > 1 {
      assert |name| >= 2;
    }
    if ProfileRank(reported) > 2 {
      assert |name| <= 50;
    }
    if ProfileRank(reported) > 3 {
      assert !(|phone| > 0 && |CleanPhone(phone)| < 10);
    }
    if ProfileRank(reported) > 4 {
      assert |location| <= 100;
    }
  }

  // ---------------------------------------------------------------------------
  // Bio shown while a saved bio syncs
  // ---------------------------------------------------------------------------

  /** `awaitingBioSync` and `lastSubmittedBio`. */
  datatype BioSync = BioSync(awaiting: bool, lastSubmitted: Option<string>)

  /** The state after signing out or before any save. */
  const NoBioSync := BioSync(false, None)

  /** A successful save remembers the bio and waits for the server to echo it. */
  function OnProfileSaved(bio: string): (st: BioSync)
    ensures st.awaiting && st.lastSubmitted == Some(bio)
  {
    BioSync(true, Some(bio))
  }

  /** The bio to show and the sync state after it. */
  datatype BioShown = BioShown(state: BioSync, shown: string)

  function TrimmedOr(s: Option<string>): string {
    if s.Some? then Trim(s.value) else ""
  }

  /** Picks the bio to show for the one the server returned.  While a saved bio
      waits, a different non-blank server bio is ignored, and a blank one too. */
  function ResolveBio(st: BioSync, remote: Option<string>): (r: BioShown)
    // once settled, the server's bio is shown as is and nothing changes
    ensures !st.awaiting ==> r.state == st && r.shown == (if !IsBlank(TrimmedOr(remote)) then remote.value else "")
    // while a non-blank bio waits, it is shown unless the server returns it back
    ensures st.awaiting && |TrimmedOr(st.lastSubmitted)| > 0 ==>
              if |TrimmedOr(remote)| > 0 && EqualsIgnoreCase(TrimmedOr(remote), TrimmedOr(st.lastSubmitted))
              then r == BioShown(NoBioSync, remote.value)
              else r == BioShown(st, st.lastSubmitted.value)
    // while waiting, the submitted bio is never replaced by a blank one
    ensures st.awaiting && |TrimmedOr(st.lastSubmitted)| > 0 ==> !IsBlank(r.shown)
    // a pending sync of a cleared bio ends on the next load: the server's bio
    // is shown, or nothing when it is blank
    ensures st.awaiting && |TrimmedOr(st.lastSubmitted)| == 0 ==>
              && !r.state.awaiting
              && r.shown == (if |TrimmedOr(remote)| > 0 then remote.value else "")
              && r.state.lastSubmitted == (if |TrimmedOr(remote)| > 0 then st.lastSubmitted else None)
    // the state only leaves waiting, never enters it
    ensures r.state.awaiting ==> r.state == st
  {
    var trimmedRemote := TrimmedOr(remote);
    var trimmedSubmitted := TrimmedOr(st.lastSubmitted);
    if st.awaiting then
      if |trimmedRemote| > 0 then
        if |trimmedSubmitted| > 0 && !EqualsIgnoreCase(trimmedRemote, trimmedSubmitted) then
          BioShown(st, st.lastSubmitted.value)
        else
          var last := if EqualsIgnoreCase(trimmedRemote, trimmedSubmitted) then None else st.lastSubmitted;
          BioShown(BioSync(false, last), remote.value)
      else if |trimmedSubmitted| > 0 then
        BioShown(st, st.lastSubmitted.value)
      else
        BioShown(NoBioSync, "")
    else if |trimmedRemote| > 0 then BioShown(st, remote.value)
    else BioShown(st, "")
  }

  /** Loading the same server bio again shows the same thing and changes
      nothing further. */
  lemma ResolveBioIdempotent(st: BioSync, remote: Option<string>)
    ensures var r := ResolveBio(st, remote);
            ResolveBio(r.state, remote) == r
  {
    TrimIdempotent(TrimmedOr(remote));
  }

  /** After a save the edited bio stays on screen until the server returns a
      bio that matches it ignoring case, and then the sync ends. */
  lemma SavedBioShownUntilEchoed(bio: string, remote: Option<string>)
    requires !IsBlank(bio)
    ensures var r := ResolveBio(OnProfileSaved(bio), remote);
            if remote.Some? && !IsBlank(remote.value) && EqualsIgnoreCase(Trim(remote.value), Trim(bio))
            then r.shown == remote.value && r.state == NoBioSync
            else r.shown == bio && r.state.awaiting
  {
  }

  // ---------------------------------------------------------------------------
  // First-run profile setup
  // ---------------------------------------------------------------------------

  datatype SetupError = NameRequired | NameLength | SetupBioTooLong

  /** Trims the display name and bio and checks them in order. */
  function ValidateSetup(nameText: Option<string>, bioText: Option<string>): (r: Check<SetupError>)
    ensures r.Valid? <==> 2 <= |TrimmedOr(nameText)| <= 50 && |TrimmedOr(bioText)| <= 150
    ensures r == Invalid(NameRequired) <==> |TrimmedOr(nameText)| == 0
    ensures r == Invalid(NameLength) ==> 0 < |TrimmedOr(nameText)| && !(2 <= |TrimmedOr(nameText)| <= 50)
    ensures r == Invalid(SetupBioTooLong) ==> 2 <= |TrimmedOr(nameText)| <= 50 && |TrimmedOr(bioText)| > 150
  {
    var displayName := TrimmedOr(nameText);
    var bio := TrimmedOr(bioText);
    if |displayName| == 0 then Invalid(NameRequired)
    else if |displayName| < 2 || |displayName| > 50 then Invalid(NameLength)
    else if |bio| > 150 then Invalid(SetupBioTooLong)
    else Valid
  }

  /** The setup form and the edit dialog accept the same name and bio when
      no phone or location is given. */
  lemma SetupAgreesWithEdit(name: string, bio: string)
    ensures ValidateSetup(Some(name), Some(bio)).Valid? <==> ValidateProfile(name, "", "", bio).Valid?
  {
    assert Trim("") == "";
  }

  /** The in-flight photo upload of the setup form.  Each upload carries a
      fresh token and only the latest upload's answer is applied. */
  datatype PhotoUpload = PhotoUpload(activeToken: Option<string>, uploading: bool, photoUrl: Option<string>)

  const NoUpload := PhotoUpload(None, false, None)

  /** A picked image starts an upload for the signed-in user (`None` when the
      picker returned nothing, which only restores the avatar; without a user
      id nothing is uploaded). */
  function StartPhotoUpload(st: PhotoUpload, userId: Option<string>, picked: Option<string>, token: string): (r: PhotoUpload)
    ensures picked.None? || IsEmptyOpt(userId) ==> r == st
    ensures picked.Some? && !IsEmptyOpt(userId) ==> r.activeToken == Some(token) && r.uploading && r.photoUrl == st.photoUrl
  {
    if IsEmptyOpt(userId) || picked.None? then st
    else st.(activeToken := Some(token), uploading := true)
  }

  /** The upload finished with `url`; ignored unless it is the latest one. */
  function OnPhotoUploaded(st: PhotoUpload, token: string, url: string): (r: PhotoUpload)
    ensures st.activeToken != Some(token) ==> r == st
    ensures st.activeToken == Some(token) ==> r == PhotoUpload(None, false, Some(url))
  {
    if st.activeToken != Some(token) then st
    else PhotoUpload(None, false, Some(url))
  }

  /** The upload failed; ignored unless it is the latest one, which drops the
      photo and shows the fallback avatar again. */
  function OnPhotoUploadFailed(st: PhotoUpload, token: string): (r: PhotoUpload)
    ensures st.activeToken != Some(token) ==> r == st
    ensures st.activeToken == Some(token) ==> r == NoUpload
  {
    if st.activeToken != Some(token) then st
    else NoUpload
  }

  /** Picking a second image makes the first upload's answer, success or
      failure, change nothing, and a second answer to the same upload is
      ignored. */
  lemma OnlyLatestUploadApplies(st: PhotoUpload, user: string, img1: string, t1: string, img2: string, t2: string, url: string, url2: string)
    requires t1 != t2 && |user| > 0
    ensures var s := StartPhotoUpload(StartPhotoUpload(st, Some(user), Some(img1), t1), Some(user), Some(img2), t2);
            OnPhotoUploaded(s, t1, url) == s && OnPhotoUploadFailed(s, t1) == s
    ensures var s := OnPhotoUploaded(StartPhotoUpload(st, Some(user), Some(img2), t2), t2, url);
            s.photoUrl == Some(url) && !s.uploading && OnPhotoUploaded(s, t2, url2) == s
  {
  }

  /** The `profiles` row update of the setup form (the `updated_at` clock
      value is left out); empty location and bio are sent as JSON null and
      the photo only once an upload succeeded. */
  function SetupPayload(displayName: string, location: string, bio: string, photoUrl: Option<string>): (r: Payload)
    ensures r.Keys == {"name", "location", "bio"} + (if photoUrl.Some? && !IsBlank(photoUrl.value) then {"profile_image_url"} else {})
    ensures r["name"] == JString(displayName)
    ensures r["location"] == JNull <==> |location| == 0
    ensures r["bio"] == JNull <==> |bio| == 0
    ensures r["location"] != JNull ==> r["location"] == JString(location)
    ensures r["bio"] != JNull ==> r["bio"] == JString(bio)
    ensures "profile_image_url" in r ==> r["profile_image_url"] == JString(photoUrl.value)
  {
    var base := map["name" := JString(displayName),
                    "location" := if |location| > 0 then JString(location) else JNull,
                    "bio" := if |bio| > 0 then JString(bio) else JNull];
    if photoUrl.Some? && !IsBlank(photoUrl.value) then base["profile_image_url" := JString(photoUrl.value)]
    else base
  }

  /** The camera emoji shown when neither a name nor an email is known. */
  const CameraEmoji := "\U{1F4F8}"

  /** The text avatar of the setup form: the initials of the typed name, else
      the first letter of the email, else a camera. */
  function AvatarFallback(nameText: Option<string>, email: Option<string>): (r: string)
    ensures 1 <= |r| <= 2
    ensures nameText.Some? && !IsBlank(nameText.value) ==>
              r[0] == UpperChar(Trim(nameText.value)[0]) && Initials.AllUpper(r)
    ensures (nameText.None? || IsBlank(nameText.value)) && !IsEmptyOpt(email) ==> r == [UpperChar(email.value[0])]
    ensures (nameText.None? || IsBlank(nameText.value)) && IsEmptyOpt(email) ==> r == CameraEmoji
  {
    if nameText.Some? && !IsBlank(nameText.value) then
      TrimIdempotent(nameText.value);
      Initials.ProfileInitials(Some(Trim(nameText.value)))
    else if !IsEmptyOpt(email) then Upper(email.value[..1])
    else CameraEmoji
  }
}

=== FILE: selected_images.dfy ===
/** The list of photos picked for a new listing, before upload. */
module SelectedImages {

  /** A picked image's content URI. */
  type Uri = string

  datatype Picker = Picker(images: seq<Uri>)

  const Empty := Picker([])

  /** `addImage` appends at the end. */
  function AddImage(p: Picker, uri: Uri): (r: Picker)
    ensures |r.images| == |p.images| + 1
    ensures r.images[..|p.images|] == p.images && r.images[|p.images|] == uri
  {
    Picker(p.images + [uri])
  }

  /** `removeImage` drops the image at an in-range position and ignores any
      other position. */
  function RemoveImage(p: Picker, pos: int): (r: Picker)
    ensures 0 <= pos < |p.images| ==> |r.images| == |p.images| - 1
    ensures 0 <= pos < |p.images| ==>
              (forall i :: 0 <= i < pos ==> r.images[i] == p.images[i]) &&
              (forall i :: pos <= i < |r.images| ==> r.images[i] == p.images[i + 1])
    ensures !(0 <= pos < |p.images|) ==> r == p
  {
    if 0 <= pos < |p.images| then Picker(p.images[..pos] + p.images[pos + 1..]) else p
  }

  /** `getItemCount`: the number of rows is the number of images
      `getImages` returns. */
  function ItemCount(p: Picker): (n: nat)
    ensures n == |GetImages(p)|
  {
    |p.images|
  }

  function GetImages(p: Picker): seq<Uri> {
    p.images
  }

  /** Removing takes exactly the one image out, and removing what was just
      added restores the list. */
  lemma RemoveTakesOne(p: Picker, pos: int, uri: Uri)
    requires 0 <= pos < |p.images|
    ensures multiset(RemoveImage(p, pos).images) + multiset{p.images[pos]} == multiset(p.images)
    ensures RemoveImage(AddImage(p, uri), |p.images|) == p
    ensures ItemCount(AddImage(p, uri)) == ItemCount(p) + 1
  {
    assert p.images == p.images[..pos] + [p.images[pos]] + p.images[pos + 1..];
    assert (p.images + [uri])[..|p.images|] == p.images;
  }
}

=== FILE: sequences.dfy ===
/** Filtering a list the way the app's loops do (`for (x : xs) if (p(x))
    out.add(x)`), order-preserving subsequences, and first-appearance
    de-duplication, as `LinkedHashMap` keys keep them. */
module Sequences {
  import opened Wrappers

  /** The elements of `s` that satisfy `p`, in order. */
  function Filter<T>(s: seq<T>, p: T -> bool): (r: seq<T>)
    ensures |r| <= |s|
    ensures forall i :: 0 <= i < |r| ==> p(r[i])
    decreases |s|
  {
    if |s| == 0 then []
    else
      assert s == [s[0]] + s[1..];
      (if p(s[0]) then [s[0]] else []) + Filter(s[1..], p)
  }

  /** `a` is `b` with some elements left out, the rest in order. */
  predicate IsSubsequence<T(==)>(a: seq<T>, b: seq<T>)
    decreases |b|
  {
    if |a| == 0 then true
    else if |b| == 0 then false
    else (a[0] == b[0] && IsSubsequence(a[1..], b[1..])) || IsSubsequence(a, b[1..])
  }

  /** Every list is a subsequence of itself. */
  lemma {:induction false} SubsequenceRefl<T>(s: seq<T>)
    ensures IsSubsequence(s, s)
    decreases |s|
  {
    if |s| > 0 {
      SubsequenceRefl(s[1..]);
    }
  }

  /** A subsequence of a subsequence is a subsequence. */
  lemma {:induction false} SubsequenceTransitive<T>(a: seq<T>, b: seq<T>, c: seq<T>)
    requires IsSubsequence(a, b) && IsSubsequence(b, c)
    ensures IsSubsequence(a, c)
    decreases |b| + |c|
  {
    if |a| > 0 {
      assert |b| > 0 && |c| > 0;
      if b[0] == c[0] && IsSubsequence(b[1..], c[1..]) {
        if a[0] == b[0] && IsSubsequence(a[1..], b[1..]) {
          SubsequenceTransitive(a[1..], b[1..], c[1..]);
        } else {
          SubsequenceTransitive(a, b[1..], c[1..]);
        }
      } else {
        SubsequenceTransitive(a, b, c[1..]);
      }
    }
  }

  /** Filtering keeps the surviving elements in their original order. */
  lemma {:induction false} FilterIsSubsequence<T>(s: seq<T>, p: T -> bool)
    ensures IsSubsequence(Filter(s, p), s)
    decreases |s|
  {
    if |s| > 0 {
      FilterIsSubsequence(s[1..], p);
      var rest := Filter(s[1..], p);
      if p(s[0]) {
        var r := [s[0]] + rest;
        assert Filter(s, p) == r;
        assert r[0] == s[0] && r[1..] == rest;
      } else {
        assert Filter(s, p) == rest;
        if |rest| > 0 {
          assert IsSubsequence(rest, s[1..]);
        }
      }
    }
  }

  /** An element survives the filter exactly when it is in the list and
      passes the test. */
  lemma {:induction false} FilterMembership<T>(s: seq<T>, p: T -> bool, x: T)
    ensures x in Filter(s, p) <==> x in s && p(x)
    decreases |s|
  {
    if |s| > 0 {
      FilterMembership(s[1..], p, x);
      assert s == [s[0]] + s[1..];
      assert x in s <==> x == s[0] || x in s[1..];
    }
  }

  /** The filtered list holds no element more often than the list. */
  lemma {:induction false} FilterMultiset<T>(s: seq<T>, p: T -> bool)
    ensures multiset(Filter(s, p)) <= multiset(s)
    decreases |s|
  {
    if |s| > 0 {
      FilterMultiset(s[1..], p);
      assert s == [s[0]] + s[1..];
    }
  }

  /** A filter that keeps everything returns the list unchanged. */
  lemma {:induction false} FilterAll<T>(s: seq<T>, p: T -> bool)
    requires forall i :: 0 <= i < |s| ==> p(s[i])
    ensures Filter(s, p) == s
    decreases |s|
  {
    if |s| > 0 {
      FilterAll(s[1..], p);
      assert s == [s[0]] + s[1..];
    }
  }

  /** Filtering twice is filtering once by both tests. */
  lemma {:induction false} FilterFilter<T>(s: seq<T>, p: T -> bool, q: T -> bool)
    ensures Filter(Filter(s, p), q) == Filter(s, x => p(x) && q(x))
    decreases |s|
  {
    if |s| > 0 {
      FilterFilter(s[1..], p, q);
      var head := if p(s[0]) then [s[0]] else [];
      FilterAppend(head, Filter(s[1..], p), q);
      if p(s[0]) {
        assert Filter(head, q) == (if q(s[0]) then [s[0]] else []) by {
          assert head[1..] == [];
        }
      }
    }
  }

  lemma {:induction false} FilterAppend<T>(a: seq<T>, b: seq<T>, p: T -> bool)
    ensures Filter(a + b, p) == Filter(a, p) + Filter(b, p)
    decreases |a|
  {
    if |a| == 0 {
      assert a + b == b;
    } else {
      FilterAppend(a[1..], b, p);
      assert (a + b)[0] == a[0];
      assert (a + b)[1..] == a[1..] + b;
      assert Filter(a + b, p) == (if p(a[0]) then [a[0]] else []) + Filter(a[1..] + b, p);
    }
  }

  /** The distinct elements of `s` in the order they first appear. */
  function Dedup<T(==)>(s: seq<T>): (r: seq<T>)
    ensures forall i :: 0 <= i < |r| ==> r[i] in s
    ensures forall i :: 0 <= i < |s| ==> s[i] in r
    ensures forall i, j :: 0 <= i < j < |r| ==> r[i] != r[j]
    decreases |s|
  {
    if |s| == 0 then []
    else
      var init := Dedup(s[..|s| - 1]);
      assert s == s[..|s| - 1] + [s[|s| - 1]];
      if s[|s| - 1] in init then init else init + [s[|s| - 1]]
  }

  /** `Dedup` is never longer than its input and starts with its input's
      first element. */
  lemma {:induction false} DedupShape<T>(s: seq<T>)
    ensures |Dedup(s)| <= |s|
    ensures |s| > 0 ==> |Dedup(s)| > 0 && Dedup(s)[0] == s[0]
    decreases |s|
  {
    if |s| > 0 {
      var init := s[..|s| - 1];
      DedupShape(init);
      if |init| > 0 {
        assert init[0] == s[0];
      } else {
        assert Dedup(init) == [];
      }
    }
  }

  /** `f` applied to every element, in order. */
  function Map<T, U>(s: seq<T>, f: T -> U): (r: seq<U>)
    ensures |r| == |s|
    ensures forall i :: 0 <= i < |s| ==> r[i] == f(s[i])
  {
    seq(|s|, i requires 0 <= i < |s| => f(s[i]))
  }

  /** The position of the first element at or after `from` that satisfies
      `p`: the index a loop that breaks at its first match stops at. */
  function FirstIndex<T>(s: seq<T>, p: T -> bool, from: nat): (r: Option<nat>)
    requires from <= |s|
    ensures r.None? <==> forall i :: from <= i < |s| ==> !p(s[i])
    ensures r.Some? ==> from <= r.value < |s| && p(s[r.value])
                        && forall j :: from <= j < r.value ==> !p(s[j])
    decreases |s| - from
  {
    if from == |s| then None
    else if p(s[from]) then Some(from)
    else FirstIndex(s, p, from + 1)
  }
}

=== FILE: sorting.dfy ===
/** The stable sort `Collections.sort`/`List.sort` performs, over a comparator
    given as a "less than or equal" relation.  The app sorts with comparators
    that are total preorders (a key compared with `Long.compare`, or a
    two-valued rank), and Java's merge sort keeps equal elements in their
    original order; an insertion sort that inserts each element before the
    first element it is not greater than has the same result. */
module Sorting {

  /** `le` is total and transitive, as a Java comparator is required to be. */
  ghost predicate TotalPreorder<T(!new)>(le: (T, T) -> bool) {
    (forall a, b :: le(a, b) || le(b, a)) &&
    (forall a, b, c :: le(a, b) && le(b, c) ==> le(a, c))
  }

  /** The comparator returns 0 for `a` and `b`. */
  predicate Equiv<T>(le: (T, T) -> bool, a: T, b: T) {
    le(a, b) && le(b, a)
  }

  predicate Sorted<T>(s: seq<T>, le: (T, T) -> bool) {
    forall i, j :: 0 <= i < j < |s| ==> le(s[i], s[j])
  }

  /** The elements of `s` the comparator cannot tell from `x`, in order. */
  function EquivClass<T>(s: seq<T>, le: (T, T) -> bool, x: T): (r: seq<T>)
    ensures |r| <= |s|
  {
    if |s| == 0 then []
    else (if Equiv(le, s[0], x) then [s[0]] else []) + EquivClass(s[1..], le, x)
  }

  /** Inserts `x` before the first element it is not greater than. */
  function Insert<T>(x: T, s: seq<T>, le: (T, T) -> bool): (r: seq<T>)
    ensures |r| == |s| + 1
    ensures multiset(r) == multiset(s) + multiset{x}
  {
    if |s| == 0 then [x]
    else if le(x, s[0]) then [x] + s
    else
      assert s == [s[0]] + s[1..];
      [s[0]] + Insert(x, s[1..], le)
  }

  /** The stable sort of `s` under `le`. */
  function Sort<T>(s: seq<T>, le: (T, T) -> bool): (r: seq<T>)
    ensures multiset(r) == multiset(s)
    ensures |r| == |s|
  {
    if |s| == 0 then []
    else
      assert s == [s[0]] + s[1..];
      Insert(s[0], Sort(s[1..], le), le)
  }

  lemma {:induction false} InsertSorted<T(!new)>(x: T, s: seq<T>, le: (T, T) -> bool)
    requires TotalPreorder(le)
    requires Sorted(s, le)
    ensures Sorted(Insert(x, s, le), le)
    decreases |s|
  {
    if |s| > 0 && !le(x, s[0]) {
      InsertSorted(x, s[1..], le);
      var r := Insert(x, s, le);
      var t := Insert(x, s[1..], le);
      assert r == [s[0]] + t;
      assert multiset(t) == multiset(s[1..]) + multiset{x};
      forall j | 1 <= j < |r|
        ensures le(s[0], r[j])
      {
        assert r[j] == t[j - 1];
        assert t[j - 1] in multiset(t);
        if t[j - 1] == x {
          assert le(s[0], x);
        } else {
          assert t[j - 1] in multiset(s[1..]);
          var k :| 0 <= k < |s[1..]| && s[1..][k] == t[j - 1];
          assert s[1..][k] == s[k + 1];
        }
      }
    }
  }

  /** The sort yields a permutation of its input in `le` order. */
  lemma {:induction false} SortSorted<T(!new)>(s: seq<T>, le: (T, T) -> bool)
    requires TotalPreorder(le)
    ensures Sorted(Sort(s, le), le)
    ensures multiset(Sort(s, le)) == multiset(s)
    decreases |s|
  {
    if |s| > 0 {
      SortSorted(s[1..], le);
      InsertSorted(s[0], Sort(s[1..], le), le);
    }
  }

  /** Inserting `y` puts it in front of every element equivalent to it. */
  lemma {:induction false} EquivClassInsert<T(!new)>(y: T, s: seq<T>, le: (T, T) -> bool, x: T)
    requires TotalPreorder(le)
    ensures EquivClass(Insert(y, s, le), le, x) ==
            (if Equiv(le, y, x) then [y] else []) + EquivClass(s, le, x)
    decreases |s|
  {
    if |s| == 0 {
    } else if le(y, s[0]) {
      assert ([y] + s)[1..] == s;
    } else {
      EquivClassInsert(y, s[1..], le, x);
      if Equiv(le, y, x) {
        Transitive(le, y, x, s[0]);
      }
      EquivClassInsertLater(y, s, le, x);
    }
  }

  /** The step past a smaller head: `y` and the head cannot both be
      equivalent to `x`, so their order in the class does not matter. */
  lemma EquivClassInsertLater<T>(y: T, s: seq<T>, le: (T, T) -> bool, x: T)
    requires |s| > 0 && !le(y, s[0])
    requires Equiv(le, y, x) ==> !Equiv(le, s[0], x)
    requires EquivClass(Insert(y, s[1..], le), le, x) ==
             (if Equiv(le, y, x) then [y] else []) + EquivClass(s[1..], le, x)
    ensures EquivClass(Insert(y, s, le), le, x) ==
            (if Equiv(le, y, x) then [y] else []) + EquivClass(s, le, x)
  {
    var t := Insert(y, s[1..], le);
    var r := [s[0]] + t;
    assert Insert(y, s, le) == r;
    assert r[0] == s[0] && r[1..] == t;
    var head := if Equiv(le, s[0], x) then [s[0]] else [];
    var yHead := if Equiv(le, y, x) then [y] else [];
    calc {
      EquivClass(r, le, x);
      head + EquivClass(t, le, x);
      head + (yHead + EquivClass(s[1..], le, x));
      { SwapOneEmpty(head, yHead, EquivClass(s[1..], le, x)); }
      yHead + (head + EquivClass(s[1..], le, x));
      yHead + EquivClass(s, le, x);
    }
  }

  /** Two prefixes commute when one of them is empty. */
  lemma SwapOneEmpty<T>(a: seq<T>, b: seq<T>, rest: seq<T>)
    requires a == [] || b == []
    ensures a + (b + rest) == b + (a + rest)
  {
    if a == [] {
      assert a + (b + rest) == b + rest;
      assert a + rest == rest;
    } else {
      assert b + (a + rest) == a + rest;
      assert b + rest == rest;
    }
  }

  lemma Transitive<T(!new)>(le: (T, T) -> bool, a: T, b: T, c: T)
    requires TotalPreorder(le)
    ensures le(a, b) && le(b, c) ==> le(a, c)
  {
  }

  /** Stability: elements the comparator considers equal keep their order. */
  lemma {:induction false} SortStable<T(!new)>(s: seq<T>, le: (T, T) -> bool, x: T)
    requires TotalPreorder(le)
    ensures EquivClass(Sort(s, le), le, x) == EquivClass(s, le, x)
    decreases |s|
  {
    if |s| > 0 {
      SortStable(s[1..], le, x);
      EquivClassInsert(s[0], Sort(s[1..], le), le, x);
    }
  }
}

=== FILE: text.dfy ===
/** The parts of `java.lang.String` and `android.text.TextUtils` the app relies
    on, with Java's semantics written out: `trim()` strips every char up to
    U+0020, the regex `\s` is the six ASCII white-space chars, `split` drops
    trailing empty parts, and case mapping is ASCII-only. */
module JavaText {
  import opened Wrappers

  // ---------------------------------------------------------------------------
  // Emptiness and trimming
  // ---------------------------------------------------------------------------

  /** `TextUtils.isEmpty` on a nullable string. */
  predicate IsEmptyOpt(s: Option<string>) {
    s.None? || |s.value| == 0
  }

  /** The chars `String.trim()` removes from either end. */
  predicate IsTrimmable(c: char) {
    c <= ' '
  }

  function TrimStart(s: string): (r: string)
    ensures |r| <= |s| && r == s[|s| - |r|..]
    ensures |r| > 0 ==> !IsTrimmable(r[0])
    ensures forall i :: 0 <= i < |s| - |r| ==> IsTrimmable(s[i])
  {
    if |s| > 0 && IsTrimmable(s[0]) then TrimStart(s[1..]) else s
  }

  function TrimEnd(s: string): (r: string)
    ensures |r| <= |s| && r == s[..|r|]
    ensures |r| > 0 ==> !IsTrimmable(r[|r| - 1])
    ensures forall i :: |r| <= i < |s| ==> IsTrimmable(s[i])
  {
    if |s| > 0 && IsTrimmable(s[|s| - 1]) then TrimEnd(s[..|s| - 1]) else s
  }

  /** `String.trim()`. */
  function Trim(s: string): (r: string)
    ensures |r| <= |s|
    ensures |r| > 0 ==> !IsTrimmable(r[0]) && !IsTrimmable(r[|r| - 1])
  {
    TrimEnd(TrimStart(s))
  }

  /** Trimming only removes chars, so it adds none. */
  lemma TrimKeepsChars(s: string, c: char)
    ensures c in Trim(s) ==> c in s
  {
    var t := TrimStart(s);
    if c in TrimEnd(t) {
      var i :| 0 <= i < |TrimEnd(t)| && TrimEnd(t)[i] == c;
      assert t[i] == c;
      assert s[|s| - |t| + i] == c;
    }
  }

  /** A string with nothing but trimmable chars, that is `s.trim().isEmpty()`. */
  predicate IsBlank(s: string) {
    |Trim(s)| == 0
  }

  lemma TrimIdempotent(s: string)
    ensures Trim(Trim(s)) == Trim(s)
  {
    TrimOfTrimmed(Trim(s));
  }

  /** A string is blank exactly when every char in it is trimmable. */
  lemma BlankIffAllTrimmable(s: string)
    ensures IsBlank(s) <==> forall i :: 0 <= i < |s| ==> IsTrimmable(s[i])
  {
    var t := TrimStart(s);
    if |t| > 0 {
      assert !IsTrimmable(s[|s| - |t|]);
      assert |TrimEnd(t)| > 0 by {
        assert !IsTrimmable(t[0]);
      }
    }
  }

  /** A string with no trimmable char at either end is its own trim. */
  lemma TrimOfTrimmed(s: string)
    requires |s| > 0 ==> !IsTrimmable(s[0]) && !IsTrimmable(s[|s| - 1])
    ensures Trim(s) == s
  {
  }

  // ---------------------------------------------------------------------------
  // ASCII case mapping
  // ---------------------------------------------------------------------------

  predicate IsAsciiUpper(c: char) {
    'A' <= c <= 'Z'
  }

  predicate IsAsciiLower(c: char) {
    'a' <= c <= 'z'
  }

  function LowerChar(c: char): (r: char)
    ensures !IsAsciiUpper(r)
    ensures !IsAsciiUpper(c) ==> r == c
  {
    if IsAsciiUpper(c) then (c as int + 32) as char else c
  }

  function UpperChar(c: char): (r: char)
    ensures !IsAsciiLower(r)
    ensures !IsAsciiLower(c) ==> r == c
  {
    if IsAsciiLower(c) then (c as int - 32) as char else c
  }

  /** `toLowerCase()` restricted to ASCII letters. */
  function Lower(s: string): (r: string)
    ensures |r| == |s|
    ensures forall i :: 0 <= i < |s| ==> r[i] == LowerChar(s[i])
  {
    seq(|s|, i requires 0 <= i < |s| => LowerChar(s[i]))
  }

  /** `toUpperCase()` restricted to ASCII letters. */
  function Upper(s: string): (r: string)
    ensures |r| == |s|
    ensures forall i :: 0 <= i < |s| ==> r[i] == UpperChar(s[i])
  {
    seq(|s|, i requires 0 <= i < |s| => UpperChar(s[i]))
  }

  lemma LowerIdempotent(s: string)
    ensures Lower(Lower(s)) == Lower(s)
  {
  }

  /** Lower-casing forgets an earlier upper-casing. */
  lemma LowerOfUpper(s: string)
    ensures Lower(Upper(s)) == Lower(s)
  {
  }

  /** `equalsIgnoreCase`. */
  predicate EqualsIgnoreCase(a: string, b: string) {
    Lower(a) == Lower(b)
  }

  // ---------------------------------------------------------------------------
  // Prefixes and substrings
  // ---------------------------------------------------------------------------

  predicate StartsWith(s: string, p: string) {
    |p| <= |s| && s[..|p|] == p
  }

  /** `s.contains(t)`. */
  predicate Contains(s: string, t: string)
    decreases |s|
  {
    StartsWith(s, t) || (|s| > 0 && Contains(s[1..], t))
  }

  /** `t` occurs in `s` starting at index `i`. */
  predicate OccursAt(s: string, t: string, i: int) {
    0 <= i <= |s| - |t| && s[i..i + |t|] == t
  }

  /** `Contains` means an occurrence at some index. */
  lemma {:induction false} ContainsIffOccurrence(s: string, t: string)
    ensures Contains(s, t) <==> exists i :: OccursAt(s, t, i)
    decreases |s|
  {
    if StartsWith(s, t) {
      assert OccursAt(s, t, 0);
    } else if |s| > 0 {
      ContainsIffOccurrence(s[1..], t);
      if exists i :: OccursAt(s, t, i) {
        var i :| OccursAt(s, t, i);
        assert i != 0;
        assert OccursAt(s[1..], t, i - 1) by {
          assert s[1..][i - 1..i - 1 + |t|] == s[i..i + |t|];
        }
      }
      if Contains(s[1..], t) {
        var j :| OccursAt(s[1..], t, j);
        assert OccursAt(s, t, j + 1) by {
          assert s[1..][j..j + |t|] == s[j + 1..j + 1 + |t|];
        }
      }
    }
  }

  /** Every string contains the empty string. */
  lemma ContainsEmpty(s: string)
    ensures Contains(s, "")
  {
  }

  /** A string contains itself. */
  lemma ContainsSelf(s: string)
    ensures Contains(s, s)
  {
    assert StartsWith(s, s);
  }

  /** What a substring contains, the whole string contains. */
  lemma ContainsTransitive(s: string, t: string, u: string)
    requires Contains(s, t) && Contains(t, u)
    ensures Contains(s, u)
  {
    ContainsIffOccurrence(s, t);
    ContainsIffOccurrence(t, u);
    var i :| OccursAt(s, t, i);
    var j :| OccursAt(t, u, j);
    var a, b := s[i + j..i + j + |u|], t[j..j + |u|];
    assert a == b by {
      forall k | 0 <= k < |u|
        ensures a[k] == b[k]
      {
        assert t[j + k] == s[i..i + |t|][j + k];
      }
    }
    assert OccursAt(s, u, i + j);
    ContainsIffOccurrence(s, u);
  }

  // ---------------------------------------------------------------------------
  // Splitting and joining on one separator char
  // ---------------------------------------------------------------------------

  /** Every part of `s` between occurrences of `sep`, empty parts included. */
  function SplitAll(s: string, sep: char): (parts: seq<string>)
    ensures |parts| >= 1
    ensures forall k :: 0 <= k < |parts| ==> sep !in parts[k]
    decreases |s|
  {
    if |s| == 0 then [""]
    else
      var rest := SplitAll(s[1..], sep);
      if s[0] == sep then [""] + rest
      else [[s[0]] + rest[0]] + rest[1..]
  }

  /** `TextUtils.join(sep, parts)`. */
  function Join(parts: seq<string>, sep: char): string
  {
    if |parts| == 0 then ""
    else if |parts| == 1 then parts[0]
    else parts[0] + [sep] + Join(parts[1..], sep)
  }

  /** Drops the trailing empty strings, as `String.split` does. */
  function DropTrailingEmpty(parts: seq<string>): (r: seq<string>)
    ensures |r| <= |parts| && r == parts[..|r|]
    ensures |r| > 0 ==> r[|r| - 1] != ""
    ensures forall k :: |r| <= k < |parts| ==> parts[k] == ""
  {
    if |parts| > 0 && parts[|parts| - 1] == "" then DropTrailingEmpty(parts[..|parts| - 1]) else parts
  }

  /** `s.split(String.valueOf(sep))` for a separator that is not a regex
      metachar: the whole string when the separator does not occur, otherwise
      the parts with trailing empty ones dropped. */
  function JavaSplit(s: string, sep: char): (parts: seq<string>)
    ensures forall k :: 0 <= k < |parts| ==> sep !in parts[k]
  {
    if sep !in s then [s] else DropTrailingEmpty(SplitAll(s, sep))
  }

  lemma {:induction false} SplitAllNoSep(s: string, sep: char)
    requires sep !in s
    ensures SplitAll(s, sep) == [s]
    decreases |s|
  {
    if |s| > 0 {
      SplitAllNoSep(s[1..], sep);
      assert [s[0]] + s[1..] == s;
    }
  }

  lemma {:induction false} SplitAllAfterSep(a: string, b: string, sep: char)
    requires sep !in a
    ensures SplitAll(a + [sep] + b, sep) == [a] + SplitAll(b, sep)
    decreases |a|
  {
    if |a| == 0 {
      assert a + [sep] + b == [sep] + b;
      assert ([sep] + b)[1..] == b;
    } else {
      SplitAllAfterSep(a[1..], b, sep);
      assert (a + [sep] + b)[1..] == a[1..] + [sep] + b;
      assert [a[0]] + a[1..] == a;
    }
  }

  /** A path of three separator-free parts splits back into them. */
  lemma SplitThree(a: string, b: string, c: string, sep: char)
    requires sep !in a && sep !in b && sep !in c
    ensures SplitAll(a + [sep] + b + [sep] + c, sep) == [a, b, c]
  {
    var bc := b + [sep] + c;
    assert a + [sep] + b + [sep] + c == a + [sep] + bc;
    SplitAllAfterSep(a, bc, sep);
    SplitAllAfterSep(b, c, sep);
    SplitAllNoSep(c, sep);
    assert SplitAll(bc, sep) == [b, c];
  }

  /** Splitting a join gives back the parts, when no part holds the separator. */
  lemma {:induction false} SplitAllJoin(parts: seq<string>, sep: char)
    requires |parts| >= 1
    requires forall k :: 0 <= k < |parts| ==> sep !in parts[k]
    ensures SplitAll(Join(parts, sep), sep) == parts
    decreases |parts|
  {
    if |parts| == 1 {
      SplitAllNoSep(parts[0], sep);
    } else {
      SplitAllJoin(parts[1..], sep);
      SplitAllAfterSep(parts[0], Join(parts[1..], sep), sep);
      assert [parts[0]] + parts[1..] == parts;
    }
  }

  // ---------------------------------------------------------------------------
  // Splitting on the regex \s+
  // ---------------------------------------------------------------------------

  /** The chars matched by the regex class `\s`. */
  predicate IsRegexSpace(c: char) {
    c == ' ' || c == '\t' || c == '\n' || c as int == 11 || c as int == 12 || c == '\r'
  }

  lemma RegexSpaceIsTrimmable(c: char)
    ensures IsRegexSpace(c) ==> IsTrimmable(c)
  {
  }

  /** The maximal runs of non-`\s` chars of `s`, in order. */
  function Words(s: string): (r: seq<string>)
    ensures forall k :: 0 <= k < |r| ==> |r[k]| > 0
    ensures |s| > 0 && !IsRegexSpace(s[0]) ==> |r| > 0 && r[0][0] == s[0]
    ensures |r| > 0 ==> exists i :: 0 <= i < |s| && !IsRegexSpace(s[i])
    decreases |s|
  {
    if |s| == 0 then []
    else if IsRegexSpace(s[0]) then Words(s[1..])
    else
      var rest := Words(s[1..]);
      if |s| > 1 && !IsRegexSpace(s[1]) then [[s[0]] + rest[0]] + rest[1..]
      else [[s[0]]] + rest
  }

  /** A run of non-`\s` chars is a single word. */
  lemma {:induction false} WordsOfWord(w: string)
    requires |w| > 0 && forall i :: 0 <= i < |w| ==> !IsRegexSpace(w[i])
    ensures Words(w) == [w]
    decreases |w|
  {
    if |w| == 1 {
      assert Words(w) == [[w[0]]] + Words(w[1..]);
      assert w == [w[0]];
    } else {
      WordsOfWord(w[1..]);
      assert !IsRegexSpace(w[1]);
      assert Words(w) == [[w[0]] + Words(w[1..])[0]] + Words(w[1..])[1..];
      assert [w[0]] + w[1..] == w;
    }
  }

  /** A word followed by a space is the first word. */
  lemma {:induction false} WordsAfterWord(a: string, b: string)
    requires |a| > 0 && forall i :: 0 <= i < |a| ==> !IsRegexSpace(a[i])
    ensures Words(a + " " + b) == [a] + Words(b)
    decreases |a|
  {
    var s := a + " " + b;
    if |a| == 1 {
      assert s[1] == ' ';
      assert Words(s) == [[s[0]]] + Words(s[1..]);
      assert s[1..][1..] == b;
      assert Words(s[1..]) == Words(b);
      assert a == [s[0]];
    } else {
      WordsAfterWord(a[1..], b);
      assert s[1..] == a[1..] + " " + b;
      var rest := Words(s[1..]);
      assert rest == [a[1..]] + Words(b);
      assert rest[0] == a[1..] && rest[1..] == Words(b);
      assert !IsRegexSpace(s[1]);
      assert Words(s) == [[s[0]] + rest[0]] + rest[1..];
      assert [a[0]] + a[1..] == a;
    }
  }

  /** `s.trim().split("\\s+")`: the trimmed string begins and ends with a
      char above U+0020, so no empty part appears except for the single empty
      part of an all-blank string. */
  function SplitTrimmedOnWhitespace(s: string): (parts: seq<string>)
    ensures |parts| >= 1
  {
    var t := Trim(s);
    if |t| == 0 then [""] else Words(t)
  }
}

=== FILE: trades.dfy ===
/** A completed or in-progress swap or donation as shown in "My Listings", the
    rules that turn swap, donation and completed-post rows into such records,
    and the view decisions the trade history list and the trade detail screen
    derive from them. */
module Trades {
  import opened Wrappers
  import opened JavaText
  import Sorting

  // ---------------------------------------------------------------------------
  // The record
  // ---------------------------------------------------------------------------

  datatype TradeType = Swap | Donation

  /** One listing taking part in a trade; a `None` image or owner is null. */
  datatype TradeItem = TradeItem(postId: string, title: string, imageUrl: Option<string>, ownerId: Option<string>)

  /** `id`, `tradeType` and `createdAt` are final; every other field has a
      setter and starts out null. */
  datatype TradeRecord = TradeRecord(
    id: string,
    tradeType: TradeType,
    createdAt: int,
    status: Option<string>,
    completedAt: Option<int>,
    primaryItem: Option<TradeItem>,
    secondaryItem: Option<TradeItem>,
    counterpartyId: Option<string>,
    counterpartyName: Option<string>,
    receiverName: Option<string>,
    pickupLocation: Option<string>,
    proofPhotoUrl: Option<string>)

  /** The three final fields of a record. */
  predicate SameIdentity(a: TradeRecord, b: TradeRecord) {
    a.id == b.id && a.tradeType == b.tradeType && a.createdAt == b.createdAt
  }

  function NewRecord(id: string, tradeType: TradeType, createdAt: int): (r: TradeRecord)
    ensures r.id == id && r.tradeType == tradeType && r.createdAt == createdAt
    ensures r.status.None? && r.completedAt.None? && r.primaryItem.None? && r.secondaryItem.None?
    ensures r.counterpartyId.None? && r.counterpartyName.None? && r.receiverName.None?
    ensures r.pickupLocation.None? && r.proofPhotoUrl.None?
  {
    TradeRecord(id, tradeType, createdAt, None, None, None, None, None, None, None, None, None)
  }

  function SetStatus(r: TradeRecord, v: Option<string>): (r': TradeRecord)
    ensures r'.status == v && r' == r.(status := v) && SameIdentity(r, r')
  {
    r.(status := v)
  }

  function SetCompletedAt(r: TradeRecord, v: Option<int>): (r': TradeRecord)
    ensures r'.completedAt == v && r' == r.(completedAt := v) && SameIdentity(r, r')
  {
    r.(completedAt := v)
  }

  function SetPrimaryItem(r: TradeRecord, v: Option<TradeItem>): (r': TradeRecord)
    ensures r'.primaryItem == v && r' == r.(primaryItem := v) && SameIdentity(r, r')
  {
    r.(primaryItem := v)
  }

  function SetSecondaryItem(r: TradeRecord, v: Option<TradeItem>): (r': TradeRecord)
    ensures r'.secondaryItem == v && r' == r.(secondaryItem := v) && SameIdentity(r, r')
  {
    r.(secondaryItem := v)
  }

  function SetCounterpartyId(r: TradeRecord, v: Option<string>): (r': TradeRecord)
    ensures r'.counterpartyId == v && r' == r.(counterpartyId := v) && SameIdentity(r, r')
  {
    r.(counterpartyId := v)
  }

  function SetCounterpartyName(r: TradeRecord, v: Option<string>): (r': TradeRecord)
    ensures r'.counterpartyName == v && r' == r.(counterpartyName := v) && SameIdentity(r, r')
  {
    r.(counterpartyName := v)
  }

  function SetReceiverName(r: TradeRecord, v: Option<string>): (r': TradeRecord)
    ensures r'.receiverName == v && r' == r.(receiverName := v) && SameIdentity(r, r')
  {
    r.(receiverName := v)
  }

  function SetPickupLocation(r: TradeRecord, v: Option<string>): (r': TradeRecord)
    ensures r'.pickupLocation == v && r' == r.(pickupLocation := v) && SameIdentity(r, r')
  {
    r.(pickupLocation := v)
  }

  function SetProofPhotoUrl(r: TradeRecord, v: Option<string>): (r': TradeRecord)
    ensures r'.proofPhotoUrl == v && r' == r.(proofPhotoUrl := v) && SameIdentity(r, r')
  {
    r.(proofPhotoUrl := v)
  }

  // ---------------------------------------------------------------------------
  // Record predicates
  // ---------------------------------------------------------------------------

  /** The statuses, in lower case, that mean the trade is done. */
  const CompletedStatuses: set<string> := {"completed", "swapped", "donated"}

  predicate IsCompletedStatus(status: string) {
    Lower(status) in CompletedStatuses
  }

  predicate IsCompleted(r: TradeRecord) {
    r.status.Some? && IsCompletedStatus(r.status.value)
  }

  predicate CanConfirm(r: TradeRecord) {
    r.status.Some? && !IsCompleted(r) && !EqualsIgnoreCase(r.status.value, "cancelled")
  }

  predicate CanUploadProof(r: TradeRecord) {
    IsCompleted(r)
  }

  /** A record is never both completed and confirmable; a record without a
      status is neither, and cannot take a proof photo; a cancelled record is
      neither. */
  lemma PredicatesExclusive(r: TradeRecord)
    ensures !(IsCompleted(r) && CanConfirm(r))
    ensures r.status.None? ==> !IsCompleted(r) && !CanConfirm(r) && !CanUploadProof(r)
    ensures CanUploadProof(r) <==> IsCompleted(r)
    ensures r.status.Some? ==> (CanConfirm(r) || IsCompleted(r) <==> !EqualsIgnoreCase(r.status.value, "cancelled"))
  {
    if r.status.Some? && EqualsIgnoreCase(r.status.value, "cancelled") {
      assert Lower(r.status.value) == "cancelled";
    }
  }

  /** The predicates only look at the status up to letter case. */
  lemma PredicatesIgnoreCase(r: TradeRecord, s1: string, s2: string)
    requires EqualsIgnoreCase(s1, s2)
    ensures IsCompleted(r.(status := Some(s1))) == IsCompleted(r.(status := Some(s2)))
    ensures CanConfirm(r.(status := Some(s1))) == CanConfirm(r.(status := Some(s2)))
  {
  }

  /** Every status, in any case, falls in one of three classes: one of the
      three completed words, "cancelled", or anything else (the empty status
      included), which can still be confirmed. */
  lemma StatusCases(r: TradeRecord, status: string)
    ensures var q := r.(status := Some(status));
            && (IsCompleted(q) <==> EqualsIgnoreCase(status, "completed") || EqualsIgnoreCase(status, "swapped")
                                    || EqualsIgnoreCase(status, "donated"))
            && (CanConfirm(q) <==> !IsCompleted(q) && !EqualsIgnoreCase(status, "cancelled"))
            && (EqualsIgnoreCase(status, "cancelled") ==> !IsCompleted(q) && !CanConfirm(q))
  {
    assert Lower("completed") == "completed";
    assert Lower("swapped") == "swapped";
    assert Lower("donated") == "donated";
    assert Lower("cancelled") == "cancelled";
  }

  // ---------------------------------------------------------------------------
  // Rows to records
  // ---------------------------------------------------------------------------

  /** A swap row; a missing string column reads as "", a missing optional one
      as null. */
  datatype SwapRow = SwapRow(
    id: string, status: Option<string>, createdAt: int, completedAt: Option<int>,
    proofPhotoUrl: Option<string>, user1: string, user2: string,
    post1: Option<TradeItem>, post2: Option<TradeItem>)

  datatype DonationRow = DonationRow(
    id: string, status: Option<string>, createdAt: int, completedAt: Option<int>,
    proofPhotoUrl: Option<string>, receiverName: Option<string>, pickupLocation: Option<string>,
    post: Option<TradeItem>, donorId: string, receiverId: string)

  /** A row of the current user's own posts with a completed status. */
  datatype CompletedPostRow = CompletedPostRow(id: string, status: Option<string>, createdAt: int, item: TradeItem)

  predicate IsUser(userId: Option<string>, id: string) {
    userId.Some? && userId.value == id
  }

  /** A swap seen from the current user: their own post is the primary item and
      the other participant is the counterparty. */
  function ParseSwap(userId: Option<string>, row: SwapRow): (r: TradeRecord)
    ensures r.id == row.id && r.tradeType == Swap && r.createdAt == row.createdAt
    ensures r.status == Some(row.status.GetOr("pending"))
    ensures r.completedAt == row.completedAt && r.proofPhotoUrl == row.proofPhotoUrl
    ensures IsUser(userId, row.user1) ==>
              r.primaryItem == row.post1 && r.secondaryItem == row.post2 && r.counterpartyId == Some(row.user2)
    ensures !IsUser(userId, row.user1) ==>
              r.primaryItem == row.post2 && r.secondaryItem == row.post1 && r.counterpartyId == Some(row.user1)
    ensures r.counterpartyName.None? && r.receiverName.None? && r.pickupLocation.None?
  {
    var base := NewRecord(row.id, Swap, row.createdAt)
      .(status := Some(row.status.GetOr("pending")), completedAt := row.completedAt,
        proofPhotoUrl := row.proofPhotoUrl);
    if IsUser(userId, row.user1) then
      base.(primaryItem := row.post1, secondaryItem := row.post2, counterpartyId := Some(row.user2))
    else
      base.(primaryItem := row.post2, secondaryItem := row.post1, counterpartyId := Some(row.user1))
  }

  /** Whichever side the current user is on, the two items of a swap end up
      on the record, one as primary and one as secondary, and the counterparty
      is the participant the current user is not (when user ids differ). */
  lemma SwapOrientation(userId: string, row: SwapRow)
    requires row.user1 != row.user2
    requires userId == row.user1 || userId == row.user2
    ensures var r := ParseSwap(Some(userId), row);
            {r.primaryItem, r.secondaryItem} == {row.post1, row.post2} &&
            r.counterpartyId.Some? && r.counterpartyId.value != userId &&
            r.counterpartyId.value in {row.user1, row.user2}
  {
  }

  /** Seen from the other participant the same swap row is mirrored. */
  lemma SwapMirror(row: SwapRow)
    requires row.user1 != row.user2
    ensures var a := ParseSwap(Some(row.user1), row);
            var b := ParseSwap(Some(row.user2), row);
            a.primaryItem == b.secondaryItem && a.secondaryItem == b.primaryItem &&
            a.counterpartyId == Some(row.user2) && b.counterpartyId == Some(row.user1)
  {
  }

  function ParseDonation(userId: Option<string>, row: DonationRow): (r: TradeRecord)
    ensures r.id == row.id && r.tradeType == Donation && r.createdAt == row.createdAt
    ensures r.status == Some(row.status.GetOr("pending"))
    ensures r.receiverName == row.receiverName && r.pickupLocation == row.pickupLocation
    ensures r.primaryItem == row.post && r.secondaryItem.None?
    ensures r.counterpartyId == Some(if IsUser(userId, row.donorId) then row.receiverId else row.donorId)
    ensures r.completedAt == row.completedAt && r.proofPhotoUrl == row.proofPhotoUrl
    ensures r.counterpartyName.None?
  {
    NewRecord(row.id, Donation, row.createdAt)
      .(status := Some(row.status.GetOr("pending")), completedAt := row.completedAt,
        proofPhotoUrl := row.proofPhotoUrl, receiverName := row.receiverName,
        pickupLocation := row.pickupLocation, primaryItem := row.post,
        counterpartyId := Some(if IsUser(userId, row.donorId) then row.receiverId else row.donorId))
  }

  /** The donor and the receiver see the same donation: the same item, status
      and receiver details, each with the other as counterparty. */
  lemma DonationMirror(row: DonationRow)
    requires row.donorId != row.receiverId
    ensures var a := ParseDonation(Some(row.donorId), row);
            var b := ParseDonation(Some(row.receiverId), row);
            a.counterpartyId == Some(row.receiverId) && b.counterpartyId == Some(row.donorId) &&
            a == b.(counterpartyId := a.counterpartyId)
  {
  }

  function ParseCompletedPost(row: CompletedPostRow): (r: TradeRecord)
    ensures r.id == row.id && r.createdAt == row.createdAt
    ensures r.status == Some(row.status.GetOr("swapped"))
    ensures r.tradeType == Donation <==> EqualsIgnoreCase(row.status.GetOr("swapped"), "donated")
    ensures r.primaryItem == Some(row.item) && r.counterpartyId.None? && r.proofPhotoUrl.None?
  {
    var status := row.status.GetOr("swapped");
    var t := if EqualsIgnoreCase(status, "donated") then Donation else Swap;
    NewRecord(row.id, t, row.createdAt).(status := Some(status), primaryItem := Some(row.item))
  }

  /** Every completed post parses to a completed record when its status is one
      of the completed statuses, and a post without status becomes a swap. */
  lemma CompletedPostKinds(row: CompletedPostRow)
    ensures row.status.None? ==> ParseCompletedPost(row).tradeType == Swap && IsCompleted(ParseCompletedPost(row))
    ensures row.status.Some? && IsCompletedStatus(row.status.value) ==> IsCompleted(ParseCompletedPost(row))
  {
    assert Lower("swapped") == "swapped";
    assert Lower("donated") == "donated";
  }

  /** Counterparty ids whose names are not cached yet. */
  function PendingLookups(records: seq<TradeRecord>, cache: map<string, string>): (ids: set<string>)
    ensures forall id :: id in ids <==>
              id !in cache && |id| > 0 && exists i :: 0 <= i < |records| && records[i].counterpartyId == Some(id)
  {
    set i | 0 <= i < |records| && records[i].counterpartyId.Some? && |records[i].counterpartyId.value| > 0
              && records[i].counterpartyId.value !in cache :: records[i].counterpartyId.value
  }

  // ---------------------------------------------------------------------------
  // Loading and publishing
  // ---------------------------------------------------------------------------

  /** The three fetches (swaps, donations, completed posts) of one refresh. */
  const TradeFetchCount := 3

  datatype AfterPortion = Wait | FetchNames | Publish

  /** One fetch has reported: the counter drops, and only when it reaches zero
      does the screen go on, to name lookups if any are pending. */
  function OnPortionLoaded(pendingLoads: int, lookupsPending: bool): (r: (int, AfterPortion))
    ensures r.0 == pendingLoads - 1
    ensures r.1 == Wait <==> pendingLoads - 1 > 0
    ensures r.1 == FetchNames <==> pendingLoads - 1 <= 0 && lookupsPending
  {
    var n := pendingLoads - 1;
    if n > 0 then (n, Wait)
    else if lookupsPending then (n, FetchNames)
    else (n, Publish)
  }

  /** Reports in order, starting from the count a refresh sets. */
  function AfterReports(pendingLoads: int, k: nat, lookupsPending: bool): (r: (int, AfterPortion))
    requires k >= 1
  {
    if k == 1 then OnPortionLoaded(pendingLoads, lookupsPending)
    else OnPortionLoaded(AfterReports(pendingLoads, k - 1, lookupsPending).0, lookupsPending)
  }

  /** After a refresh, the first two reports wait and the third goes on. */
  lemma {:induction false} PublishOnlyAfterAllPortions(k: nat, lookupsPending: bool)
    requires 1 <= k <= TradeFetchCount
    ensures AfterReports(TradeFetchCount, k, lookupsPending).0 == TradeFetchCount - k
    ensures AfterReports(TradeFetchCount, k, lookupsPending).1 == Wait <==> k < TradeFetchCount
  {
    if k > 1 {
      PublishOnlyAfterAllPortions(k - 1, lookupsPending);
    }
  }

  /** `Long.compare(second.createdAt, first.createdAt)`: newest first. */
  function NewestFirst(a: TradeRecord, b: TradeRecord): bool {
    a.createdAt >= b.createdAt
  }

  lemma NewestFirstIsPreorder()
    ensures Sorting.TotalPreorder(NewestFirst)
  {
  }

  /** The counterparty name from the cache, or null when it is not cached. */
  function WithCachedName(r: TradeRecord, cache: map<string, string>): TradeRecord
  {
    if r.counterpartyId.Some? then
      r.(counterpartyName := if r.counterpartyId.value in cache then Some(cache[r.counterpartyId.value]) else None)
    else r
  }

  /** Every record with a counterparty gets that user's cached name, or null
      when the name is not cached; nothing else about any record changes. */
  function NameAll(records: seq<TradeRecord>, cache: map<string, string>): (named: seq<TradeRecord>)
    ensures |named| == |records|
    ensures forall i :: 0 <= i < |records| && records[i].counterpartyId.None? ==> named[i] == records[i]
    ensures forall i :: 0 <= i < |records| && records[i].counterpartyId.Some? ==>
              && named[i] == records[i].(counterpartyName := named[i].counterpartyName)
              && (records[i].counterpartyId.value in cache <==> named[i].counterpartyName.Some?)
              && (records[i].counterpartyId.value in cache ==>
                    named[i].counterpartyName == Some(cache[records[i].counterpartyId.value]))
  {
    seq(|records|, i requires 0 <= i < |records| => WithCachedName(records[i], cache))
  }

  /** The list the history shows: names filled from the cache, newest first. */
  function PublishTradeRecords(records: seq<TradeRecord>, cache: map<string, string>): (shown: seq<TradeRecord>)
    ensures |shown| == |records|
    ensures multiset(shown) == multiset(NameAll(records, cache))
  {
    Sorting.Sort(NameAll(records, cache), NewestFirst)
  }

  /** Published records are the named input records, newest first, and records
      created at the same instant keep the order they were fetched in. */
  lemma PublishOrder(records: seq<TradeRecord>, cache: map<string, string>, x: TradeRecord)
    ensures Sorting.Sorted(PublishTradeRecords(records, cache), NewestFirst)
    ensures forall i, j :: 0 <= i < j < |records| ==>
              PublishTradeRecords(records, cache)[i].createdAt >= PublishTradeRecords(records, cache)[j].createdAt
    ensures Sorting.EquivClass(PublishTradeRecords(records, cache), NewestFirst, x)
            == Sorting.EquivClass(NameAll(records, cache), NewestFirst, x)
  {
    NewestFirstIsPreorder();
    Sorting.SortSorted(NameAll(records, cache), NewestFirst);
    Sorting.SortStable(NameAll(records, cache), NewestFirst, x);
  }

  // ---------------------------------------------------------------------------
  // Trade history row
  // ---------------------------------------------------------------------------

  datatype ProofStatus = ProofUploaded | ProofMissing | ProofLocked

  /** The proof line shared by the history row and the detail screen. */
  function ProofStatusFor(hasProof: bool, canUpload: bool): (p: ProofStatus)
    ensures p == ProofUploaded <==> hasProof
    ensures p == ProofLocked <==> !hasProof && !canUpload
  {
    if hasProof then ProofUploaded else if canUpload then ProofMissing else ProofLocked
  }

  /** `None` stands for the "unknown partner" or receiver placeholder. */
  datatype PartnerLabel = SwapWith(name: Option<string>) | DonationWith(receiver: Option<string>)

  /** The title shown for the trade (`None` is the app name) and, for a
      donation, the pickup location appended to it. */
  datatype Description = Description(title: Option<string>, pickup: Option<string>)

  datatype HistoryRow = HistoryRow(
    isSwap: bool, confirmed: bool, partner: PartnerLabel, description: Description,
    showSecondary: bool, showConfirm: bool, proof: ProofStatus,
    uploadEnabled: bool, uploadSaysReplace: bool)

  function NonEmpty(s: Option<string>): Option<string> {
    if IsEmptyOpt(s) then None else s
  }

  function BindHistoryRow(r: TradeRecord): (v: HistoryRow)
    ensures v.isSwap <==> r.tradeType == Swap
    ensures v.confirmed <==> IsCompleted(r)
    ensures v.showConfirm <==> CanConfirm(r)
    ensures v.showSecondary <==> r.tradeType == Swap && r.secondaryItem.Some?
    ensures v.uploadEnabled <==> CanUploadProof(r)
    ensures v.uploadSaysReplace <==> !IsEmptyOpt(r.proofPhotoUrl)
    ensures v.proof == ProofStatusFor(!IsEmptyOpt(r.proofPhotoUrl), CanUploadProof(r))
    ensures v.description.pickup.Some? <==> r.tradeType == Donation && !IsEmptyOpt(r.pickupLocation)
    ensures r.tradeType == Swap ==> v.partner == SwapWith(NonEmpty(r.counterpartyName))
    ensures r.tradeType == Donation ==> v.partner == DonationWith(NonEmpty(r.receiverName))
  {
    var isSwap := r.tradeType == Swap;
    var hasProof := !IsEmptyOpt(r.proofPhotoUrl);
    var title := if r.primaryItem.Some? && |r.primaryItem.value.title| > 0 then Some(r.primaryItem.value.title) else None;
    HistoryRow(
      isSwap,
      IsCompleted(r),
      if isSwap then SwapWith(NonEmpty(r.counterpartyName)) else DonationWith(NonEmpty(r.receiverName)),
      Description(title, if !isSwap then NonEmpty(r.pickupLocation) else None),
      isSwap && r.secondaryItem.Some?,
      CanConfirm(r),
      ProofStatusFor(hasProof, CanUploadProof(r)),
      CanUploadProof(r),
      hasProof)
  }

  /** A row never offers both the confirm button and an enabled upload button,
      and a locked proof always comes with a disabled upload button. */
  lemma HistoryRowConsistent(r: TradeRecord)
    ensures !(BindHistoryRow(r).showConfirm && BindHistoryRow(r).uploadEnabled)
    ensures BindHistoryRow(r).proof == ProofLocked ==> !BindHistoryRow(r).uploadEnabled
    ensures BindHistoryRow(r).confirmed <==> BindHistoryRow(r).uploadEnabled
  {
    PredicatesExclusive(r);
  }

  // ---------------------------------------------------------------------------
  // Trade detail screen
  // ---------------------------------------------------------------------------

  /** The extras the detail screen is started with; a missing long is 0. */
  datatype DetailArgs = DetailArgs(
    tradeId: Option<string>, tradeType: Option<string>, counterpartyId: Option<string>,
    currentUserId: Option<string>, proofUrl: Option<string>, canUploadProof: bool,
    completedAt: int, pickup: Option<string>)

  /** The detail screen's state; `pickupLabel` is the pickup location shown
      under the dates, absent when that line is hidden. */
  datatype DetailState = DetailState(ratingAvailable: bool, isCompleted: bool, canUploadProof: bool, proofUrl: Option<string>,
                                     pickupLabel: Option<string>)

  /** The pickup line is shown unless the location is empty or the text
      "null" in any case. */
  predicate ShowPickup(pickup: Option<string>) {
    !IsEmptyOpt(pickup) && !EqualsIgnoreCase(pickup.value, "null")
  }

  function BindDetail(a: DetailArgs): (s: DetailState)
    ensures s.ratingAvailable <==> !IsEmptyOpt(a.tradeId) && !IsEmptyOpt(a.counterpartyId) && !IsEmptyOpt(a.currentUserId)
    ensures s.isCompleted <==> a.completedAt > 0 || !IsEmptyOpt(a.tradeType)
    ensures s.canUploadProof <==> a.canUploadProof || s.isCompleted
    ensures s.proofUrl == a.proofUrl
    ensures s.pickupLabel.Some? <==> a.pickup.Some? && |a.pickup.value| > 0 && Lower(a.pickup.value) != "null"
    ensures s.pickupLabel.Some? ==> s.pickupLabel == a.pickup
  {
    var completed := a.completedAt > 0 || !IsEmptyOpt(a.tradeType);
    DetailState(
      !IsEmptyOpt(a.tradeId) && !IsEmptyOpt(a.counterpartyId) && !IsEmptyOpt(a.currentUserId),
      completed,
      a.canUploadProof || completed,
      a.proofUrl,
      if ShowPickup(a.pickup) then a.pickup else None)
  }

  /** A pickup stored as the text "NULL" is hidden like a missing one, and a
      real place is shown. */
  lemma PickupHidesPlaceholder(a: DetailArgs)
    ensures BindDetail(a.(pickup := Some("NULL"))).pickupLabel.None?
    ensures BindDetail(a.(pickup := Some("Park"))).pickupLabel == Some("Park")
  {
    assert Lower("NULL") == "null";
    assert Lower("Park")[0] == 'p';
  }

  /** Binding only ever turns proof upload on. */
  lemma BindNeverRevokesUpload(a: DetailArgs)
    ensures a.canUploadProof ==> BindDetail(a).canUploadProof
    ensures BindDetail(a).isCompleted ==> BindDetail(a).canUploadProof
  {
  }

  datatype ProofSection = ProofSection(status: ProofStatus, showViewProof: bool, showAddProof: bool, addSaysReplace: bool)

  function RenderProofSection(s: DetailState): (v: ProofSection)
    ensures v.status == ProofStatusFor(!IsEmptyOpt(s.proofUrl), s.canUploadProof)
    ensures v.showViewProof <==> !IsEmptyOpt(s.proofUrl)
    ensures v.showAddProof <==> s.canUploadProof
    ensures v.addSaysReplace <==> s.canUploadProof && !IsEmptyOpt(s.proofUrl)
  {
    var hasProof := !IsEmptyOpt(s.proofUrl);
    ProofSection(ProofStatusFor(hasProof, s.canUploadProof), hasProof, s.canUploadProof,
                 s.canUploadProof && hasProof)
  }

  function OnProofUploaded(s: DetailState, publicUrl: string): (s': DetailState)
    ensures s'.proofUrl == Some(publicUrl) && s'.canUploadProof
    ensures s'.ratingAvailable == s.ratingAvailable && s'.isCompleted == s.isCompleted
  {
    s.(proofUrl := Some(publicUrl), canUploadProof := true)
  }

  /** After a successful upload of a non-empty URL the screen shows the proof
      as uploaded and offers to replace it. */
  lemma UploadedProofShows(s: DetailState, publicUrl: string)
    requires |publicUrl| > 0
    ensures RenderProofSection(OnProofUploaded(s, publicUrl)) == ProofSection(ProofUploaded, true, true, true)
  {
  }

  datatype RatingOutcome = RatingUnavailable | PickRating | SubmitRating(rating: int)

  /** `Math.round` of a non-negative float: the nearest integer, halves up. */
  function RoundHalfUp(x: real): (n: int)
    ensures x - 1.0 / 2.0 < n as real <= x + 1.0 / 2.0
  {
    (x + 1.0 / 2.0).Floor
  }

  function SubmitRatingOutcome(hasClient: bool, ratingAvailable: bool, stars: real): (o: RatingOutcome)
    ensures o == RatingUnavailable <==> !hasClient || !ratingAvailable
    ensures o.SubmitRating? ==> o.rating >= 1 && stars >= 1.0 / 2.0
    ensures o.SubmitRating? ==> o.rating == RoundHalfUp(stars)
    ensures hasClient && ratingAvailable && stars >= 1.0 / 2.0 ==> o.SubmitRating?
  {
    if !hasClient || !ratingAvailable then RatingUnavailable
    else
      var rating := RoundHalfUp(stars);
      if rating < 1 then PickRating else SubmitRating(rating)
  }

  /** A whole number of stars from one up is sent as that number, and half a
      star more rounds up to the next one. */
  lemma WholeStarsSent(n: int)
    requires n >= 1
    ensures SubmitRatingOutcome(true, true, n as real) == SubmitRating(n)
    ensures SubmitRatingOutcome(true, true, n as real + 1.0 / 2.0) == SubmitRating(n + 1)
  {
  }
}

=== FILE: uploads.dfy ===
/** Photo uploads: the power-of-two downscale factor chosen before decoding,
    the storage bucket names with their fallbacks, the ordered list of buckets
    a community photo is tried against, and the checks an upload request goes
    through before anything is sent. */
module Uploads {
  import opened Wrappers
  import opened JavaText
  import opened JavaMath
  import Sequences

  // ---------------------------------------------------------------------------
  // Downscale factor
  // ---------------------------------------------------------------------------

  /** Longest side, in pixels, of a listing photo or community photo, and of
      an avatar. */
  const ListingMaxDimension := 1080
  const CommunityMaxDimension := 1080
  const ProfileMaxDimension := 720

  /** Both sides fit once divided (truncating) by `size`. */
  predicate Fits(width: int, height: int, size: int, maxDimension: int)
    requires size > 0
  {
    JavaDiv(width, size) <= maxDimension && JavaDiv(height, size) <= maxDimension
  }

  /** The smallest power of two that makes both sides fit.  Bounds that
      could not be read arrive as -1 and need no scaling. */
  method SampleSize(width: int, height: int, maxDimension: int) returns (size: int)
    requires maxDimension >= 0
    ensures size >= 1 && IsPowerOfTwo(size)
    ensures Fits(width, height, size, maxDimension)
    ensures size > 1 ==> !Fits(width, height, size / 2, maxDimension)
  {
    size := 1;
    while JavaDiv(width, size) > maxDimension || JavaDiv(height, size) > maxDimension
      invariant size >= 1 && IsPowerOfTwo(size)
      invariant size > 1 ==> !Fits(width, height, size / 2, maxDimension)
      decreases Max(width, height) - size
    {
      JavaDivSmall(width, size);
      JavaDivSmall(height, size);
      DoublePowerOfTwo(size);
      size := 2 * size;
    }
  }

  lemma DoublePowerOfTwo(n: int)
    requires n >= 1 && IsPowerOfTwo(n)
    ensures IsPowerOfTwo(2 * n) && (2 * n) / 2 == n
  {
    assert (2 * n) % 2 == 0;
  }

  // ---------------------------------------------------------------------------
  // Buckets
  // ---------------------------------------------------------------------------

  const DefaultCommunityBucket := "community-photos"
  const DefaultListingsBucket := "listing-photos"
  const DefaultStorageBucket := "ecoswap-images"
  const LegacyPostBucket := "post-images"

  /** The configured bucket, trimmed, or the default when it is null or
      blank. */
  function ResolveBucket(configured: Option<string>, fallback: string): (bucket: string)
    ensures configured.Some? && !IsBlank(configured.value) ==> bucket == Trim(configured.value)
    ensures configured.None? || IsBlank(configured.value) ==> bucket == Trim(fallback)
  {
    if configured.None? || IsBlank(configured.value) then Trim(fallback) else Trim(configured.value)
  }

  /** The defaults are used as written when nothing is configured. */
  lemma DefaultBuckets()
    ensures ResolveBucket(None, DefaultCommunityBucket) == DefaultCommunityBucket
    ensures ResolveBucket(None, DefaultListingsBucket) == DefaultListingsBucket
    ensures ResolveBucket(None, DefaultStorageBucket) == DefaultStorageBucket
  {
    CommunityDefaultIsName();
    ResolveNone(DefaultCommunityBucket);
    ListingsDefaultIsName();
    ResolveNone(DefaultListingsBucket);
    StorageDefaultIsName();
    ResolveNone(DefaultStorageBucket);
  }

  lemma ResolveNone(fallback: string)
    requires IsName(fallback)
    ensures ResolveBucket(None, fallback) == fallback
  {
  }

  /** A usable bucket name: non-empty and already trimmed. */
  predicate IsName(s: string) {
    |s| > 0 && Trim(s) == s
  }

  /** A resolved bucket is always a usable name when its default is. */
  lemma ResolvedBucketIsName(configured: Option<string>, fallback: string)
    requires IsName(fallback)
    ensures IsName(ResolveBucket(configured, fallback))
  {
    if configured.Some? {
      TrimIdempotent(configured.value);
    }
  }

  predicate Distinct(s: seq<string>) {
    forall i, j :: 0 <= i < j < |s| ==> s[i] != s[j]
  }

  predicate AllNames(s: seq<string>) {
    forall i :: 0 <= i < |s| ==> IsName(s[i])
  }

  /** Adds the trimmed name unless it is null, blank or already listed. */
  function AddUniqueBucket(buckets: seq<string>, bucket: Option<string>): (r: seq<string>)
    ensures |buckets| <= |r| <= |buckets| + 1 && r[..|buckets|] == buckets
    ensures |r| == |buckets| + 1 <==> bucket.Some? && !IsBlank(bucket.value) && Trim(bucket.value) !in buckets
    ensures |r| == |buckets| + 1 ==> r[|buckets|] == Trim(bucket.value)
    ensures bucket.Some? && !IsBlank(bucket.value) ==> Trim(bucket.value) in r
    ensures Distinct(buckets) ==> Distinct(r)
    ensures AllNames(buckets) ==> AllNames(r)
  {
    if bucket.None? then buckets
    else
      var trimmed := Trim(bucket.value);
      TrimIdempotent(bucket.value);
      if |trimmed| == 0 || trimmed in buckets then buckets
      else buckets + [trimmed]
  }

  /** `addUniqueBucket` applied to each name in turn, starting empty. */
  function AddAllBuckets(names: seq<string>): seq<string>
    decreases |names|
  {
    if |names| == 0 then [] else AddUniqueBucket(AddAllBuckets(names[..|names| - 1]), Some(names[|names| - 1]))
  }

  /** Adding clean names one by one keeps the first appearance of each, in
      order: exactly `Dedup`. */
  lemma {:induction false} AddAllIsDedup(names: seq<string>)
    requires AllNames(names)
    ensures AddAllBuckets(names) == Sequences.Dedup(names)
    decreases |names|
  {
    if |names| > 0 {
      var init, last := names[..|names| - 1], names[|names| - 1];
      calc {
        AddAllBuckets(names);
        AddUniqueBucket(AddAllBuckets(init), Some(last));
        { AddAllIsDedup(init); }
        AddUniqueBucket(Sequences.Dedup(init), Some(last));
        { AddNameIsDedupStep(Sequences.Dedup(init), init, last); }
        Sequences.Dedup(init + [last]);
        { assert init + [last] == names; }
        Sequences.Dedup(names);
      }
    }
  }

  /** Adding a name to the de-duplicated prefix is one step of `Dedup`. */
  lemma AddNameIsDedupStep(buckets: seq<string>, prefix: seq<string>, name: string)
    requires IsName(name) && buckets == Sequences.Dedup(prefix)
    ensures AddUniqueBucket(buckets, Some(name)) == Sequences.Dedup(prefix + [name])
  {
    AddCleanName(buckets, name);
    DedupSnoc(prefix, name);
  }

  /** A clean name is appended exactly when it is not listed yet. */
  lemma AddCleanName(buckets: seq<string>, name: string)
    requires IsName(name)
    ensures AddUniqueBucket(buckets, Some(name)) == if name in buckets then buckets else buckets + [name]
  {
    TrimIdempotent(name);
  }

  /** One unfolding of `Dedup` at an appended element. */
  lemma DedupSnoc(prefix: seq<string>, name: string)
    ensures Sequences.Dedup(prefix + [name]) ==
            if name in Sequences.Dedup(prefix) then Sequences.Dedup(prefix) else Sequences.Dedup(prefix) + [name]
  {
    var s := prefix + [name];
    assert s[..|s| - 1] == prefix && s[|s| - 1] == name;
  }

  /** The four names in priority order: community, listings, the default
      storage bucket, then the legacy one. */
  function PriorityNames(community: Option<string>, listings: Option<string>, storage: Option<string>): seq<string> {
    [ResolveBucket(community, DefaultCommunityBucket), ResolveBucket(listings, DefaultListingsBucket),
     ResolveBucket(storage, DefaultStorageBucket), LegacyPostBucket]
  }

  lemma PriorityNamesAreNames(community: Option<string>, listings: Option<string>, storage: Option<string>)
    ensures AllNames(PriorityNames(community, listings, storage))
  {
    LegacyIsName();
    CommunityDefaultIsName();
    ListingsDefaultIsName();
    StorageDefaultIsName();
    ResolvedBucketIsName(community, DefaultCommunityBucket);
    ResolvedBucketIsName(listings, DefaultListingsBucket);
    ResolvedBucketIsName(storage, DefaultStorageBucket);
    FourNames(ResolveBucket(community, DefaultCommunityBucket), ResolveBucket(listings, DefaultListingsBucket),
              ResolveBucket(storage, DefaultStorageBucket), LegacyPostBucket);
  }

  lemma FourNames(a: string, b: string, c: string, d: string)
    requires IsName(a) && IsName(b) && IsName(c) && IsName(d)
    ensures AllNames([a, b, c, d])
  {
  }

  /** Adding clean names gives distinct clean names, first name first. */
  lemma AddAllShape(names: seq<string>)
    requires AllNames(names) && |names| > 0
    ensures var r := AddAllBuckets(names);
            && 1 <= |r| <= |names| && Distinct(r) && AllNames(r) && r[0] == names[0]
            && r == Sequences.Dedup(names)
  {
    AddAllIsDedup(names);
    Sequences.DedupShape(names);
    var r := AddAllBuckets(names);
    forall i | 0 <= i < |r|
      ensures IsName(r[i])
    {
      assert r[i] in names;
    }
  }

  /** The buckets a community photo is tried against, each once. */
  function BucketPriorityList(community: Option<string>, listings: Option<string>, storage: Option<string>): (buckets: seq<string>)
    ensures 1 <= |buckets| <= 4 && Distinct(buckets) && AllNames(buckets)
    ensures buckets[0] == ResolveBucket(community, DefaultCommunityBucket)
    ensures buckets == Sequences.Dedup(PriorityNames(community, listings, storage))
  {
    var names := PriorityNames(community, listings, storage);
    PriorityNamesAreNames(community, listings, storage);
    AddAllShape(names);
    AddAllBuckets(names)
  }

  /** Every one of the four names is tried. */
  lemma BucketPriorityListCovers(community: Option<string>, listings: Option<string>, storage: Option<string>)
    ensures var buckets := BucketPriorityList(community, listings, storage);
            && ResolveBucket(listings, DefaultListingsBucket) in buckets
            && ResolveBucket(storage, DefaultStorageBucket) in buckets
            && LegacyPostBucket in buckets
  {
    var names := PriorityNames(community, listings, storage);
    assert names[1] in names && names[2] in names && names[3] in names;
  }

  lemma CommunityDefaultIsName() ensures IsName(DefaultCommunityBucket) {
    TrimOfTrimmed(DefaultCommunityBucket);
  }

  lemma ListingsDefaultIsName() ensures IsName(DefaultListingsBucket) {
    TrimOfTrimmed(DefaultListingsBucket);
  }

  lemma StorageDefaultIsName() ensures IsName(DefaultStorageBucket) {
    TrimOfTrimmed(DefaultStorageBucket);
  }

  lemma LegacyIsName() ensures IsName(LegacyPostBucket) {
    TrimOfTrimmed(LegacyPostBucket);
  }

  /** How the ordered attempt ended: uploaded to a bucket, or every bucket
      refused; `tried` lists the buckets in the order they were attempted. */
  datatype Attempt = Uploaded(bucket: string, url: string, tried: seq<string>)
                   | AllFailed(tried: seq<string>)

  /** Tries `buckets[index..]` in order; `upload` gives the URL a bucket
      returns, or nothing when the upload fails. */
  function AttemptUploadToBuckets(buckets: seq<string>, index: nat, upload: string -> Option<string>): (a: Attempt)
    requires index <= |buckets|
    ensures index + |a.tried| <= |buckets| && a.tried == buckets[index..index + |a.tried|]
    ensures forall i :: 0 <= i < |a.tried| - (if a.Uploaded? then 1 else 0) ==> upload(a.tried[i]).None?
    ensures a.Uploaded? ==> |a.tried| > 0 && a.bucket == a.tried[|a.tried| - 1] && upload(a.bucket) == Some(a.url)
    ensures a.AllFailed? ==> a.tried == buckets[index..]
    decreases |buckets| - index
  {
    if index >= |buckets| then AllFailed([])
    else
      var b := buckets[index];
      match upload(b)
      case Some(url) => Uploaded(b, url, [b])
      case None =>
        var rest := AttemptUploadToBuckets(buckets, index + 1, upload);
        assert buckets[index..] == [b] + buckets[index + 1..];
        assert buckets[index..index + 1 + |rest.tried|] == [b] + rest.tried;
        match rest
        case Uploaded(bk, url, tried) =>
          assert ([b] + tried)[|tried|] == tried[|tried| - 1];
          Uploaded(bk, url, [b] + tried)
        case AllFailed(tried) => AllFailed([b] + tried)
  }

  /** The attempt uploads exactly when some bucket accepts, and then to the
      first such bucket; each bucket is tried at most once. */
  lemma AttemptFindsFirst(buckets: seq<string>, upload: string -> Option<string>)
    requires Distinct(buckets)
    ensures var a := AttemptUploadToBuckets(buckets, 0, upload);
            && (a.Uploaded? <==> exists i :: 0 <= i < |buckets| && upload(buckets[i]).Some?)
            && Distinct(a.tried)
            && (a.Uploaded? ==> exists k :: (0 <= k < |buckets| && buckets[k] == a.bucket &&
                   forall j :: 0 <= j < k ==> upload(buckets[j]).None?))
  {
    var a := AttemptUploadToBuckets(buckets, 0, upload);
    assert buckets[0..] == buckets;
    if a.Uploaded? {
      var k := |a.tried| - 1;
      assert a.tried[k] == buckets[k];
      forall j | 0 <= j < k
        ensures upload(buckets[j]).None?
      {
        assert a.tried[j] == buckets[j];
      }
    } else {
      forall i | 0 <= i < |buckets|
        ensures upload(buckets[i]).None?
      {
        assert a.tried[i] == buckets[i];
      }
    }
  }

  // ---------------------------------------------------------------------------
  // Upload requests
  // ---------------------------------------------------------------------------

  /** The error an undecodable image is reported with. */
  const DecodeFailedMessage := "Failed to decode image"

  /** An upload is either refused with a message or sent to a bucket and
      object path. */
  datatype Request = Refused(message: string) | Send(bucket: string, path: string)

  /** `ListingImageUploader.upload`: the ids and the picked image are checked
      in this order, then the compressed bytes (`compressedSize`, absent when
      the image could not be decoded, which is reported with the decoder's
      message); `uuid` is the random name part. */
  function ListingUpload(ownerId: Option<string>, listingId: Option<string>, hasImage: bool,
                         compressedSize: Option<nat>, uuid: string, configured: Option<string>): (r: Request)
    ensures IsEmptyOpt(ownerId) <==> r == Refused("Missing owner id")
    ensures !IsEmptyOpt(ownerId) && IsEmptyOpt(listingId) <==> r == Refused("Missing listing id")
    ensures !IsEmptyOpt(ownerId) && !IsEmptyOpt(listingId) && !hasImage <==> r == Refused("No image selected")
    ensures r.Send? <==> !IsEmptyOpt(ownerId) && !IsEmptyOpt(listingId) && hasImage && compressedSize.Some? && compressedSize.value > 0
    ensures !IsEmptyOpt(ownerId) && !IsEmptyOpt(listingId) && hasImage && compressedSize.None? ==> r == Refused(DecodeFailedMessage)
    ensures r.Send? ==> r.bucket == ResolveBucket(configured, DefaultListingsBucket)
  {
    if IsEmptyOpt(ownerId) then Refused("Missing owner id")
    else if IsEmptyOpt(listingId) then Refused("Missing listing id")
    else if !hasImage then Refused("No image selected")
    else if compressedSize.None? then Refused(DecodeFailedMessage)
    else if compressedSize.value == 0 then Refused("Unable to process selected image")
    else Send(ResolveBucket(configured, DefaultListingsBucket), ownerId.value + "/" + listingId.value + "/photo_" + uuid + ".jpg")
  }

  /** The object path of a listing photo splits back into owner, listing and
      file name, so photos of different owners or listings never collide. */
  lemma ListingPathSplits(ownerId: string, listingId: string, hasImage: bool, size: nat, uuid: string, configured: Option<string>)
    requires |ownerId| > 0 && |listingId| > 0 && hasImage && size > 0
    requires '/' !in ownerId && '/' !in listingId && '/' !in uuid
    ensures var r := ListingUpload(Some(ownerId), Some(listingId), hasImage, Some(size), uuid, configured);
            r.Send? && SplitAll(r.path, '/') == [ownerId, listingId, "photo_" + uuid + ".jpg"]
  {
    var file := "photo_" + uuid + ".jpg";
    assert '/' !in file by {
      assert file == "photo_" + uuid + ".jpg";
      forall i | 0 <= i < |file| ensures file[i] != '/' {
        if i >= 6 && i < 6 + |uuid| {
          assert file[i] == uuid[i - 6];
        }
      }
    }
    var parts := [ownerId, listingId, file];
    assert Join(parts, '/') == ownerId + "/" + listingId + "/" + file by {
      assert parts[1..] == [listingId, file];
      assert parts[1..][1..] == [file];
      assert Join([file], '/') == file;
      assert Join([listingId, file], '/') == listingId + "/" + file;
      assert Join(parts, '/') == ownerId + "/" + Join([listingId, file], '/');
    }
    assert ownerId + "/" + listingId + "/photo_" + uuid + ".jpg" == ownerId + "/" + listingId + "/" + file;
    SplitAllJoin(parts, '/');
  }

  /** `ProfileImageUploader.upload`: the user id, then the picked image, then
      the compressed bytes. */
  function ProfileUpload(userId: Option<string>, hasImage: bool, compressedSize: Option<nat>,
                         uuid: string, configured: Option<string>): (r: Request)
    ensures IsEmptyOpt(userId) <==> r == Refused("Missing user id")
    ensures !IsEmptyOpt(userId) && !hasImage <==> r == Refused("No image selected")
    ensures r.Send? <==> !IsEmptyOpt(userId) && hasImage && compressedSize.Some? && compressedSize.value > 0
    ensures !IsEmptyOpt(userId) && hasImage && compressedSize.None? ==> r == Refused(DecodeFailedMessage)
    ensures r.Send? ==> r.bucket == ResolveBucket(configured, DefaultStorageBucket)
                        && |r.path| > |userId.value| && r.path[..|userId.value| + 1] == userId.value + "/"
  {
    if IsEmptyOpt(userId) then Refused("Missing user id")
    else if !hasImage then Refused("No image selected")
    else if compressedSize.None? then Refused(DecodeFailedMessage)
    else if compressedSize.value == 0 then Refused("Unable to process selected image")
    else
      var prefix := userId.value + "/";
      var path := prefix + ("profile_" + uuid + ".jpg");
      assert path[..|prefix|] == prefix;
      assert path == userId.value + "/profile_" + uuid + ".jpg";
      Send(ResolveBucket(configured, DefaultStorageBucket), path)
  }

  /** The message reported when storage rejects an upload. */
  function StorageErrorMessage(error: Option<string>): (message: string)
    ensures error.Some? ==> message == error.value
    ensures error.None? ==> message == "Upload failed"
  {
    if error.Some? then error.value else "Upload failed"
  }
}

=== FILE: wrappers.dfy ===
/** Nullable values and JSON payload values shared by every module.
    `Option` stands for a Java reference that may be null; `Json` is one value
    of the JSON objects the app sends to its REST backend. */
module Wrappers {

  datatype Option<+T> = None | Some(value: T) {
    function GetOr(default: T): T {
      match this
      case Some(v) => v
      case None => default
    }
  }

  /** A JSON value as put into a request payload with `addProperty`/`add`. */
  datatype Json = JString(s: string) | JInt(i: int) | JReal(r: real) | JBool(b: bool) | JNull

  /** A JSON object: property name to value. */
  type Payload = map<string, Json>
}
